=== FILE: README.md ===
# grobid-datacat segmentation core, modelled in Dafny

grobid-datacat extracts catalogue entries from PDF library catalogues with two
sequence-labelling models. Each model has a parser that does two things. It
encodes the document's layout into one feature record per unit. It also turns
the labels the model returns back into annotated training text. Two SAX
handlers go the other way: they read annotated TEI and produce labelled
training lines. This project models, as pure functions over immutable data:

- the **segmenter** (`DatacatSegmenterParser`):
  - the table of head and foot patterns;
  - the line encoder, with its one-record look-behind;
  - the training reconstructor (`trainingExtraction`, `writeField`,
    `testClosingTag`), which reads document lines through a line cursor;
- the **body segmentation** parser (`DatacatBodySegmentationParser`):
  - the token encoder (`getBodyTextFeatured`);
  - `getFullTextLength`;
  - the training reconstructor, with its token re-synchronisation;
- the token feature record and its serialiser, `FeaturesVectorDatacatEntries.printVector`;
- the two training-data SAX handlers, `TEIDatacatSegmenterSaxParser` and
  `TEIDatacatBodySegmentationSaxParser`;
- the labels of `DatacatLabels` and the `I-` begin-marker conventions.

Modules:

- **Foundations.**
  - `Wrappers`: `Option`, `Result`.
  - `JavaStrings`: `trim`, `StringTokenizer`, `split`, `replace`, `indexOf`, integer printing.
  - `Labels`: the labels and tag comparisons.
  - `Layout`: document, page, block, token, document piece.
  - `Statuses`: the enumerated features.
  - `Lexicon`: the external lexical helpers, as a record of function values.
- **Shared encoder parts.** `Classify` (capitalisation and digit class),
  `FontTracking` (font and font-size statuses) and `LookBehind` (the one-record
  look-behind buffer).
- **Segmenter.** `SegmenterPatterns`, `SegmenterEncoder`, `SegmenterCoverage`
  (the reference walk over the document's lines), `SegmenterStreams`,
  `LineCursor`, `SegmenterTraining`, `TrainingSpans`.
- **Body segmentation.** `EntriesVector`, `BodyEncoder`, `BodyStreams`,
  `BodyTraining`, `BodyTrainingStreams`.
- **SAX handlers.** `SaxLines`, `SegmenterSax`, `BodySax`.

Each encoder, reconstructor and handler is a state record folded over its input
by a step function. A Java exception becomes an `Err` value. A Java `null`
becomes `None` wherever null and empty behave differently. The lexical helpers
of grobid's core are parameters. The modules never say how these helpers
compute; only their results are used:

- pattern extraction, `filterLine`, `HTMLEncode`, `prefix`, `punctuationProfile`;
- the capital, digit and punctuation matchers, `linearScaling`;
- the tokeniser's delimiter set.

Where the repository's design description and the code disagree, the model
follows the code:

- **Records need three fields.** The segmenter's reconstructor takes a record's
  label from its last field only when the record has at least three fields. With
  two fields the second is read as a second lexical token, so the label is not
  updated. On the first record this fails (`SegmenterTraining.Step`).
- **Whole lines are written.** The segmenter writes whole document lines fetched
  through its line cursor, one per record, each separated by `<lb/>`. It does
  not write the record's token.
- **Records naming no zone consume a line.** A record labelled `<front>`,
  `<body>` or any label outside the seventeen zones fetches its document line
  but writes nothing, so the next zone record writes the line after it.
- **A doubled begin marker breaks the spans.** After a record labelled
  `I-I-<x>`, which names no zone, a record labelled `I-<x>` is taken as
  continuing zone `<x>`: no opening element is written and its line lands
  outside every span (`TrainingSpans.Misread`).

Other behaviour of the code that the model keeps:

- **Segmenter SAX handler.**
  - `writeData` for a name outside the five zones neither writes nor clears the
    accumulator.
  - A line written under `<other>` does not clear `begin`.
  - Ending `body` resets the upper tag but not the upper name.
- **Body SAX handler.**
  - The end of `catEntry` clears the accumulator even when no tag is set.
  - `currentTag` is never reset.

## Model

| member | source | states |
|---|---|---|
| Labels.BaseTag | src/main/java/org/grobid/core/engines/DatacatSegmenterParser.java:1344-1359 | removing the `I-` begin marker: a label that starts with it is the marker followed by the result; any other label is its own base |
| Labels.SameTagIsBaseEquality | src/main/java/org/grobid/core/engines/DatacatSegmenterParser.java:1455-1490 | for element labels, `writeField`'s string test against the previous tag agrees with the closer's base-tag equality, and the label's base is its element |
| SegmenterPatterns.FirstLine | src/main/java/org/grobid/core/engines/DatacatSegmenterParser.java:279-282 | a first line exists only for a non-empty block text and contains no line break |
| SegmenterPatterns.BlockPattern | src/main/java/org/grobid/core/engines/DatacatSegmenterParser.java:276-291 | a block contributes a pattern only if it is longer than 8 characters |
| SegmenterPatterns.Record | src/main/java/org/grobid/core/engines/DatacatSegmenterParser.java:285-291 | recording a pattern: a new one starts at count 1 with its first-time flag false; a known one gains one; every other key and count is unchanged |
| SegmenterPatterns.RecordTallies | src/main/java/org/grobid/core/engines/DatacatSegmenterParser.java:285-291 | recording a pattern keeps the table an exact tally of the patterns seen, with the new pattern appended |
| SegmenterPatterns.TableOfTallies | src/main/java/org/grobid/core/engines/DatacatSegmenterParser.java:273-297 | the table built from a pattern sequence counts each pattern exactly as often as it occurs |
| SegmenterPatterns.TableOfKeysLong | src/main/java/org/grobid/core/engines/DatacatSegmenterParser.java:276-291 | every key of the document's table is longer than 8 characters |
| SegmenterPatterns.RecordPage | src/main/java/org/grobid/core/engines/DatacatSegmenterParser.java:274-296 | the loop over one page's blocks extends the table exactly by the first-line patterns of the page's head and foot blocks |
| SegmenterPatterns.BuildPatternTable | src/main/java/org/grobid/core/engines/DatacatSegmenterParser.java:253-302 | the loop over all pages builds the reference table: an exact tally of the head and foot first-line patterns, with only keys longer than 8 characters |
| SegmenterEncoder.PageEndPatch | src/main/java/org/grobid/core/engines/DatacatSegmenterParser.java:911-921 | the pending record becomes PAGEEND exactly when its successor is PAGESTART, and nothing else of it changes |
| SegmenterEncoder.MaxLength | src/main/java/org/grobid/core/engines/DatacatSegmenterParser.java:807-813 | the longest line length: no line is longer, some line reaches it, and it is 0 without lines |
| SegmenterEncoder.RepetitionOf | src/main/java/org/grobid/core/engines/DatacatSegmenterParser.java:840-852 | repetitive iff the block is a head or foot block and its pattern is counted more than once; first-repetitive iff repetitive and the pattern's flag was still false; the flag becomes true, and no other flag changes or goes back to false |
| SegmenterEncoder.BlockContextOf | src/main/java/org/grobid/core/engines/DatacatSegmenterParser.java:783-817 | a block is encoded exactly when its text and tokens are present and it has a token; its context holds its index, the page's block count, its first token and its lines |
| SegmenterEncoder.AllLinesFeatured | src/main/java/org/grobid/core/engines/DatacatSegmenterParser.java:253-302 | no result iff the document has no block; the too-many-blocks failure iff the block count exceeds the limit; otherwise the records encoded with the document's own pattern table |
| SegmenterStreams.EncodeDocumentInv | src/main/java/org/grobid/core/engines/DatacatSegmenterParser.java:714-1066 | the walk keeps its stream invariant over the whole document: font, size, block, page and repetition statuses as defined record by record |
| SegmenterStreams.CreatedStream | src/main/java/org/grobid/core/engines/DatacatSegmenterParser.java:733-909 | the created records are one per qualifying line of the reference walk over pages, blocks and lines, in document order, each with its line, first word and block token; NEWFONT for the first record and after any font change; each size compared with the previous record's; BLOCKSTART/BLOCKIN/BLOCKEND by line position and the previous BLOCKEND; repetition as head/foot and count > 1; at most one first-repetitive record per pattern |
| SegmenterCoverage.EncodeDocumentTrace | src/main/java/org/grobid/core/engines/DatacatSegmenterParser.java:733-880 | record i comes from the i-th line of the reference walk: pages, then blocks with text and tokens, then their lines whose first word is not empty and that are not filtered; it has that line's page, block and line index, the line, its first word and the block's first token |
| SegmenterStreams.LaggedPageStatuses | src/main/java/org/grobid/core/engines/DatacatSegmenterParser.java:911-921 | after the look-behind patch, a record is PAGEEND iff the next record changes page; PAGESTART iff it is the first or changes page and the next record does not change page; PAGEIN otherwise; nothing else of it changes |
| SegmenterStreams.WrittenStream | src/main/java/org/grobid/core/engines/DatacatSegmenterParser.java:1042-1063 | one-record lag: the output holds every created record exactly once, in creation order, each patched only by its successor and the last unpatched, with the page statuses above |
| FontTracking.FontStep | src/main/java/org/grobid/core/engines/DatacatSegmenterParser.java:972-979 | after a comparison the tracked font is the record's font |
| FontTracking.SizeStep | src/main/java/org/grobid/core/engines/DatacatSegmenterParser.java:981-993 | after a comparison the tracked size is the record's size |
| FontTracking.FontStatusExtends | src/main/java/org/grobid/core/engines/DatacatSegmenterParser.java:972-979 | comparing a new record with the tracked font keeps the rule for the whole stream: NEWFONT iff first, after a record without font, or the font differs from the previous record's |
| FontTracking.SizeStatusExtends | src/main/java/org/grobid/core/engines/DatacatSegmenterParser.java:981-993 | comparing a new record with the tracked size keeps the rule for the whole stream: HIGHERFONT for the first or a larger size, SAMEFONTSIZE for an equal one, LOWERFONT for a smaller one |
| Classify.CapitalisationOf | src/main/java/org/grobid/core/engines/DatacatSegmenterParser.java:927-933 | ALLCAP iff all capitals; otherwise INITCAP iff the first character is upper case; NOCAPS in the remaining case |
| Classify.DigitClassOf | src/main/java/org/grobid/core/engines/DatacatBodySegmentationParser.java:460-467 | ALLDIGIT iff the digit pattern matches; otherwise CONTAINSDIGITS iff a digit occurs; NODIGIT in the remaining case |
| LookBehind.FlushIsLagged | src/main/java/org/grobid/core/engines/DatacatSegmenterParser.java:1042-1063 | pushing records through the look-behind and flushing it gives exactly the lagged stream |
| LineCursor.NextLineIsHead | src/main/java/org/grobid/core/engines/DatacatSegmenterParser.java:1302-1336 | the cursor returns the head of the non-blank, unfiltered lines still ahead in document order and moves past it; it returns nothing exactly when none remain |
| SegmenterTraining.ClosingRenders | src/main/java/org/grobid/core/engines/DatacatSegmenterParser.java:1501-1571 | while the zone stays `testClosingTag` writes nothing; after a change it writes the previous zone's branch of the chain, which is `</x>` and a blank line after each of the sixteen zones `<x>` with an element, only a blank line after `<other>`, nothing after any other label |
| SegmenterTraining.ZoneWrite | src/main/java/org/grobid/core/engines/DatacatSegmenterParser.java:1461-1488 | a null line fails; otherwise the line, with `@BULLET` replaced by the bullet, ends the output, preceded by the zone's opening element exactly when the label differs from the previous one |
| SegmenterTraining.WriteField | src/main/java/org/grobid/core/engines/DatacatSegmenterParser.java:1455-1490 | writes nothing iff the label is neither the field nor `I-` plus the field; fails iff it is and the line is null |
| SegmenterTraining.WriteFields | src/main/java/org/grobid/core/engines/DatacatSegmenterParser.java:1371-1424 | a label that names none of the fields writes nothing |
| SegmenterTraining.ClosingTextShape | src/main/java/org/grobid/core/engines/DatacatSegmenterParser.java:1515-1566 | every branch of the chain closes its own zone: `</x>` and a blank line for each of the sixteen zones `<x>` with an element, the blank line alone for `<other>`, nothing for any other label |
| SegmenterTraining.WriteFieldsPicksZone | src/main/java/org/grobid/core/engines/DatacatSegmenterParser.java:1371-1424 | for a zone label, the chain of `writeField` calls writes exactly what the label's own zone writes |
| SegmenterTraining.WriteRecord | src/main/java/org/grobid/core/engines/DatacatSegmenterParser.java:1338-1425 | a record without a label fails; a written record leaves its label as the last tag and ends the start state |
| SegmenterTraining.Step | src/main/java/org/grobid/core/engines/DatacatSegmenterParser.java:1270-1297 | a blank stream line changes nothing; a record whose label cannot be read fails; a written record leaves its label as the last tag |
| TrainingSpans.TrainingExtractionWrites | src/main/java/org/grobid/core/engines/DatacatSegmenterParser.java:1251-1440 | the training text `SegmenterTraining.TrainingExtraction` returns fails iff some record has no label yet or a zone record meets exhausted document lines; otherwise it renders pieces that hold, encoded and in order, the line each zone record consumed, one `<lb/>` between consecutive records, and spans that close iff no record is misread and the stream does not end on a blank line after a zone record |
| TrainingSpans.ZoneRecordScan | src/main/java/org/grobid/core/engines/DatacatSegmenterParser.java:1340-1425 | after a zone record's line break, closing and writing, the output is inside the record's zone whatever span it was in before, except that a record misread as continuing (`I-<x>` after `I-I-<x>`) puts its line outside every span |
| TrainingSpans.SkipScan | src/main/java/org/grobid/core/engines/DatacatSegmenterParser.java:1340-1425 | a record whose label names no zone (`<front>`, `<body>`, or any other) closes the previous zone when the zone changed, writes nothing, and leaves the output outside every span |
| TrainingSpans.WriteRecordShape | src/main/java/org/grobid/core/engines/DatacatSegmenterParser.java:1300-1425 | a zone record fails without a line and otherwise adds its line break, closing and line; a record naming no zone adds only its line break and closing, whether or not a line was left |
| TrainingSpans.ExtractWritesLines | src/main/java/org/grobid/core/engines/DatacatSegmenterParser.java:1270-1431 | for any label stream: the pass fails iff some record has no label yet or a zone record comes after the retained document lines ran out; otherwise it writes, encoded and in order, the k-th retained line for each zone record k, nothing for a record naming no zone (which still consumes its line), and one `<lb/>` before every record but the first |
| TrainingSpans.PickedAllZones | src/main/java/org/grobid/core/engines/DatacatSegmenterParser.java:1283-1342 | when every record names a zone and the document has a line for each, the written lines are exactly the first n retained lines |
| TrainingSpans.ExtractClosesSpans | src/main/java/org/grobid/core/engines/DatacatSegmenterParser.java:1338-1431 | for any label stream whose pass succeeds: every span is closed and every line sits inside its zone's span iff no record is misread and the stream does not end on a blank line after a zone record |
| EntriesVector.PrintVector | src/main/java/org/grobid/core/features/FeaturesVectorDatacatEntries.java:36-38 | null iff the token string is null or empty; otherwise a line ending in a newline |
| EntriesVector.FieldCount | src/main/java/org/grobid/core/features/FeaturesVectorDatacatEntries.java:42-59 | 25 fields plus one per present block status, line status and punctuation type, led by the token, its lower case and its prefixes of length 1 to 4 |
| EntriesVector.StyleLayout | src/main/java/org/grobid/core/features/FeaturesVectorDatacatEntries.java:53-111 | block and line statuses follow the prefixes when present; then page, font and size statuses, bold and italic flags, capitalisation (NOCAPS for an all-digit token), digit class and the four lexical flags, in this order |
| EntriesVector.TrailLayout | src/main/java/org/grobid/core/features/FeaturesVectorDatacatEntries.java:113-162 | the punctuation type when present, the two relative positions, the profile (`no 0` when null or empty, else the profile and its length), the line length and the repetitive, first-repetitive and main-area flags, which close the list |
| EntriesVector.PrintVectorParses | src/main/java/org/grobid/core/features/FeaturesVectorDatacatEntries.java:39-166 | the line is the fields joined by single spaces plus a newline; when no field contains a space, splitting it on spaces gives back the fields; when none contains a newline, the final newline is the only one |
| BodyEncoder.BodyPatch | src/main/java/org/grobid/core/engines/DatacatBodySegmentationParser.java:337-346 | the pending record becomes PAGEEND when its successor is PAGESTART; BLOCKEND and LINEEND when it is BLOCKIN and its successor is BLOCKSTART; LINEEND when its successor starts a line and it is not itself LINESTART; its block and line statuses change for no other reason, and no other feature changes |
| BodyEncoder.PunctOf | src/main/java/org/grobid/core/engines/DatacatBodySegmentationParser.java:347-368 | OPENBRACKET iff `(` or `[`; ENDBRACKET iff `)` or `]`; DOT, COMMA, HYPHEN and QUOTE iff the matching literal; PUNCT iff no literal but the matcher accepts; NOPUNCT otherwise |
| BodyEncoder.Lookahead | src/main/java/org/grobid/core/engines/DatacatBodySegmentationParser.java:385-434 | the end of a block found by the look-ahead implies the end of a line |
| BodyEncoder.PositionOf | src/main/java/org/grobid/core/engines/DatacatBodySegmentationParser.java:370-434 | the first token is LINESTART/BLOCKSTART; a later last token is LINEEND/BLOCKEND; any other token is LINESTART iff a line break preceded it, else LINEEND iff the look-ahead ends the line and LINEIN otherwise, and BLOCKEND iff a block end was already found or the look-ahead reaches the block's last token, BLOCKIN otherwise |
| BodyEncoder.LookaheadMeetsReference | src/main/java/org/grobid/core/engines/DatacatBodySegmentationParser.java:385-434 | the look-ahead reports a line end iff, before any token it stops at, it meets a line break or the block's last token; and a block end iff one was already found or it reaches the last token without stopping |
| BodyEncoder.TokenStep | src/main/java/org/grobid/core/engines/DatacatBodySegmentationParser.java:266-545 | one token: it is appended to the layout tokens, the position advances by one, the page and document counters grow by the same amount, and at most one record is created |
| BodyEncoder.WindowEnd | src/main/java/org/grobid/core/engines/DatacatBodySegmentationParser.java:249-264 | a block's token window ends at its token count, except in the part's last block, where it ends one past the part's last position, clamped to the count |
| BodyEncoder.EnterBlock | src/main/java/org/grobid/core/engines/DatacatBodySegmentationParser.java:180-188 | entering a block on another page sets `newPage` and resets the page counter and `lowestPos`; on the same page nothing but the visit count changes |
| BodyEncoder.BlockInfoOf | src/main/java/org/grobid/core/engines/DatacatBodySegmentationParser.java:244-272 | the token loop sees the block's index, page and tokens, knows whether it is the part's last block, and stops at the part's end position relative to the block |
| BodyEncoder.FullTextLength | src/main/java/org/grobid/core/engines/DatacatBodySegmentationParser.java:565-578 | the loop returns the start value plus the text length of the tokens the parts cover, and the index failure exactly when the reference length fails |
| BodyEncoder.PiecesLengthFailsOn | src/main/java/org/grobid/core/engines/DatacatBodySegmentationParser.java:565-578 | a failing part makes the whole length computation fail |
| BodyEncoder.BodyTextFeatured | src/main/java/org/grobid/core/engines/DatacatBodySegmentationParser.java:123-560 | null iff the parts are null or empty or there is no block; the too-many-blocks failure iff the count exceeds the limit; otherwise success iff the length and the walk succeed, giving the printed lagged records and the collected layout tokens |
| BodyEncoder.EncodeNeverTooMany | src/main/java/org/grobid/core/engines/DatacatBodySegmentationParser.java:166-556 | the walk itself can fail only with an index failure |
| BodyStreams.LineBreakStartsLine | src/main/java/org/grobid/core/engines/DatacatBodySegmentationParser.java:282-346 | a `"\n"` token creates no record and sets the line-break flag; empty, blank, line-break and filtered tokens after it keep the flag set, so the loop up to the first token that creates a record, when that token lies inside the part, makes exactly one record, marked as closing the previous line and LINESTART unless it is the block's last token, or fails when that token is empty once sanitised |
| BodyStreams.LaggedOutput | src/main/java/org/grobid/core/engines/DatacatBodySegmentationParser.java:531-556 | in the lagged output a record differs from its created form only in its statuses: PAGEEND iff the successor starts a page; BLOCKEND and LINEEND when BLOCKIN before a block start, its block status changing for no other reason; LINEEND when the successor starts a line and it is not LINESTART, its line status changing for no other reason; no printed BLOCKIN record is followed by a printed BLOCKSTART |
| BodyStreams.EncodeBodyStream | src/main/java/org/grobid/core/engines/DatacatBodySegmentationParser.java:166-556 | the layout tokens are exactly the parts' token windows; one record per non-empty, non-blank, unfiltered token, describing it with its document offset; font and size statuses follow the previous record; the output is the one-record lag of the created records |
| BodyTraining.ClosingText | src/main/java/org/grobid/core/engines/DatacatBodySegmentationParser.java:967-994 | an entry, title or title description is closed by `</x>` and a blank line |
| BodyTraining.Closing | src/main/java/org/grobid/core/engines/DatacatBodySegmentationParser.java:967-994 | a closing element is written iff the label changed and the previous one is `<entry>`, `<title>` or `<titledesc>`, and it closes that label |
| BodyTraining.WriteField | src/main/java/org/grobid/core/engines/DatacatBodySegmentationParser.java:925-958 | writes iff the label is present and names the field; with a previous tag, only the token, after a space when one preceded it; with none and a new label, the indented opening element then the bare token |
| BodyTraining.ScanMeetsReference | src/main/java/org/grobid/core/engines/DatacatBodySegmentationParser.java:834-853 | the scan stops one past the first token equal to the record's token, or at the end; it notes a space iff a space or no-break space was passed, and a line break iff `"\n"` was passed |
| BodyTraining.ResyncSpec | src/main/java/org/grobid/core/engines/DatacatBodySegmentationParser.java:832-853 | re-synchronisation: the cursor moves past the first equal token, or stays at its start when the scan ran to the end over more than two tokens, with the space and line-break flags as passed |
| BodyTraining.RecordTag | src/main/java/org/grobid/core/engines/DatacatBodySegmentationParser.java:822-862 | a record with at least two fields sets its trimmed last field as the label; one with fewer keeps the previous label; once set, a label stays set |
| BodyTraining.Step | src/main/java/org/grobid/core/engines/DatacatBodySegmentationParser.java:816-893 | a blank stream line changes nothing; a record ends the start state and only appends to the output |
| BodyTrainingStreams.RecordPiecesKeep | src/main/java/org/grobid/core/engines/DatacatBodySegmentationParser.java:864-893 | one record keeps the output shape: closings only of known tags, the note opened at most once and first, one `<lb/>` at most, and the token appended exactly when its label is `<other>` |
| BodyTrainingStreams.ExtractWritesOthers | src/main/java/org/grobid/core/engines/DatacatBodySegmentationParser.java:800-912 | the written tokens are exactly the encoded tokens of the records labelled `<other>`, in order; only known tags are closed; the note element opens at most once, before any token; there are fewer `<lb/>` than records, or none |
| SaxLines.LineText | src/main/java/org/grobid/trainer/sax/TEIDatacatSegmenterSaxParser.java:165-170 | a labelled line is the token, a space, the optional `I-`, the tag and a newline |
| SegmenterSax.SegmentToken | src/main/java/org/grobid/trainer/sax/TEIDatacatSegmenterSaxParser.java:139-158 | a segment contributes a non-empty token without separators, and a blank segment contributes none |
| SegmenterSax.EmitSegmentsSpec | src/main/java/org/grobid/trainer/sax/TEIDatacatSegmenterSaxParser.java:139-174 | one line per contributing segment, in order, all under the same tag (`<other>` for a null one); only the first carries `I-`, and only when `begin` is set and the tag is not `<other>` |
| SegmenterSax.WriteData | src/main/java/org/grobid/trainer/sax/TEIDatacatSegmenterSaxParser.java:122-177 | outside the five zones (a null name being `other`) nothing changes; inside, the accumulator is cleared, the tags are kept and lines are only appended |
| SegmenterSax.WriteDataLines | src/main/java/org/grobid/trainer/sax/TEIDatacatSegmenterSaxParser.java:122-177 | the appended lines are the segments' tokens under the surface tag (`<other>` for a null name or tag), `I-` on the first only, and never on `<other>` |
| SegmenterSax.EnterZone | src/main/java/org/grobid/trainer/sax/TEIDatacatSegmenterSaxParser.java:96-118 | a zone element sets the current tag to its label; front and body also set the upper tag; front, body and annex set the upper name; nothing else changes |
| SegmenterSax.OnStart | src/main/java/org/grobid/trainer/sax/TEIDatacatSegmenterSaxParser.java:75-120 | `lb`, `pb` and `space` append their markers and change nothing else; any other element flushes the text under the upper zone, then enters its zone |
| SegmenterSax.OnEnd | src/main/java/org/grobid/trainer/sax/TEIDatacatSegmenterSaxParser.java:59-73 | ending a zone writes its text under the current tag, clears the accumulator and resets the current and upper tags; any other end changes nothing |
| SegmenterSax.RunLinesGood | src/main/java/org/grobid/trainer/sax/TEIDatacatSegmenterSaxParser.java:42-177 | after any event sequence, every labelled line has a non-empty token without separators and a zone label, and `I-` never goes with `<other>` |
| SegmenterSax.StartLeavesBlank | src/main/java/org/grobid/trainer/sax/TEIDatacatSegmenterSaxParser.java:86-93 | after a start element other than a marker, no text is left pending |
| BodySax.EmitTokensSpec | src/main/java/org/grobid/trainer/sax/TEIDatacatBodySegmentationSaxParser.java:103-119 | one line per non-empty trimmed piece, in order, under the tag; `I-` on the first only, whatever the tag |
| BodySax.WriteData | src/main/java/org/grobid/trainer/sax/TEIDatacatBodySegmentationSaxParser.java:94-121 | without a current tag nothing changes; with one the accumulator is cleared, the tag kept and lines only appended |
| BodySax.WriteDataLines | src/main/java/org/grobid/trainer/sax/TEIDatacatBodySegmentationSaxParser.java:94-121 | the appended lines are the non-empty trimmed tokens of the text under the current tag, `I-` on the first only |
| BodySax.TokensWithDelimitersJoin | src/main/java/org/grobid/trainer/sax/TEIDatacatBodySegmentationSaxParser.java:101 | tokenising with the delimiters kept loses no character: the tokens concatenate back to the text |
| BodySax.FlushAs | src/main/java/org/grobid/trainer/sax/TEIDatacatBodySegmentationSaxParser.java:77-87 | blank text is dropped; other text is written under the given tag; the accumulator is cleared either way |
| BodySax.OnStart | src/main/java/org/grobid/trainer/sax/TEIDatacatBodySegmentationSaxParser.java:70-92 | `lb` appends one space; any other element flushes pending text as `<other>` and clears the accumulator; `entry` then sets `<entry>`, and flushed text leaves `<other>` |
| BodySax.OnEnd | src/main/java/org/grobid/trainer/sax/TEIDatacatBodySegmentationSaxParser.java:49-68 | `catEntry` writes under the current tag and clears the accumulator; `entry` writes remaining text as `<entry>`; any other end changes nothing |
| BodySax.RunLinesGood | src/main/java/org/grobid/trainer/sax/TEIDatacatBodySegmentationSaxParser.java:32-121 | after any event sequence, every labelled line has a non-empty token and the tag `<entry>` or `<other>`, and nothing is written before a tag is set |

## Left out

- Segmenter record printing: the segmenter's `printVector` belongs to `FeaturesVectorDatacatSegmenter`, which is not part of this model. The line encoder's output is the sequence of records.
- Feature-record printing inside `getFeatureVectorsAsString`: the record fields are modelled, their text is not.
- PDF loading, the `DocumentSource` lifecycle and image handling (`dealWithImages`): file I/O.
- The training-file writers of both parsers: file I/O.
- The `label(...)` calls of the sequence labeller: the model's output is an input here.
- Geometry arithmetic (spacing, density, page height, the `linearScaling` internals, the indentation test): doubles are modelled as exact reals and the discretising helpers are parameters. The `indented` flag and `lineStartX` never reach a record, so they are not modelled.
- Spacing and character density in the body record: computed but never printed.
- The counter `mm`: modelled but never read.
- `getAllBlocksFeatured` and `getFeatureVectorBlocksAsString`: the block-level variant is never called.
- The glue files (batch engines, CLI, factories, configuration loading, `EntryItem`): no logic of the core.
- The lexical helpers of grobid's core (pattern extraction, `filterLine`, `HTMLEncode`, `prefix`, `punctuationProfile`, the matchers, the delimiters): parameters.
- `HTMLEncode` of null: assumed to return null, as grobid's implementation does.
- Null token text: not modelled; a token's text is a string.
- The sorted set of document pieces: modelled as a sequence in its iteration order.
- The graphics lookup of a block: reduced to the block's own fields.
- The block limit: a parameter, not the configured value.
- String lengths: Java's `length()` counts UTF-16 code units, while a Dafny string's length counts characters, so a character outside the Basic Multilingual Plane (such as "𝑥", of Java length 2) counts once here. This affects the single-character feature, the position counter `nn`, `getFullTextLength`, the pattern threshold `pattern.length() > 8` and the longest-line length.
- The SAX handlers' `page` flag: written but never read.
- SAX attributes and namespaces: never read.
- Logging and the warnings the handlers print: not output of the core.
- SegmenterTraining.WriteFields: states only the miss case on its own. The hit case is `SegmenterTraining.WriteFieldsPicksZone`.
- SegmenterSax.WriteData: the removal of `+PAGE+` can itself create a new occurrence of the marker. No contract says anything about page markers left in a token.

=== FILE: body_encoder.dfy ===
/** The body segmentation model's token encoder (`getBodyTextFeatured`): it
    walks the blocks of every body part of the document, token by token, and
    creates one feature record per token that carries text. Each record waits
    in a one-record look-behind buffer, because the next record's creation may
    still end its line, its page or its block; the buffered records are then
    printed with `printVector`.
 */
module BodyEncoder {
  import opened Wrappers
  import opened JavaStrings
  import opened Statuses
  import opened Layout
  import opened Lexicon
  import opened LookBehind
  import opened FontTracking
  import opened Classify
  import opened EntriesVector

  const NbBinsPosition: int := 12
  const NbBinsSpace: int := 5
  const NbBinsDensity: int := 5

  // ---------------------------------------------------------------------------
  // Records

  /** Where a record comes from: the walk's block visit, the block index,
      its page, the token position within the block and the block's token
      count, the position of the token among the collected layout tokens, and
      the token's font and integer font size, against which the next record
      is compared. */
  datatype BodyOrigin = BodyOrigin(visit: nat, block: int, page: int, pos: nat, count: nat, tokenIndex: nat,
                                   font: Option<string>, size: int)

  /** A created record, and whether its creation ended the previous record's
      line (a line start, by line break or by block start). */
  datatype BodyRecord = BodyRecord(features: EntryFeatures, closesLine: bool, origin: BodyOrigin)

  /** The patches the creation of `cur` applies to the pending record `prev`,
      in the source's order: the line end, the page end, and the block
      boundary correction for a block whose last token was not the last
      record. */
  function BodyPatch(prev: BodyRecord, cur: BodyRecord): (r: BodyRecord)
    ensures r.closesLine == prev.closesLine && r.origin == prev.origin
    ensures r.features.pageStatus == (if cur.features.pageStatus == PageStart then PageEnd else prev.features.pageStatus)
    ensures cur.features.blockStatus == Some(BlockStart) && prev.features.blockStatus == Some(BlockIn) ==>
      r.features.blockStatus == Some(BlockEnd) && r.features.lineStatus == Some(LineEnd)
    ensures !(cur.features.blockStatus == Some(BlockStart) && prev.features.blockStatus == Some(BlockIn)) ==>
      r.features.blockStatus == prev.features.blockStatus
    ensures cur.closesLine && prev.features.lineStatus != Some(LineStart) ==> r.features.lineStatus == Some(LineEnd)
    ensures !(cur.features.blockStatus == Some(BlockStart) && prev.features.blockStatus == Some(BlockIn)) &&
            !(cur.closesLine && prev.features.lineStatus != Some(LineStart)) ==>
      r.features.lineStatus == prev.features.lineStatus
    ensures r.features == prev.features.(pageStatus := r.features.pageStatus, lineStatus := r.features.lineStatus,
                                         blockStatus := r.features.blockStatus)
  {
    var f := prev.features;
    var correct := cur.features.blockStatus == Some(BlockStart) && f.blockStatus == Some(BlockIn);
    var line := if correct || (cur.closesLine && f.lineStatus != Some(LineStart)) then Some(LineEnd) else f.lineStatus;
    var page := if cur.features.pageStatus == PageStart then PageEnd else f.pageStatus;
    var block := if correct then Some(BlockEnd) else f.blockStatus;
    var f' := f.(lineStatus := line, pageStatus := page, blockStatus := block);
    prev.(features := f')
  }

  /** The punctuation class: the literal classes override the `isPunct` match. */
  function PunctOf(h: Helpers, text: string): (p: PunctType)
    ensures p == OpenBracket <==> text == "(" || text == "["
    ensures p == EndBracket <==> text == ")" || text == "]"
    ensures p == Dot <==> text == "."
    ensures p == Comma <==> text == ","
    ensures p == Hyphen <==> text == "-"
    ensures p == Quote <==> text == "\"" || text == "'" || text == "`"
    ensures p == Punct <==> !IsLiteralPunct(text) && h.isPunct(text)
    ensures p == NoPunct <==> !IsLiteralPunct(text) && !h.isPunct(text)
  {
    if text == "(" || text == "[" then OpenBracket
    else if text == ")" || text == "]" then EndBracket
    else if text == "." then Dot
    else if text == "," then Comma
    else if text == "-" then Hyphen
    else if text == "\"" || text == "'" || text == "`" then Quote
    else if h.isPunct(text) then Punct
    else NoPunct
  }

  /** The texts with a punctuation class of their own. */
  predicate IsLiteralPunct(text: string) {
    text in {"(", "[", ")", "]", ".", ",", "-", "\"", "'", "`"}
  }

  // ---------------------------------------------------------------------------
  // Line and block position of a token

  /** A token the look-ahead stops at: one with text that is neither an image
      nor a page marker, unless the current token's own text names an image
      file. */
  predicate StopsLookahead(toto: string, text: string) {
    && |toto| != 0
    && !StartsWith(toto, "@IMAGE") && !StartsWith(toto, "@PAGE")
    && !Contains(text, ".pbm") && !Contains(text, ".svg")
    && !Contains(text, ".png") && !Contains(text, ".jpg")
  }

  /** The look-ahead from position `k` after the current token: whether the
      line ends (a line break token comes first, or the scan reaches the
      block's last token) and whether the block end was reached. */
  function Lookahead(tokens: seq<Token>, text: string, k: nat, endblock: bool): (r: (bool, bool))
    ensures endblock ==> r.1
    ensures r.1 && !endblock ==> r.0
    decreases |tokens| - k
  {
    if k >= |tokens| then (false, endblock)
    else
      var toto := tokens[k].text;
      var atEnd := k == |tokens| - 1;
      if atEnd then (true, true)
      else if toto == "\n" then (true, endblock)
      else if StopsLookahead(toto, text) then (false, endblock)
      else Lookahead(tokens, text, k + 1, endblock)
  }

  /** The look-ahead halts at a token: a line break, or a token it stops at. */
  predicate Halts(toto: string, text: string) {
    toto == "\n" || StopsLookahead(toto, text)
  }

  /** Reference: the look-ahead from `k` reaches the block's last token
      without halting before it. */
  predicate ReachesEnd(tokens: seq<Token>, text: string, k: nat) {
    k < |tokens| && forall i :: k <= i < |tokens| - 1 ==> !Halts(tokens[i].text, text)
  }

  /** Reference: the look-ahead from `k` ends the line: before any token it
      stops at, it meets a line break or the block's last token. */
  predicate EndsLine(tokens: seq<Token>, text: string, k: nat) {
    exists j :: k <= j < |tokens| && (tokens[j].text == "\n" || j == |tokens| - 1) &&
      forall i :: k <= i < j ==> !Halts(tokens[i].text, text)
  }

  /** The look-ahead decides the line end and the block end as the references say. */
  lemma {:induction false} LookaheadMeetsReference(tokens: seq<Token>, text: string, k: nat, endblock: bool)
    ensures Lookahead(tokens, text, k, endblock).0 <==> EndsLine(tokens, text, k)
    ensures Lookahead(tokens, text, k, endblock).1 <==> endblock || ReachesEnd(tokens, text, k)
    decreases |tokens| - k
  {
    if k < |tokens| {
      var toto := tokens[k].text;
      if k == |tokens| - 1 {
        assert EndsLine(tokens, text, k) by {
          assert k <= k < |tokens| && (tokens[k].text == "\n" || k == |tokens| - 1);
        }
      } else if toto == "\n" {
        assert EndsLine(tokens, text, k) by {
          assert k <= k < |tokens| && tokens[k].text == "\n";
        }
        assert !ReachesEnd(tokens, text, k) by {
          assert Halts(tokens[k].text, text);
        }
      } else if StopsLookahead(toto, text) {
        assert Halts(tokens[k].text, text);
        assert !ReachesEnd(tokens, text, k);
      } else {
        LookaheadMeetsReference(tokens, text, k + 1, endblock);
        assert !Halts(tokens[k].text, text);
        assert ReachesEnd(tokens, text, k) <==> ReachesEnd(tokens, text, k + 1);
        if EndsLine(tokens, text, k + 1) {
          var j :| k + 1 <= j < |tokens| && (tokens[j].text == "\n" || j == |tokens| - 1) &&
            forall i :: k + 1 <= i < j ==> !Halts(tokens[i].text, text);
          assert k <= j;
        }
        if EndsLine(tokens, text, k) {
          var j :| k <= j < |tokens| && (tokens[j].text == "\n" || j == |tokens| - 1) &&
            forall i :: k <= i < j ==> !Halts(tokens[i].text, text);
          assert j != k;
          assert EndsLine(tokens, text, k + 1);
        }
      }
    }
  }

  /** The line and block status of an emitted token at position `n`, and the
      block scan's `previousNewline` and `endblock` afterwards. */
  datatype Position = Position(line: LineStatus, block: BlockStatus, previousNewline: bool, endblock: bool)

  function PositionOf(tokens: seq<Token>, n: nat, text: string, newline: bool, endblock: bool): (p: Position)
    requires n < |tokens|
    ensures n == 0 ==> p.line == LineStart && p.block == BlockStart && !p.previousNewline && p.endblock == endblock
    ensures n != 0 && n == |tokens| - 1 ==> p.line == LineEnd && p.block == BlockEnd && p.previousNewline && p.endblock
    ensures 0 < n < |tokens| - 1 && newline ==> p.line == LineStart && !p.previousNewline
    ensures n != 0 ==> p.block != BlockStart
    ensures endblock ==> p.endblock
    ensures n != 0 && p.endblock ==> p.block == BlockEnd
    ensures 0 < n < |tokens| - 1 ==>
      && (p.line == LineStart <==> newline)
      && (p.line == LineEnd <==> !newline && EndsLine(tokens, text, n + 1))
      && (p.line == LineIn <==> !newline && !EndsLine(tokens, text, n + 1))
      && (p.previousNewline <==> !newline && EndsLine(tokens, text, n + 1))
      && (p.endblock <==> endblock || ReachesEnd(tokens, text, n + 1))
      && (p.block == BlockEnd <==> endblock || ReachesEnd(tokens, text, n + 1))
      && (p.block == BlockIn <==> !endblock && !ReachesEnd(tokens, text, n + 1))
  {
    if n == 0 then Position(LineStart, BlockStart, false, endblock)
    else if n == |tokens| - 1 then Position(LineEnd, BlockEnd, true, true)
    else
      LookaheadMeetsReference(tokens, text, n + 1, endblock);
      var ahead := Lookahead(tokens, text, n + 1, endblock);
      var endline := ahead.0;
      var eb := ahead.1;
      var line := if !endline && !newline then LineIn else if !newline then LineEnd else LineStart;
      Position(line, if !eb then BlockIn else BlockEnd, endline && !newline, eb)
  }

  // ---------------------------------------------------------------------------
  // Walk state

  /** The running state of the walk: tracked font and size, `newPage`, the
      page and document position counters `mm` and `nn`, `lowestPos`, the
      current page, the block visits so far, the look-behind buffer, the
      records as created and the layout tokens collected. */
  datatype BodyState = BodyState(
    font: Option<string>,
    fontSize: int,
    newPage: bool,
    mm: int,
    nn: int,
    lowestPos: real,
    currentPage: int,
    visits: nat,
    buffer: Buffer<BodyRecord>,
    created: seq<BodyRecord>,
    layoutTokens: seq<Token>)

  const InitialBodyState: BodyState :=
    BodyState(None, -1, true, 0, 0, 0.0, 0, 0, Empty(), [], [])

  /** What the walk knows about the block being scanned. */
  datatype BlockInfo = BlockInfo(
    index: int,
    page: int,
    pageHeight: real,
    spacing: real,
    density: real,
    tokens: seq<Token>,
    isLast: bool,        // the last block of its document part
    stopDoc: int)        // `dp2.getTokenDocPos() - block.getStartToken()`

  /** The per-block scan variables: token position, `previousNewline`, `endblock`. */
  datatype BlockScan = BlockScan(n: int, previousNewline: bool, endblock: bool)

  /** The relative page position, clamped to the number of bins. */
  function ClampedPagePosition(h: Helpers, y: real, pageHeight: real): (r: int)
    ensures r <= NbBinsPosition
    ensures r == NbBinsPosition || r == h.linearScaling(y, pageHeight, NbBinsPosition)
  {
    var pagePos := h.linearScaling(y, pageHeight, NbBinsPosition);
    if pagePos > NbBinsPosition then NbBinsPosition else pagePos
  }

  /** The record of an emitted token with sanitised text `text`. */
  function MakeFeatures(h: Helpers, doc: Document, info: BlockInfo, tok: Token, text: string, p: Position,
                        newPage: bool, fontStatus: FontStatus, sizeStatus: FontSizeStatus, nn: int, fulltextLength: int): (f: EntryFeatures)
    requires |text| > 0
    ensures f.text == Some(text)
    ensures f.relativePagePosition <= NbBinsPosition
    ensures f.pageStatus == (if newPage then PageStart else PageIn)
    ensures f.blockStatus == Some(p.block) && f.lineStatus == Some(p.line) && f.punctType.Some?
  {
    EntryFeatures(
      text := Some(text),
      blockStatus := Some(p.block),
      lineStatus := Some(p.line),
      pageStatus := if newPage then PageStart else PageIn,
      fontStatus := fontStatus,
      fontSize := sizeStatus,
      bold := tok.bold,
      italic := tok.italic,
      capitalisation := CapitalisationOf(h, text),
      digit := DigitClassOf(h, text),
      singleChar := |text| == 1,
      properName := false,
      commonName := false,
      firstName := false,
      punctType := Some(PunctOf(h, text)),
      relativeDocumentPosition := h.linearScaling(nn as real, fulltextLength as real, NbBinsPosition),
      relativePagePosition := ClampedPagePosition(h, tok.y, info.pageHeight),
      punctuationProfile := None,
      lineLength := 0,
      inMainArea := true,
      repetitivePattern := false,
      firstRepetitivePattern := false,
      spacingWithPreviousBlock :=
        if info.spacing != 0.0 then
          h.linearScaling(info.spacing - doc.minBlockSpacing, doc.maxBlockSpacing - doc.minBlockSpacing, NbBinsSpace)
        else 0,
      characterDensity :=
        if info.density != -1.0 then
          h.linearScaling(info.density - doc.minCharacterDensity, doc.maxCharacterDensity - doc.minCharacterDensity, NbBinsDensity)
        else 0)
  }

  /** A token whose text, without its spaces, is empty or a single line break:
      it advances the position counters by one but creates no record. */
  predicate IsBlankToken(t: string) {
    |t| > 0 && (|RemoveChars(t, {' '})| == 0 || RemoveChars(t, {' '}) == "\n")
  }

  /** A created record enters the buffer and the trace, and the counters
      advance by its text length. */
  function Emit(st: BodyState, r: BodyRecord, length: nat): BodyState {
    st.(font := r.origin.font, fontSize := r.origin.size, newPage := false,
        mm := st.mm + length, nn := st.nn + length,
        buffer := Push(st.buffer, r, BodyPatch), created := st.created + [r])
  }

  /** The record of the token at position `bs.n` with sanitised text `text`,
      compared with the walk's tracked font and size. */
  function NewRecord(h: Helpers, doc: Document, info: BlockInfo, fulltextLength: int, st: BodyState, bs: BlockScan, text: string): (r: BodyRecord)
    requires 0 <= bs.n < |info.tokens| && |text| > 0
    ensures r.origin.tokenIndex == |st.layoutTokens| && r.origin.visit == st.visits && r.origin.page == info.page
  {
    var tok := info.tokens[bs.n];
    var p := PositionOf(info.tokens, bs.n, text, bs.previousNewline, bs.endblock);
    var size := TruncateToInt(tok.fontSize);
    var fontStatus := FontStep(st.font, tok.font).0;
    var sizeStatus := SizeStep(st.fontSize, size).0;
    var f := MakeFeatures(h, doc, info, tok, text, p, st.newPage, fontStatus, sizeStatus, st.nn, fulltextLength);
    var o := BodyOrigin(st.visits, info.index, info.page, bs.n, |info.tokens|, |st.layoutTokens|, tok.font, size);
    BodyRecord(f, bs.previousNewline || bs.n == 0, o)
  }

  /** One token of the block at position `bs.n`, inside the window: it is
      collected into the layout tokens first, whatever follows. */
  function TokenStep(h: Helpers, doc: Document, info: BlockInfo, fulltextLength: int, st0: BodyState, bs: BlockScan): (r: Result<(BodyState, BlockScan)>)
    requires 0 <= bs.n < |info.tokens|
    ensures r.Ok? ==> r.value.1.n == bs.n + 1
    ensures r.Ok? ==> r.value.0.layoutTokens == st0.layoutTokens + [info.tokens[bs.n]]
    ensures r.Ok? ==> r.value.0.mm - st0.mm == r.value.0.nn - st0.nn >= 0
    ensures r.Ok? ==> r.value.0.created == st0.created || |r.value.0.created| == |st0.created| + 1
  {
    var tok := info.tokens[bs.n];
    var st := st0.(layoutTokens := st0.layoutTokens + [tok]);
    var next := bs.(n := bs.n + 1);
    if |tok.text| == 0 then Ok((st, next))
    else
      var text1 := RemoveChars(tok.text, {' '});
      if |text1| == 0 then Ok((st.(mm := st.mm + 1, nn := st.nn + 1), next))
      else if text1 == "\n" then Ok((st.(mm := st.mm + 1, nn := st.nn + 1), next.(previousNewline := true)))
      else
        var text := RemoveChars(text1, {' ', '\n'});
        if h.filterLine(Some(text)) then Ok((st, next))
        else if |text| == 0 then Err(IndexOutOfRange("charAt(0) of an empty token"))
        else
          var p := PositionOf(info.tokens, bs.n, text, bs.previousNewline, bs.endblock);
          var r := NewRecord(h, doc, info, fulltextLength, st0, bs, text);
          Ok((Emit(st, r, |text|), BlockScan(bs.n + 1, p.previousNewline, p.endblock)))
  }

  /** The token loop of a block, from `bs.n` up to `lastPos`; in the last block
      of a part it also stops past the part's last document token. */
  function EncodeTokens(h: Helpers, doc: Document, info: BlockInfo, fulltextLength: int, lastPos: int,
                        st: BodyState, bs: BlockScan): Result<BodyState>
    requires lastPos <= |info.tokens|
    decreases lastPos - bs.n
  {
    if bs.n >= lastPos then Ok(st)
    else if info.isLast && bs.n > info.stopDoc then Ok(st)
    else if bs.n < 0 then Err(IndexOutOfRange("tokens.get with a negative position"))
    else
      match TokenStep(h, doc, info, fulltextLength, st, bs)
      case Err(e) => Err(e)
      case Ok(next) => EncodeTokens(h, doc, info, fulltextLength, lastPos, next.0, next.1)
  }

  /** The first token position of a block within a part. */
  function WindowStart(piece: DocumentPiece, bi: int): int {
    if bi == piece.left.blockPtr then piece.left.tokenBlockPos else 0
  }

  /** One past the last token position of a block within a part: the part's
      last position plus one in its last block, clamped to the token count. */
  function WindowEnd(piece: DocumentPiece, bi: int, count: nat): (e: int)
    ensures e <= count
    ensures bi != piece.right.blockPtr ==> e == count
    ensures bi == piece.right.blockPtr ==> e == (if piece.right.tokenBlockPos + 1 > count then count else piece.right.tokenBlockPos + 1)
  {
    if bi == piece.right.blockPtr then
      var lastPos := piece.right.tokenBlockPos + 1;
      if lastPos > count then count else lastPos
    else count
  }

  /** The character density of a block: zero unless the block has a size and
      a text free of page and image markers. */
  function Density(b: Block): real {
    if b.height != 0.0 && b.width != 0.0 && b.text.Some?
       && !Contains(b.text.value, "@PAGE") && !Contains(b.text.value, "@IMAGE")
    then (|b.text.value| as real) / (b.height * b.width)
    else 0.0
  }

  /** The walk's entry into a block: a page change sets `newPage` and resets
      the page counter and `lowestPos`. */
  function EnterBlock(st: BodyState, b: Block): (st': BodyState)
    ensures st'.visits == st.visits + 1 && st'.currentPage == b.pageNumber
    ensures b.pageNumber != st.currentPage ==> st'.newPage && st'.mm == 0 && st'.lowestPos == 0.0
    ensures b.pageNumber == st.currentPage ==> st' == st.(visits := st.visits + 1)
  {
    var st1 := st.(visits := st.visits + 1);
    if b.pageNumber != st.currentPage then st1.(newPage := true, currentPage := b.pageNumber, mm := 0, lowestPos := 0.0)
    else st1
  }

  /** The vertical spacing with the previous block: a default when the block
      lies above it (a column change). */
  function Spacing(doc: Document, lowestPos: real, b: Block): real {
    if lowestPos > b.y then doc.maxBlockSpacing / 5.0 else b.y - lowestPos
  }

  /** What the token loop of block `bi` of a part knows about it. */
  function BlockInfoOf(doc: Document, piece: DocumentPiece, bi: int, b: Block, tokens: seq<Token>, lowestPos: real): (info: BlockInfo)
    ensures info.index == bi && info.page == b.pageNumber && info.tokens == tokens
    ensures info.isLast == (bi == piece.right.blockPtr) && info.stopDoc == piece.right.tokenDocPos - b.startToken
  {
    BlockInfo(bi, b.pageNumber, b.pageHeight, Spacing(doc, lowestPos, b), Density(b), tokens,
              bi == piece.right.blockPtr, piece.right.tokenDocPos - b.startToken)
  }

  /** One block of a part. A filtered block text or a block without tokens is
      skipped without updating `lowestPos`. */
  function EncodeBlock(h: Helpers, doc: Document, piece: DocumentPiece, bi: int, fulltextLength: int, st: BodyState): Result<BodyState> {
    if bi < 0 || bi >= |doc.blocks| then Err(IndexOutOfRange("blocks.get"))
    else
      var b := doc.blocks[bi];
      var st1 := EnterBlock(st, b);
      if h.filterLine(b.text) then Ok(st1)
      else if b.tokens.None? then Ok(st1)
      else
        var tokens := b.tokens.value;
        var info := BlockInfoOf(doc, piece, bi, b, tokens, st1.lowestPos);
        match EncodeTokens(h, doc, info, fulltextLength, WindowEnd(piece, bi, |tokens|), st1,
                           BlockScan(WindowStart(piece, bi), false, false))
        case Err(e) => Err(e)
        case Ok(st2) => Ok(st2.(lowestPos := b.y + b.height))
  }

  /** The blocks `bi..dp2.getBlockPtr()` of a part. */
  function EncodePieceBlocks(h: Helpers, doc: Document, piece: DocumentPiece, bi: int, fulltextLength: int, st: BodyState): Result<BodyState>
    decreases piece.right.blockPtr + 1 - bi
  {
    if bi > piece.right.blockPtr then Ok(st)
    else
      match EncodeBlock(h, doc, piece, bi, fulltextLength, st)
      case Err(e) => Err(e)
      case Ok(st1) => EncodePieceBlocks(h, doc, piece, bi + 1, fulltextLength, st1)
  }

  /** The parts, in the sorted set's order. */
  function EncodePieces(h: Helpers, doc: Document, parts: seq<DocumentPiece>, fulltextLength: int, st: BodyState): Result<BodyState>
    decreases |parts|
  {
    if |parts| == 0 then Ok(st)
    else
      match EncodePieceBlocks(h, doc, parts[0], parts[0].left.blockPtr, fulltextLength, st)
      case Err(e) => Err(e)
      case Ok(st1) => EncodePieces(h, doc, parts[1..], fulltextLength, st1)
  }

  // ---------------------------------------------------------------------------
  // getFullTextLength

  function TextLengths(ts: seq<Token>): nat {
    if |ts| == 0 then 0 else TextLengths(ts[..|ts| - 1]) + |ts[|ts| - 1].text|
  }

  /** The document positions a part covers: its first to its last token,
      cut at the end of the tokenization. */
  function PieceStop(toks: seq<Token>, piece: DocumentPiece): int {
    if piece.right.tokenDocPos + 1 < |toks| then piece.right.tokenDocPos + 1 else |toks|
  }

  /** A part whose range is not empty but starts at a negative position fails. */
  predicate PieceFails(toks: seq<Token>, piece: DocumentPiece) {
    piece.left.tokenDocPos < 0 && piece.left.tokenDocPos < PieceStop(toks, piece)
  }

  /** Reference: the text length of the tokens of a part. */
  function PieceLength(toks: seq<Token>, piece: DocumentPiece): nat
    requires !PieceFails(toks, piece)
  {
    var a := piece.left.tokenDocPos;
    var e := PieceStop(toks, piece);
    if a >= e then 0 else TextLengths(toks[a..e])
  }

  /** Reference: the total text length of the parts. */
  function PiecesLength(toks: seq<Token>, parts: seq<DocumentPiece>): Result<nat> {
    if |parts| == 0 then Ok(0)
    else
      match PiecesLength(toks, parts[..|parts| - 1])
      case Err(e) => Err(e)
      case Ok(n) =>
        var last := parts[|parts| - 1];
        if PieceFails(toks, last) then Err(IndexOutOfRange("tokenizations.get")) else Ok(n + PieceLength(toks, last))
  }

  /** `getFullTextLength`: the number of characters of the document tokens
      the parts cover, a part's tokens counted once per part. */
  method FullTextLength(doc: Document, parts: seq<DocumentPiece>, start: int) returns (r: Result<int>)
    ensures PiecesLength(doc.tokenizations, parts).Err? <==> r.Err?
    ensures r.Err? ==> r.failure.IndexOutOfRange?
    ensures r.Ok? ==> r.value == start + PiecesLength(doc.tokenizations, parts).value
  {
    var toks := doc.tokenizations;
    var total := start;
    var k := 0;
    while k < |parts|
      invariant 0 <= k <= |parts|
      invariant PiecesLength(toks, parts[..k]).Ok?
      invariant total == start + PiecesLength(toks, parts[..k]).value
    {
      var piece := parts[k];
      assert parts[..k + 1][..k] == parts[..k];
      assert parts[..k + 1][k] == piece;
      var i := piece.left.tokenDocPos;
      var e := PieceStop(toks, piece);
      if i < 0 && i < e {
        assert PiecesLength(toks, parts[..k + 1]).Err?;
        PiecesLengthFailsOn(toks, parts, k + 1);
        return Err(IndexOutOfRange("tokenizations.get"));
      }
      var sum := 0;
      while i <= piece.right.tokenDocPos && i < |toks|
        invariant piece.left.tokenDocPos >= e ==> i == piece.left.tokenDocPos
        invariant piece.left.tokenDocPos < e ==> piece.left.tokenDocPos <= i <= e
        invariant piece.left.tokenDocPos < e ==> 0 <= piece.left.tokenDocPos && sum == TextLengths(toks[piece.left.tokenDocPos..i])
        invariant piece.left.tokenDocPos >= e ==> sum == 0
        decreases |toks| - i
      {
        assert toks[piece.left.tokenDocPos..i + 1][..i - piece.left.tokenDocPos] == toks[piece.left.tokenDocPos..i];
        sum := sum + |toks[i].text|;
        i := i + 1;
      }
      total := total + sum;
      k := k + 1;
    }
    assert parts[..|parts|] == parts;
    r := Ok(total);
  }

  /** Once a prefix of the parts fails, so does every longer prefix. */
  lemma {:induction false} PiecesLengthFailsOn(toks: seq<Token>, parts: seq<DocumentPiece>, k: nat)
    requires k <= |parts|
    requires PiecesLength(toks, parts[..k]).Err?
    ensures PiecesLength(toks, parts).Err?
    decreases |parts| - k
  {
    if k < |parts| {
      assert parts[..k + 1][..k] == parts[..k];
      PiecesLengthFailsOn(toks, parts, k + 1);
    } else {
      assert parts[..k] == parts;
    }
  }

  // ---------------------------------------------------------------------------
  // getBodyTextFeatured

  /** A printed record as the text builder appends it (a null vector prints as "null"). */
  function Printed(h: Helpers, f: EntryFeatures): string {
    match PrintVector(h, f)
    case None => "null"
    case Some(s) => s
  }

  function PrintAll(h: Helpers, rs: seq<BodyRecord>): string {
    if |rs| == 0 then "" else PrintAll(h, rs[..|rs| - 1]) + Printed(h, rs[|rs| - 1].features)
  }

  /** The walk over all parts, from the initial state. */
  function EncodeBody(h: Helpers, doc: Document, parts: seq<DocumentPiece>, fulltextLength: int): Result<BodyState> {
    EncodePieces(h, doc, parts, fulltextLength, InitialBodyState)
  }

  /** The feature text and the layout tokens of the body parts; none for a
      null or empty part set or a document without blocks. */
  method BodyTextFeatured(h: Helpers, doc: Document, parts: Option<seq<DocumentPiece>>, maxBlocks: int)
    returns (r: Result<Option<(string, seq<Token>)>>)
    ensures (parts.None? || |parts.value| == 0 || |doc.blocks| == 0) <==> r == Ok(None)
    ensures r.Err? && r.failure.TooManyBlocks? <==>
      parts.Some? && |parts.value| > 0 && |doc.blocks| > 0 && |doc.blocks| > maxBlocks
    ensures parts.Some? && |parts.value| > 0 && 0 < |doc.blocks| <= maxBlocks ==>
      (r.Ok? <==> PiecesLength(doc.tokenizations, parts.value).Ok?
                  && EncodeBody(h, doc, parts.value, PiecesLength(doc.tokenizations, parts.value).value).Ok?)
    ensures r.Ok? && r.value.Some? ==>
      var st := EncodeBody(h, doc, parts.value, PiecesLength(doc.tokenizations, parts.value).value).value;
      r.value.value == (PrintAll(h, Flush(st.buffer)), st.layoutTokens)
  {
    if parts.None? || |parts.value| == 0 {
      return Ok(None);
    }
    if |doc.blocks| == 0 {
      return Ok(None);
    }
    if |doc.blocks| > maxBlocks {
      return Err(TooManyBlocks(|doc.blocks|, maxBlocks));
    }
    var length := FullTextLength(doc, parts.value, 0);
    if length.Err? {
      return Err(length.failure);
    }
    var walk := EncodeBody(h, doc, parts.value, length.value);
    if walk.Err? {
      assert !walk.failure.TooManyBlocks? by { EncodeNeverTooMany(h, doc, parts.value, length.value, InitialBodyState); }
      return Err(walk.failure);
    }
    r := Ok(Some((PrintAll(h, Flush(walk.value.buffer)), walk.value.layoutTokens)));
  }

  /** The walk fails only on an index out of range, never for the block count. */
  lemma {:induction false} EncodeNeverTooMany(h: Helpers, doc: Document, parts: seq<DocumentPiece>, fulltextLength: int, st: BodyState)
    ensures EncodePieces(h, doc, parts, fulltextLength, st).Err? ==> EncodePieces(h, doc, parts, fulltextLength, st).failure.IndexOutOfRange?
    decreases |parts|
  {
    if |parts| > 0 {
      var piece := parts[0];
      PieceBlocksFailIndex(h, doc, piece, piece.left.blockPtr, fulltextLength, st);
      match EncodePieceBlocks(h, doc, piece, piece.left.blockPtr, fulltextLength, st)
      case Err(_) =>
      case Ok(st1) => EncodeNeverTooMany(h, doc, parts[1..], fulltextLength, st1);
    }
  }

  lemma {:induction false} PieceBlocksFailIndex(h: Helpers, doc: Document, piece: DocumentPiece, bi: int, fulltextLength: int, st: BodyState)
    ensures EncodePieceBlocks(h, doc, piece, bi, fulltextLength, st).Err? ==>
      EncodePieceBlocks(h, doc, piece, bi, fulltextLength, st).failure.IndexOutOfRange?
    decreases piece.right.blockPtr + 1 - bi
  {
    if bi <= piece.right.blockPtr {
      BlockFailsIndex(h, doc, piece, bi, fulltextLength, st);
      match EncodeBlock(h, doc, piece, bi, fulltextLength, st)
      case Err(_) =>
      case Ok(st1) => PieceBlocksFailIndex(h, doc, piece, bi + 1, fulltextLength, st1);
    }
  }

  lemma BlockFailsIndex(h: Helpers, doc: Document, piece: DocumentPiece, bi: int, fulltextLength: int, st: BodyState)
    ensures EncodeBlock(h, doc, piece, bi, fulltextLength, st).Err? ==> EncodeBlock(h, doc, piece, bi, fulltextLength, st).failure.IndexOutOfRange?
  {
    if 0 <= bi < |doc.blocks| {
      var b := doc.blocks[bi];
      var st1 := EnterBlock(st, b);
      if !h.filterLine(b.text) && b.tokens.Some? {
        var info := BlockInfoOf(doc, piece, bi, b, b.tokens.value, st1.lowestPos);
        TokensFailIndex(h, doc, info, fulltextLength, WindowEnd(piece, bi, |b.tokens.value|), st1, BlockScan(WindowStart(piece, bi), false, false));
      }
    }
  }

  lemma {:induction false} TokensFailIndex(h: Helpers, doc: Document, info: BlockInfo, fulltextLength: int, lastPos: int, st: BodyState, bs: BlockScan)
    requires lastPos <= |info.tokens|
    ensures EncodeTokens(h, doc, info, fulltextLength, lastPos, st, bs).Err? ==>
      EncodeTokens(h, doc, info, fulltextLength, lastPos, st, bs).failure.IndexOutOfRange?
    decreases lastPos - bs.n
  {
    if bs.n < lastPos && !(info.isLast && bs.n > info.stopDoc) && bs.n >= 0 {
      match TokenStep(h, doc, info, fulltextLength, st, bs)
      case Err(_) =>
      case Ok(next) => TokensFailIndex(h, doc, info, fulltextLength, lastPos, next.0, next.1);
    }
  }
}

=== FILE: body_sax.dfy ===
/** `TEIDatacatBodySegmentationSaxParser`: the handler that turns an annotated
    body-segmentation training file back into labelled tokens. Character data
    accumulates; an `lb` element adds a space; text found before any other
    start element is written as `<other>`; the text of an entry is written as
    `<entry>` when the entry (or its `catEntry` wrapper) ends. Each call of
    `writeData` cuts the text with the library's delimiters and writes every
    non-blank piece as a line, the first with the begin marker.
 */
module BodySax {
  import opened Wrappers
  import opened JavaStrings
  import opened Labels
  import opened SaxLines

  /** The end elements that write under the current tag. */
  const EndTags: seq<string> := ["catEntry"]

  const EntryLabel: string := "<entry>"

  /** The labels this handler writes. */
  const BodySaxLabels: set<string> := {EntryLabel, OtherLabel}

  datatype BodySaxState = BodySaxState(
    accumulator: string,
    currentTag: Option<string>,
    labeled: seq<LabeledLine>)

  const InitialBodySax: BodySaxState := BodySaxState("", None, [])

  // ---------------------------------------------------------------------------
  // writeData

  /** The pieces the tokenizer returns, each trimmed, the blank ones dropped. */
  function KeptTokens(ts: seq<string>): (r: seq<string>)
    ensures |r| <= |ts|
    ensures forall k :: 0 <= k < |r| ==> |r[k]| > 0
  {
    if |ts| == 0 then []
    else
      var tok := Trim(ts[|ts| - 1]);
      KeptTokens(ts[..|ts| - 1]) + (if |tok| > 0 then [tok] else [])
  }

  /** The loop of `writeData`: every non-blank trimmed piece is a line, and
      `begin` is cleared after the first one. */
  function EmitTokens(ts: seq<string>, begin: bool, tag: string): seq<LabeledLine> {
    if |ts| == 0 then []
    else
      var tok := Trim(ts[0]);
      if |tok| == 0 then EmitTokens(ts[1..], begin, tag)
      else [LabeledLine(tok, tag, begin)] + EmitTokens(ts[1..], false, tag)
  }

  lemma {:induction false} KeptTokensCons(t: string, ts: seq<string>)
    ensures KeptTokens([t] + ts) == (if |Trim(t)| > 0 then [Trim(t)] else []) + KeptTokens(ts)
    decreases |ts|
  {
    if |ts| > 0 {
      var init := ts[..|ts| - 1];
      KeptTokensCons(t, init);
      assert ([t] + ts)[..|[t] + ts| - 1] == [t] + init;
    } else {
      assert ([t] + ts)[..0] == [];
    }
  }

  /** `out` holds one line per kept piece, in order, under `tag`, the first
      with the begin marker exactly when `begin` is set. */
  predicate LinesOf(out: seq<LabeledLine>, kept: seq<string>, tag: string, begin: bool) {
    && |out| == |kept|
    && forall k :: 0 <= k < |out| ==> out[k] == LabeledLine(kept[k], tag, begin && k == 0)
  }

  lemma LinesOfCons(tok: string, rest: seq<LabeledLine>, keptRest: seq<string>, tag: string, begin: bool)
    requires LinesOf(rest, keptRest, tag, false)
    ensures LinesOf([LabeledLine(tok, tag, begin)] + rest, [tok] + keptRest, tag, begin)
  {
    var out := [LabeledLine(tok, tag, begin)] + rest;
    var kept := [tok] + keptRest;
    forall k | 0 <= k < |out| ensures out[k] == LabeledLine(kept[k], tag, begin && k == 0) {
      if k > 0 { assert out[k] == rest[k - 1] && kept[k] == keptRest[k - 1]; }
    }
  }

  /** The loop writes exactly the kept pieces, in order, under the one tag,
      the first with the begin marker when the loop starts with it set. */
  lemma {:induction false} EmitTokensSpec(ts: seq<string>, begin: bool, tag: string)
    ensures LinesOf(EmitTokens(ts, begin, tag), KeptTokens(ts), tag, begin)
    decreases |ts|
  {
    if |ts| > 0 {
      KeptTokensCons(ts[0], ts[1..]);
      assert [ts[0]] + ts[1..] == ts;
      var tok := Trim(ts[0]);
      if |tok| > 0 {
        EmitTokensSpec(ts[1..], false, tag);
        LinesOfCons(tok, EmitTokens(ts[1..], false, tag), KeptTokens(ts[1..]), tag, begin);
      } else {
        EmitTokensSpec(ts[1..], begin, tag);
      }
    }
  }

  /** `writeData()`: nothing at all without a current tag; otherwise the
      lines of the trimmed text, and the accumulator cleared. */
  function WriteData(delimiters: set<char>, st: BodySaxState): (r: BodySaxState)
    ensures st.currentTag.None? ==> r == st
    ensures st.currentTag.Some? ==>
      && r.accumulator == "" && r.currentTag == st.currentTag
      && |r.labeled| >= |st.labeled| && r.labeled[..|st.labeled|] == st.labeled
  {
    match st.currentTag
    case None => st
    case Some(tag) =>
      var ts := TokensWithDelimiters(Trim(st.accumulator), delimiters);
      st.(accumulator := "", labeled := st.labeled + EmitTokens(ts, true, tag))
  }

  /** What one `writeData` call appends under a current tag: the trimmed
      non-blank pieces of the delimiter tokenisation of the text, in order,
      only the first with the begin marker, whatever the tag, `<other>`
      included. */
  lemma WriteDataLines(delimiters: set<char>, st: BodySaxState)
    requires st.currentTag.Some?
    ensures var r := WriteData(delimiters, st);
      var added := r.labeled[|st.labeled|..];
      var kept := KeptTokens(TokensWithDelimiters(Trim(st.accumulator), delimiters));
      && |added| == |kept|
      && forall k :: 0 <= k < |added| ==> added[k] == LabeledLine(kept[k], st.currentTag.value, k == 0)
  {
    var ts := TokensWithDelimiters(Trim(st.accumulator), delimiters);
    EmitTokensSpec(ts, true, st.currentTag.value);
    var r := WriteData(delimiters, st);
    assert LinesOf(EmitTokens(ts, true, st.currentTag.value), KeptTokens(ts), st.currentTag.value, true);
    assert r.labeled[|st.labeled|..] == EmitTokens(ts, true, st.currentTag.value);
  }

  /** The pieces of the tokenizer, put back together, are the text. */
  lemma {:induction false} TokensWithDelimitersJoin(s: string, d: set<char>)
    ensures Concat(TokensWithDelimiters(s, d)) == s
    decreases |s|
  {
    if |s| > 0 {
      var ts := TokensWithDelimiters(s, d);
      if s[0] in d {
        TokensWithDelimitersJoin(s[1..], d);
        ConcatCons([s[0]], TokensWithDelimiters(s[1..], d));
        assert [s[0]] + s[1..] == s;
      } else {
        var j := RunEnd(s, 0, d);
        TokensWithDelimitersJoin(s[j..], d);
        ConcatCons(s[..j], TokensWithDelimiters(s[j..], d));
        assert s[..j] + s[j..] == s;
      }
    }
  }

  function Concat(ts: seq<string>): string {
    if |ts| == 0 then "" else Concat(ts[..|ts| - 1]) + ts[|ts| - 1]
  }

  lemma {:induction false} ConcatCons(t: string, ts: seq<string>)
    ensures Concat([t] + ts) == t + Concat(ts)
    decreases |ts|
  {
    if |ts| == 0 {
      assert ([t] + ts)[..0] == [];
    } else {
      var init := ts[..|ts| - 1];
      ConcatCons(t, init);
      assert ([t] + ts)[..|[t] + ts| - 1] == [t] + init;
    }
  }

  // ---------------------------------------------------------------------------
  // The events

  /** `characters`. */
  function OnCharacters(st: BodySaxState, text: string): BodySaxState {
    st.(accumulator := st.accumulator + text)
  }

  /** The text accumulated so far, written under `tag` when it is not blank;
      the accumulator is cleared either way. */
  function FlushAs(delimiters: set<char>, st: BodySaxState, tag: string): (r: BodySaxState)
    ensures |Trim(st.accumulator)| == 0 ==> r == st.(accumulator := "")
    ensures |Trim(st.accumulator)| > 0 ==> r == WriteData(delimiters, st.(currentTag := Some(tag)))
  {
    var written := if |Trim(st.accumulator)| > 0 then WriteData(delimiters, st.(currentTag := Some(tag))) else st;
    written.(accumulator := "")
  }

  /** `startElement`: `lb` adds one space; any other element first writes
      non-blank text as `<other>` and clears the accumulator; an `entry`
      then makes `<entry>` the current tag. */
  function OnStart(delimiters: set<char>, st: BodySaxState, name: string): (r: BodySaxState)
    ensures name == "lb" ==> r == st.(accumulator := st.accumulator + " ")
    ensures name != "lb" ==>
      && r.accumulator == ""
      && r.labeled == FlushAs(delimiters, st, OtherLabel).labeled
      && r.currentTag == (if name == "entry" then Some(EntryLabel)
                          else if |Trim(st.accumulator)| > 0 then Some(OtherLabel)
                          else st.currentTag)
  {
    var started := if name == "lb" then st.(accumulator := st.accumulator + " ") else FlushAs(delimiters, st, OtherLabel);
    if name == "entry" then started.(currentTag := Some(EntryLabel)) else started
  }

  /** `endElement`: `catEntry` writes under the current tag and clears the
      accumulator; `entry` writes non-blank text as `<entry>` and clears the
      accumulator; any other end element changes nothing. */
  function OnEnd(delimiters: set<char>, st: BodySaxState, name: string): (r: BodySaxState)
    ensures name !in EndTags && name != "entry" ==> r == st
    ensures name in EndTags ==> r == WriteData(delimiters, st).(accumulator := "")
    ensures name == "entry" ==> r == FlushAs(delimiters, st, EntryLabel)
  {
    if name in EndTags then WriteData(delimiters, st).(accumulator := "")
    else if name == "entry" then FlushAs(delimiters, st, EntryLabel)
    else st
  }

  function Handle(delimiters: set<char>, st: BodySaxState, e: Event): BodySaxState {
    match e
    case StartElement(name) => OnStart(delimiters, st, name)
    case EndElement(name) => OnEnd(delimiters, st, name)
    case Characters(text) => OnCharacters(st, text)
  }

  function Run(delimiters: set<char>, events: seq<Event>): BodySaxState {
    if |events| == 0 then InitialBodySax
    else Handle(delimiters, Run(delimiters, events[..|events| - 1]), events[|events| - 1])
  }

  /** `getLabeledResult()` after the events. */
  function LabeledResult(delimiters: set<char>, events: seq<Event>): seq<string> {
    LabeledText(Run(delimiters, events).labeled)
  }

  // ---------------------------------------------------------------------------
  // What holds over every event stream

  predicate GoodLine(l: LabeledLine) {
    |l.token| > 0 && l.tag in BodySaxLabels
  }

  /** The current tag is one of the two labels once set, and nothing is
      written before it is set. */
  predicate Inv(st: BodySaxState) {
    && (st.currentTag.Some? ==> st.currentTag.value in BodySaxLabels)
    && (st.currentTag.None? ==> st.labeled == [])
    && forall k :: 0 <= k < |st.labeled| ==> GoodLine(st.labeled[k])
  }

  lemma WriteDataKeeps(delimiters: set<char>, st: BodySaxState)
    requires Inv(st)
    ensures Inv(WriteData(delimiters, st))
  {
    if st.currentTag.Some? {
      WriteDataLines(delimiters, st);
      var r := WriteData(delimiters, st);
      var n := |st.labeled|;
      forall k | 0 <= k < |r.labeled| ensures GoodLine(r.labeled[k]) {
        if k >= n {
          assert r.labeled[k] == r.labeled[n..][k - n];
        } else {
          assert r.labeled[k] == r.labeled[..n][k];
        }
      }
    }
  }

  lemma FlushAsKeeps(delimiters: set<char>, st: BodySaxState, tag: string)
    requires Inv(st) && tag in BodySaxLabels
    ensures Inv(FlushAs(delimiters, st, tag))
  {
    if |Trim(st.accumulator)| > 0 {
      var tagged := st.(currentTag := Some(tag));
      assert Inv(tagged);
      WriteDataKeeps(delimiters, tagged);
    }
  }

  lemma HandleKeeps(delimiters: set<char>, st: BodySaxState, e: Event)
    requires Inv(st)
    ensures Inv(Handle(delimiters, st, e))
  {
    match e
    case StartElement(name) =>
      if name != "lb" { FlushAsKeeps(delimiters, st, OtherLabel); }
    case EndElement(name) =>
      if name in EndTags { WriteDataKeeps(delimiters, st); }
      else if name == "entry" { FlushAsKeeps(delimiters, st, EntryLabel); }
    case Characters(_) =>
  }

  /** Over any event stream, every labelled line carries a non-empty token
      and the label `<entry>` or `<other>`, and no line is written while the
      current tag is still unset. */
  lemma {:induction false} RunLinesGood(delimiters: set<char>, events: seq<Event>)
    ensures Inv(Run(delimiters, events))
    ensures forall k :: 0 <= k < |Run(delimiters, events).labeled| ==> GoodLine(Run(delimiters, events).labeled[k])
    decreases |events|
  {
    if |events| > 0 {
      RunLinesGood(delimiters, events[..|events| - 1]);
      HandleKeeps(delimiters, Run(delimiters, events[..|events| - 1]), events[|events| - 1]);
    }
  }
}

=== FILE: body_streams.dfy ===
/** What the body encoder promises about the records it creates and the
    stream it prints: every record stands for one collected layout token (its
    sanitised text, its style, its place in its block and its document
    position), the font and size statuses compare each record with the one
    before it, the page statuses follow the page changes, the printed stream
    is the created one with a one-record lag, and the collected layout tokens
    are exactly the tokens inside the parts' pointer windows.
 */
module BodyStreams {
  import opened Wrappers
  import opened JavaStrings
  import opened Statuses
  import opened Layout
  import opened Lexicon
  import opened LookBehind
  import opened FontTracking
  import opened Classify
  import opened EntriesVector
  import opened BodyEncoder

  function RecordFont(r: BodyRecord): Option<string> { r.origin.font }
  function RecordSize(r: BodyRecord): int { r.origin.size }
  function RecordFontStatus(r: BodyRecord): FontStatus { r.features.fontStatus }
  function RecordSizeStatus(r: BodyRecord): FontSizeStatus { r.features.fontSize }

  // ---------------------------------------------------------------------------
  // Token text and document position

  /** A token's text once its spaces and line breaks are removed. */
  function Sanitised(t: string): string {
    RemoveChars(RemoveChars(t, {' '}), {' ', '\n'})
  }

  /** How far a collected token moves the document position `nn`: one for a
      blank or line-break token, its sanitised length for a record, nothing
      for an empty or a filtered token. */
  function Advance(h: Helpers, t: Token): nat {
    if |t.text| == 0 then 0
    else if IsBlankToken(t.text) then 1
    else if h.filterLine(Some(Sanitised(t.text))) then 0
    else |Sanitised(t.text)|
  }

  /** The document position after the tokens `ts`. */
  function Offset(h: Helpers, ts: seq<Token>): nat {
    if |ts| == 0 then 0 else Offset(h, ts[..|ts| - 1]) + Advance(h, ts[|ts| - 1])
  }

  /** A collected token that creates a record. */
  predicate Qualifies(h: Helpers, t: Token) {
    |t.text| > 0 && !IsBlankToken(t.text) && !h.filterLine(Some(Sanitised(t.text)))
  }

  /** The number of collected tokens that create a record. */
  function Qualifying(h: Helpers, ts: seq<Token>): nat {
    if |ts| == 0 then 0 else Qualifying(h, ts[..|ts| - 1]) + (if Qualifies(h, ts[|ts| - 1]) then 1 else 0)
  }

  /** The token of a record, as the document's block holds it. */
  ghost predicate FromBlock(doc: Document, lt: seq<Token>, o: BodyOrigin) {
    && o.tokenIndex < |lt|
    && 0 <= o.block < |doc.blocks|
    && doc.blocks[o.block].tokens.Some?
    && |doc.blocks[o.block].tokens.value| == o.count
    && o.pos < o.count
    && doc.blocks[o.block].tokens.value[o.pos] == lt[o.tokenIndex]
    && doc.blocks[o.block].pageNumber == o.page
  }

  /** A created record describes its collected token `lt[tokenIndex]`. */
  ghost predicate Describes(h: Helpers, doc: Document, fulltextLength: int, lt: seq<Token>, r: BodyRecord) {
    var o := r.origin;
    var f := r.features;
    && FromBlock(doc, lt, o)
    && var t := lt[o.tokenIndex];
    && var s := Sanitised(t.text);
    && |t.text| > 0 && !IsBlankToken(t.text) && !h.filterLine(Some(s)) && |s| > 0
    && f.text == Some(s)
    && f.singleChar == (|s| == 1)
    && f.capitalisation == CapitalisationOf(h, s)
    && f.digit == DigitClassOf(h, s)
    && f.punctType == Some(PunctOf(h, s))
    && f.bold == t.bold && f.italic == t.italic
    && o.font == t.font && o.size == TruncateToInt(t.fontSize)
    && f.relativeDocumentPosition == h.linearScaling(Offset(h, lt[..o.tokenIndex]) as real, fulltextLength as real, NbBinsPosition)
    && f.relativePagePosition <= NbBinsPosition
  }

  /** The line and block statuses a record is created with: BLOCKSTART exactly
      for a block's first token, which also starts a line; a record that ends
      the previous line starts one itself unless it is its block's last token,
      which ends its line and its block. */
  ghost predicate PlacedInBlock(r: BodyRecord) {
    var o := r.origin;
    var f := r.features;
    && f.blockStatus.Some? && f.lineStatus.Some?
    && (f.blockStatus == Some(BlockStart) <==> o.pos == 0)
    && (o.pos == 0 ==> r.closesLine && f.lineStatus == Some(LineStart))
    && (r.closesLine ==> f.lineStatus == Some(LineStart) || o.pos + 1 == o.count)
    && (o.pos != 0 && o.pos + 1 == o.count ==> f.blockStatus == Some(BlockEnd) && f.lineStatus == Some(LineEnd))
  }

  /** Record `i` in the stream: created PAGESTART for the first record and
      for a record on another page than its predecessor, PAGEIN after a
      record of the same block visit, never PAGEEND; records come in
      token order. */
  ghost predicate RecordAt(h: Helpers, doc: Document, fulltextLength: int, lt: seq<Token>, cs: seq<BodyRecord>, i: nat)
    requires i < |cs|
  {
    && Describes(h, doc, fulltextLength, lt, cs[i])
    && PlacedInBlock(cs[i])
    && cs[i].features.pageStatus != PageEnd
    && (i == 0 ==> cs[i].features.pageStatus == PageStart)
    && (i > 0 && cs[i - 1].origin.page != cs[i].origin.page ==> cs[i].features.pageStatus == PageStart)
    && (i > 0 && cs[i - 1].origin.visit == cs[i].origin.visit ==> cs[i].features.pageStatus == PageIn)
    && (i > 0 ==> cs[i - 1].origin.tokenIndex < cs[i].origin.tokenIndex)
  }

  ghost predicate RecordsHold(h: Helpers, doc: Document, fulltextLength: int, lt: seq<Token>, cs: seq<BodyRecord>) {
    forall i: nat :: i < |cs| ==> RecordAt(h, doc, fulltextLength, lt, cs, i)
  }

  /** The walk's invariant. */
  ghost predicate Inv(h: Helpers, doc: Document, fulltextLength: int, st: BodyState) {
    && st.buffer == PushAll(st.created, BodyPatch)
    && st.font == TrackedFont(st.created, RecordFont)
    && st.fontSize == TrackedSize(st.created, RecordSize)
    && FontStatusesFollow(st.created, RecordFont, RecordFontStatus)
    && SizeStatusesFollow(st.created, RecordSize, RecordSizeStatus)
    && st.nn == Offset(h, st.layoutTokens)
    && |st.created| == Qualifying(h, st.layoutTokens)
    && RecordsHold(h, doc, fulltextLength, st.layoutTokens, st.created)
    && (|st.created| == 0 ==> st.newPage)
    && (|st.created| > 0 ==> st.created[|st.created| - 1].origin.visit <= st.visits)
    && (st.newPage && |st.created| > 0 ==> st.created[|st.created| - 1].origin.visit < st.visits)
    && (!st.newPage && |st.created| > 0 ==> st.created[|st.created| - 1].origin.page == st.currentPage)
  }

  // ---------------------------------------------------------------------------
  // Stability under a longer token list

  lemma OffsetOfPrefix(h: Helpers, lt: seq<Token>, lt': seq<Token>, k: nat)
    requires k <= |lt| <= |lt'| && lt'[..|lt|] == lt
    ensures lt'[..k] == lt[..k]
  {
  }

  lemma DescribesStable(h: Helpers, doc: Document, fulltextLength: int, lt: seq<Token>, lt': seq<Token>, r: BodyRecord)
    requires |lt| <= |lt'| && lt'[..|lt|] == lt
    requires Describes(h, doc, fulltextLength, lt, r)
    ensures Describes(h, doc, fulltextLength, lt', r)
  {
    OffsetOfPrefix(h, lt, lt', r.origin.tokenIndex);
    assert lt'[r.origin.tokenIndex] == lt[r.origin.tokenIndex];
  }

  lemma RecordsStable(h: Helpers, doc: Document, fulltextLength: int, lt: seq<Token>, lt': seq<Token>, cs: seq<BodyRecord>)
    requires |lt| <= |lt'| && lt'[..|lt|] == lt
    requires RecordsHold(h, doc, fulltextLength, lt, cs)
    ensures RecordsHold(h, doc, fulltextLength, lt', cs)
  {
    forall i: nat | i < |cs| ensures RecordAt(h, doc, fulltextLength, lt', cs, i) {
      assert RecordAt(h, doc, fulltextLength, lt, cs, i);
      DescribesStable(h, doc, fulltextLength, lt, lt', cs[i]);
    }
  }

  lemma OffsetSnoc(h: Helpers, lt: seq<Token>, t: Token)
    ensures Offset(h, lt + [t]) == Offset(h, lt) + Advance(h, t)
    ensures Qualifying(h, lt + [t]) == Qualifying(h, lt) + (if Qualifies(h, t) then 1 else 0)
  {
    assert (lt + [t])[..|lt|] == lt;
  }

  // ---------------------------------------------------------------------------
  // One token

  /** The walk is inside block `info.index` of the document. */
  ghost predicate InBlock(doc: Document, info: BlockInfo) {
    && 0 <= info.index < |doc.blocks|
    && doc.blocks[info.index].tokens == Some(info.tokens)
    && doc.blocks[info.index].pageNumber == info.page
  }

  lemma RecordsExtend(h: Helpers, doc: Document, fulltextLength: int, lt: seq<Token>, cs: seq<BodyRecord>, r: BodyRecord)
    requires RecordsHold(h, doc, fulltextLength, lt, cs)
    requires Describes(h, doc, fulltextLength, lt, r) && PlacedInBlock(r)
    requires r.features.pageStatus != PageEnd
    requires |cs| == 0 ==> r.features.pageStatus == PageStart
    requires |cs| > 0 && cs[|cs| - 1].origin.page != r.origin.page ==> r.features.pageStatus == PageStart
    requires |cs| > 0 && cs[|cs| - 1].origin.visit == r.origin.visit ==> r.features.pageStatus == PageIn
    requires |cs| > 0 ==> cs[|cs| - 1].origin.tokenIndex < r.origin.tokenIndex
    ensures RecordsHold(h, doc, fulltextLength, lt, cs + [r])
  {
    var cs' := cs + [r];
    forall i: nat | i < |cs'| ensures RecordAt(h, doc, fulltextLength, lt, cs', i) {
      if i < |cs| {
        assert RecordAt(h, doc, fulltextLength, lt, cs, i);
        assert cs'[i] == cs[i];
        if i > 0 { assert cs'[i - 1] == cs[i - 1]; }
      } else {
        assert cs'[i] == r;
        if i > 0 { assert cs'[i - 1] == cs[|cs| - 1]; }
      }
    }
  }

  /** A token that creates no record keeps the invariant, its advance added to `nn`. */
  lemma SkipKeeps(h: Helpers, doc: Document, fulltextLength: int, st: BodyState, t: Token, advance: nat)
    requires Inv(h, doc, fulltextLength, st)
    requires advance == Advance(h, t) && !Qualifies(h, t)
    ensures Inv(h, doc, fulltextLength, st.(layoutTokens := st.layoutTokens + [t], nn := st.nn + advance))
    ensures Inv(h, doc, fulltextLength, st.(layoutTokens := st.layoutTokens + [t], nn := st.nn + advance, mm := st.mm + advance))
  {
    var lt' := st.layoutTokens + [t];
    assert lt'[..|st.layoutTokens|] == st.layoutTokens;
    RecordsStable(h, doc, fulltextLength, st.layoutTokens, lt', st.created);
    OffsetSnoc(h, st.layoutTokens, t);
  }

  /** A created record keeps the invariant. */
  lemma EmitKeeps(h: Helpers, doc: Document, fulltextLength: int, st0: BodyState, t: Token, r: BodyRecord)
    requires Inv(h, doc, fulltextLength, st0)
    requires |st0.created| > 0 ==> st0.created[|st0.created| - 1].origin.visit <= r.origin.visit
    requires st0.newPage && |st0.created| > 0 ==> st0.created[|st0.created| - 1].origin.visit < r.origin.visit
    requires r.origin.visit == st0.visits
    requires r.origin.page == st0.currentPage
    requires r.origin.tokenIndex == |st0.layoutTokens|
    requires Describes(h, doc, fulltextLength, st0.layoutTokens + [t], r) && PlacedInBlock(r)
    requires r.features.pageStatus == (if st0.newPage then PageStart else PageIn)
    requires r.features.fontStatus == FontStep(st0.font, r.origin.font).0
    requires r.features.fontSize == SizeStep(st0.fontSize, r.origin.size).0
    requires Advance(h, t) == |r.features.text.value|
    ensures Inv(h, doc, fulltextLength, Emit(st0.(layoutTokens := st0.layoutTokens + [t]), r, |r.features.text.value|))
  {
    var lt' := st0.layoutTokens + [t];
    var cs := st0.created;
    var st' := Emit(st0.(layoutTokens := lt'), r, |r.features.text.value|);
    assert st'.created == cs + [r] && st'.layoutTokens == lt' && st'.buffer == Push(st0.buffer, r, BodyPatch);
    assert st'.font == r.origin.font && st'.fontSize == r.origin.size && !st'.newPage;
    assert st'.nn == st0.nn + |r.features.text.value| && st'.visits == st0.visits && st'.currentPage == st0.currentPage;
    assert st'.buffer == PushAll(st'.created, BodyPatch) by {
      PushAllSnoc(cs, r, BodyPatch);
    }
    assert FontStatusesFollow(st'.created, RecordFont, RecordFontStatus) by {
      FontStatusExtends(cs, RecordFont, RecordFontStatus, r);
    }
    assert SizeStatusesFollow(st'.created, RecordSize, RecordSizeStatus) by {
      SizeStatusExtends(cs, RecordSize, RecordSizeStatus, r);
    }
    assert st'.nn == Offset(h, st'.layoutTokens) by {
      OffsetSnoc(h, st0.layoutTokens, t);
    }
    RecordsAfterEmit(h, doc, fulltextLength, st0, t, r);
  }

  lemma RecordsAfterEmit(h: Helpers, doc: Document, fulltextLength: int, st0: BodyState, t: Token, r: BodyRecord)
    requires RecordsHold(h, doc, fulltextLength, st0.layoutTokens, st0.created)
    requires |st0.created| == 0 ==> st0.newPage
    requires !st0.newPage && |st0.created| > 0 ==> st0.created[|st0.created| - 1].origin.page == st0.currentPage
    requires st0.newPage && |st0.created| > 0 ==> st0.created[|st0.created| - 1].origin.visit < r.origin.visit
    requires r.origin.page == st0.currentPage
    requires r.origin.tokenIndex == |st0.layoutTokens|
    requires Describes(h, doc, fulltextLength, st0.layoutTokens + [t], r) && PlacedInBlock(r)
    requires r.features.pageStatus == (if st0.newPage then PageStart else PageIn)
    ensures RecordsHold(h, doc, fulltextLength, st0.layoutTokens + [t], st0.created + [r])
  {
    var lt' := st0.layoutTokens + [t];
    var cs := st0.created;
    assert lt'[..|st0.layoutTokens|] == st0.layoutTokens;
    RecordsStable(h, doc, fulltextLength, st0.layoutTokens, lt', cs);
    if |cs| > 0 {
      assert RecordAt(h, doc, fulltextLength, st0.layoutTokens, cs, |cs| - 1);
    }
    RecordsExtend(h, doc, fulltextLength, lt', cs, r);
  }

  /** A new record describes its token and sits in its block as the source places it. */
  lemma NewRecordFacts(h: Helpers, doc: Document, fulltextLength: int, info: BlockInfo, st: BodyState, bs: BlockScan, text: string)
    requires 0 <= bs.n < |info.tokens| && |text| > 0
    requires InBlock(doc, info)
    requires st.nn == Offset(h, st.layoutTokens)
    requires var t := info.tokens[bs.n].text; |t| > 0 && !IsBlankToken(t) && text == Sanitised(t) && !h.filterLine(Some(text))
    ensures var r := NewRecord(h, doc, info, fulltextLength, st, bs, text);
      && Describes(h, doc, fulltextLength, st.layoutTokens + [info.tokens[bs.n]], r)
      && PlacedInBlock(r)
      && r.features.pageStatus == (if st.newPage then PageStart else PageIn)
      && r.features.fontStatus == FontStep(st.font, r.origin.font).0
      && r.features.fontSize == SizeStep(st.fontSize, r.origin.size).0
      && |r.features.text.value| == |text|
  {
    var lt' := st.layoutTokens + [info.tokens[bs.n]];
    assert lt'[|st.layoutTokens|] == info.tokens[bs.n] && lt'[..|st.layoutTokens|] == st.layoutTokens;
  }

  /** One token step keeps the invariant. */
  lemma TokenStepKeeps(h: Helpers, doc: Document, fulltextLength: int, info: BlockInfo, st: BodyState, bs: BlockScan)
    requires 0 <= bs.n < |info.tokens|
    requires InBlock(doc, info) && info.page == st.currentPage
    requires Inv(h, doc, fulltextLength, st)
    ensures var r := TokenStep(h, doc, info, fulltextLength, st, bs);
      r.Ok? ==> Inv(h, doc, fulltextLength, r.value.0) && r.value.0.currentPage == st.currentPage && r.value.0.visits == st.visits
  {
    var tok := info.tokens[bs.n];
    var text := Sanitised(tok.text);
    if |tok.text| > 0 && RemoveChars(tok.text, {' '}) != "\n" && |RemoveChars(tok.text, {' '})| > 0
       && !h.filterLine(Some(text)) && |text| > 0 {
      TokenEmitKeeps(h, doc, fulltextLength, info, st, bs);
    } else {
      TokenSkipKeeps(h, doc, fulltextLength, info, st, bs);
    }
  }

  /** A token that creates a record keeps the invariant. */
  lemma TokenEmitKeeps(h: Helpers, doc: Document, fulltextLength: int, info: BlockInfo, st: BodyState, bs: BlockScan)
    requires 0 <= bs.n < |info.tokens|
    requires InBlock(doc, info) && info.page == st.currentPage
    requires Inv(h, doc, fulltextLength, st)
    requires var t := info.tokens[bs.n].text;
      |t| > 0 && RemoveChars(t, {' '}) != "\n" && |RemoveChars(t, {' '})| > 0
      && !h.filterLine(Some(Sanitised(t))) && |Sanitised(t)| > 0
    ensures var r := TokenStep(h, doc, info, fulltextLength, st, bs);
      r.Ok? ==> Inv(h, doc, fulltextLength, r.value.0) && r.value.0.currentPage == st.currentPage && r.value.0.visits == st.visits
  {
    var tok := info.tokens[bs.n];
    var text1 := RemoveChars(tok.text, {' '});
    var text := RemoveChars(text1, {' ', '\n'});
    assert text == Sanitised(tok.text);
    NewRecordFacts(h, doc, fulltextLength, info, st, bs, text);
    EmitKeeps(h, doc, fulltextLength, st, tok, NewRecord(h, doc, info, fulltextLength, st, bs, text));
  }

  /** A token that creates no record keeps the invariant. */
  lemma TokenSkipKeeps(h: Helpers, doc: Document, fulltextLength: int, info: BlockInfo, st: BodyState, bs: BlockScan)
    requires 0 <= bs.n < |info.tokens|
    requires Inv(h, doc, fulltextLength, st)
    requires var t := info.tokens[bs.n].text;
      !(|t| > 0 && RemoveChars(t, {' '}) != "\n" && |RemoveChars(t, {' '})| > 0
        && !h.filterLine(Some(Sanitised(t))) && |Sanitised(t)| > 0)
    ensures var r := TokenStep(h, doc, info, fulltextLength, st, bs);
      r.Ok? ==> Inv(h, doc, fulltextLength, r.value.0) && r.value.0.currentPage == st.currentPage && r.value.0.visits == st.visits
  {
    var tok := info.tokens[bs.n];
    if |tok.text| == 0 {
      SkipKeeps(h, doc, fulltextLength, st, tok, 0);
    } else {
      var text1 := RemoveChars(tok.text, {' '});
      if |text1| == 0 || text1 == "\n" {
        SkipKeeps(h, doc, fulltextLength, st, tok, 1);
      } else {
        var text := RemoveChars(text1, {' ', '\n'});
        assert text == Sanitised(tok.text);
        if h.filterLine(Some(text)) {
          SkipKeeps(h, doc, fulltextLength, st, tok, 0);
        }
      }
    }
  }

  /** A line-break token makes the next record of the block close the
      previous line and start a line itself, unless it is the block's last
      token: `m` is the first token after the line break that creates a
      record, and the tokens in between (empty, blank, line-break or
      filtered ones) leave the line-break flag set. The loop run up to `m`
      fails instead when `m` has nothing left once sanitised. */
  lemma LineBreakStartsLine(h: Helpers, doc: Document, fulltextLength: int, info: BlockInfo, st: BodyState, bs: BlockScan,
                            m: int)
    requires 0 <= bs.n < m < |info.tokens|
    requires RemoveChars(info.tokens[bs.n].text, {' '}) == "\n"
    requires forall k :: bs.n < k < m ==> !Qualifies(h, info.tokens[k])
    requires Qualifies(h, info.tokens[m])
    ensures TokenStep(h, doc, info, fulltextLength, st, bs).Ok?
    ensures var next := TokenStep(h, doc, info, fulltextLength, st, bs).value;
      && next.1.previousNewline && next.1.n == bs.n + 1 && next.0.created == st.created
      && var t := info.tokens[bs.n + 1];
      && (Qualifies(h, t) && |Sanitised(t.text)| > 0 ==>
            var r := TokenStep(h, doc, info, fulltextLength, next.0, next.1);
            && r.Ok? && |r.value.0.created| == |st.created| + 1
            && var rec := r.value.0.created[|st.created|];
            && rec.closesLine
            && (rec.features.lineStatus == Some(LineStart) || bs.n + 2 == |info.tokens|))
    ensures !info.isLast || m <= info.stopDoc ==>
      var r := EncodeTokens(h, doc, info, fulltextLength, m + 1, st, bs);
      && (r.Ok? <==> |Sanitised(info.tokens[m].text)| > 0)
      && (r.Ok? ==>
            && |r.value.created| == |st.created| + 1
            && var rec := r.value.created[|st.created|];
            && rec.closesLine
            && (rec.features.lineStatus == Some(LineStart) || m + 1 == |info.tokens|))
  {
    assert |info.tokens[bs.n].text| > 0;
    if !info.isLast || m <= info.stopDoc {
      var next := TokenStep(h, doc, info, fulltextLength, st, bs).value;
      assert EncodeTokens(h, doc, info, fulltextLength, m + 1, st, bs)
          == EncodeTokens(h, doc, info, fulltextLength, m + 1, next.0, next.1);
      RunToRecord(h, doc, fulltextLength, info, next.0, next.1, m);
    }
  }

  /** A token that creates no record steps on, leaving the records and the
      line-break flag as they were. */
  lemma SkipStep(h: Helpers, doc: Document, fulltextLength: int, info: BlockInfo, st: BodyState, bs: BlockScan)
    requires 0 <= bs.n < |info.tokens| && bs.previousNewline
    requires !Qualifies(h, info.tokens[bs.n])
    ensures var r := TokenStep(h, doc, info, fulltextLength, st, bs);
      r.Ok? && r.value.0.created == st.created && r.value.1.n == bs.n + 1 && r.value.1.previousNewline
  {
    var tok := info.tokens[bs.n];
    if |tok.text| > 0 {
      var text1 := RemoveChars(tok.text, {' '});
      if |text1| > 0 && text1 != "\n" {
        assert RemoveChars(text1, {' ', '\n'}) == Sanitised(tok.text);
      }
    }
  }

  /** With the line-break flag set, the loop up to the first record-creating
      token `m` creates that one record, closing the line, or fails on it. */
  lemma {:induction false} RunToRecord(h: Helpers, doc: Document, fulltextLength: int, info: BlockInfo, st: BodyState,
                                       bs: BlockScan, m: int)
    requires 0 <= bs.n <= m < |info.tokens| && bs.previousNewline
    requires forall k :: bs.n <= k < m ==> !Qualifies(h, info.tokens[k])
    requires Qualifies(h, info.tokens[m])
    requires !info.isLast || m <= info.stopDoc
    ensures var r := EncodeTokens(h, doc, info, fulltextLength, m + 1, st, bs);
      && (r.Ok? <==> |Sanitised(info.tokens[m].text)| > 0)
      && (r.Ok? ==>
            && |r.value.created| == |st.created| + 1
            && var rec := r.value.created[|st.created|];
            && rec.closesLine
            && (rec.features.lineStatus == Some(LineStart) || m + 1 == |info.tokens|))
    decreases m - bs.n
  {
    var r := TokenStep(h, doc, info, fulltextLength, st, bs);
    if bs.n == m {
      RecordStep(h, doc, fulltextLength, info, st, bs);
      if r.Ok? {
        assert EncodeTokens(h, doc, info, fulltextLength, m + 1, r.value.0, r.value.1) == Ok(r.value.0);
      }
    } else {
      SkipStep(h, doc, fulltextLength, info, st, bs);
      RunToRecord(h, doc, fulltextLength, info, r.value.0, r.value.1, m);
    }
  }

  /** A record-creating token with the line-break flag set creates one
      record that closes the line, or fails when nothing is left of it once
      sanitised. */
  lemma RecordStep(h: Helpers, doc: Document, fulltextLength: int, info: BlockInfo, st: BodyState, bs: BlockScan)
    requires 0 <= bs.n < |info.tokens| && bs.previousNewline
    requires Qualifies(h, info.tokens[bs.n])
    ensures var r := TokenStep(h, doc, info, fulltextLength, st, bs);
      && (r.Ok? <==> |Sanitised(info.tokens[bs.n].text)| > 0)
      && (r.Ok? ==>
            && r.value.1.n == bs.n + 1
            && |r.value.0.created| == |st.created| + 1
            && var rec := r.value.0.created[|st.created|];
            && rec.closesLine
            && (rec.features.lineStatus == Some(LineStart) || bs.n + 1 == |info.tokens|))
  {
    var tok := info.tokens[bs.n];
    var text1 := RemoveChars(tok.text, {' '});
    assert RemoveChars(text1, {' ', '\n'}) == Sanitised(tok.text);
  }

  // ---------------------------------------------------------------------------
  // Blocks, parts, body

  lemma {:induction false} EncodeTokensKeep(h: Helpers, doc: Document, fulltextLength: int, info: BlockInfo, lastPos: int,
                                            st: BodyState, bs: BlockScan)
    requires lastPos <= |info.tokens|
    requires InBlock(doc, info) && info.page == st.currentPage
    requires Inv(h, doc, fulltextLength, st)
    ensures var r := EncodeTokens(h, doc, info, fulltextLength, lastPos, st, bs);
      r.Ok? ==> Inv(h, doc, fulltextLength, r.value) && r.value.currentPage == st.currentPage && r.value.visits == st.visits
    decreases lastPos - bs.n
  {
    if bs.n < lastPos && !(info.isLast && bs.n > info.stopDoc) && bs.n >= 0 {
      TokenStepKeeps(h, doc, fulltextLength, info, st, bs);
      match TokenStep(h, doc, info, fulltextLength, st, bs)
      case Err(_) =>
      case Ok(next) => EncodeTokensKeep(h, doc, fulltextLength, info, lastPos, next.0, next.1);
    }
  }

  lemma EnterBlockKeeps(h: Helpers, doc: Document, fulltextLength: int, st: BodyState, b: Block)
    requires Inv(h, doc, fulltextLength, st)
    ensures Inv(h, doc, fulltextLength, EnterBlock(st, b))
  {
  }

  lemma EncodeBlockKeeps(h: Helpers, doc: Document, piece: DocumentPiece, bi: int, fulltextLength: int, st: BodyState)
    requires Inv(h, doc, fulltextLength, st)
    ensures var r := EncodeBlock(h, doc, piece, bi, fulltextLength, st);
      r.Ok? ==> Inv(h, doc, fulltextLength, r.value)
  {
    if 0 <= bi < |doc.blocks| {
      var b := doc.blocks[bi];
      var st1 := EnterBlock(st, b);
      EnterBlockKeeps(h, doc, fulltextLength, st, b);
      if !h.filterLine(b.text) && b.tokens.Some? {
        var info := BlockInfoOf(doc, piece, bi, b, b.tokens.value, st1.lowestPos);
        var r := EncodeTokens(h, doc, info, fulltextLength, WindowEnd(piece, bi, |b.tokens.value|), st1,
                              BlockScan(WindowStart(piece, bi), false, false));
        EncodeTokensKeep(h, doc, fulltextLength, info, WindowEnd(piece, bi, |b.tokens.value|), st1,
                         BlockScan(WindowStart(piece, bi), false, false));
        if r.Ok? {
          LowestPosKeeps(h, doc, fulltextLength, r.value, b.y + b.height);
        }
      }
    }
  }

  lemma LowestPosKeeps(h: Helpers, doc: Document, fulltextLength: int, st: BodyState, lowestPos: real)
    requires Inv(h, doc, fulltextLength, st)
    ensures Inv(h, doc, fulltextLength, st.(lowestPos := lowestPos))
  {
  }

  lemma {:induction false} EncodePieceBlocksKeep(h: Helpers, doc: Document, piece: DocumentPiece, bi: int, fulltextLength: int, st: BodyState)
    requires Inv(h, doc, fulltextLength, st)
    ensures var r := EncodePieceBlocks(h, doc, piece, bi, fulltextLength, st);
      r.Ok? ==> Inv(h, doc, fulltextLength, r.value)
    decreases piece.right.blockPtr + 1 - bi
  {
    if bi <= piece.right.blockPtr {
      EncodeBlockKeeps(h, doc, piece, bi, fulltextLength, st);
      match EncodeBlock(h, doc, piece, bi, fulltextLength, st)
      case Err(_) =>
      case Ok(st1) => EncodePieceBlocksKeep(h, doc, piece, bi + 1, fulltextLength, st1);
    }
  }

  lemma {:induction false} EncodePiecesKeep(h: Helpers, doc: Document, parts: seq<DocumentPiece>, fulltextLength: int, st: BodyState)
    requires Inv(h, doc, fulltextLength, st)
    ensures var r := EncodePieces(h, doc, parts, fulltextLength, st);
      r.Ok? ==> Inv(h, doc, fulltextLength, r.value)
    decreases |parts|
  {
    if |parts| > 0 {
      EncodePieceBlocksKeep(h, doc, parts[0], parts[0].left.blockPtr, fulltextLength, st);
      match EncodePieceBlocks(h, doc, parts[0], parts[0].left.blockPtr, fulltextLength, st)
      case Err(_) =>
      case Ok(st1) => EncodePiecesKeep(h, doc, parts[1..], fulltextLength, st1);
    }
  }

  // ---------------------------------------------------------------------------
  // The collected layout tokens

  /** The tokens `tokens[from..to]`, none when the range is empty or starts
      before the block. */
  function Slice(tokens: seq<Token>, from: int, to: int): seq<Token>
    requires to <= |tokens|
  {
    if from < 0 || from >= to then [] else tokens[from..to]
  }

  /** Where the token loop of a block stops: at `lastPos`, or earlier, past
      the part's last document token, in the part's last block. */
  function LoopStop(isLast: bool, stopDoc: int, lastPos: int): (e: int)
    ensures e <= lastPos
  {
    if isLast && stopDoc + 1 < lastPos then stopDoc + 1 else lastPos
  }

  /** Reference: the tokens a block of a part contributes, none when the
      block's text is filtered or it has no tokens. */
  function BlockWindow(h: Helpers, doc: Document, piece: DocumentPiece, bi: int): seq<Token> {
    if bi < 0 || bi >= |doc.blocks| then []
    else
      var b := doc.blocks[bi];
      if h.filterLine(b.text) || b.tokens.None? then []
      else
        var ts := b.tokens.value;
        Slice(ts, WindowStart(piece, bi),
              LoopStop(bi == piece.right.blockPtr, piece.right.tokenDocPos - b.startToken, WindowEnd(piece, bi, |ts|)))
  }

  /** Reference: the tokens of the blocks `bi..` of a part. */
  function PieceWindow(h: Helpers, doc: Document, piece: DocumentPiece, bi: int): seq<Token>
    decreases piece.right.blockPtr + 1 - bi
  {
    if bi > piece.right.blockPtr then [] else BlockWindow(h, doc, piece, bi) + PieceWindow(h, doc, piece, bi + 1)
  }

  /** Reference: the tokens of all parts, in order. */
  function BodyWindow(h: Helpers, doc: Document, parts: seq<DocumentPiece>): seq<Token>
    decreases |parts|
  {
    if |parts| == 0 then [] else PieceWindow(h, doc, parts[0], parts[0].left.blockPtr) + BodyWindow(h, doc, parts[1..])
  }

  lemma {:induction false} EncodeTokensCollect(h: Helpers, doc: Document, fulltextLength: int, info: BlockInfo, lastPos: int,
                                               st: BodyState, bs: BlockScan)
    requires lastPos <= |info.tokens|
    ensures var r := EncodeTokens(h, doc, info, fulltextLength, lastPos, st, bs);
      r.Ok? ==> r.value.layoutTokens == st.layoutTokens + Slice(info.tokens, bs.n, LoopStop(info.isLast, info.stopDoc, lastPos))
    decreases lastPos - bs.n
  {
    if bs.n < lastPos && !(info.isLast && bs.n > info.stopDoc) && bs.n >= 0 {
      var r := TokenStep(h, doc, info, fulltextLength, st, bs);
      if r.Ok? {
        var next := r.value;
        assert EncodeTokens(h, doc, info, fulltextLength, lastPos, st, bs)
          == EncodeTokens(h, doc, info, fulltextLength, lastPos, next.0, next.1);
        EncodeTokensCollect(h, doc, fulltextLength, info, lastPos, next.0, next.1);
        SliceCons(info.tokens, bs.n, LoopStop(info.isLast, info.stopDoc, lastPos));
      }
    }
  }

  lemma SliceCons(tokens: seq<Token>, from: int, to: int)
    requires 0 <= from < to <= |tokens|
    ensures Slice(tokens, from, to) == [tokens[from]] + Slice(tokens, from + 1, to)
  {
    assert tokens[from..to] == [tokens[from]] + tokens[from + 1..to];
  }

  lemma EncodeBlockCollects(h: Helpers, doc: Document, piece: DocumentPiece, bi: int, fulltextLength: int, st: BodyState)
    ensures var r := EncodeBlock(h, doc, piece, bi, fulltextLength, st);
      r.Ok? ==> r.value.layoutTokens == st.layoutTokens + BlockWindow(h, doc, piece, bi)
  {
    if 0 <= bi < |doc.blocks| {
      var b := doc.blocks[bi];
      var st1 := EnterBlock(st, b);
      if !h.filterLine(b.text) && b.tokens.Some? {
        var info := BlockInfoOf(doc, piece, bi, b, b.tokens.value, st1.lowestPos);
        var lastPos := WindowEnd(piece, bi, |b.tokens.value|);
        var r := EncodeTokens(h, doc, info, fulltextLength, lastPos, st1, BlockScan(WindowStart(piece, bi), false, false));
        EncodeTokensCollect(h, doc, fulltextLength, info, lastPos, st1, BlockScan(WindowStart(piece, bi), false, false));
        assert st1.layoutTokens == st.layoutTokens;
        assert BlockWindow(h, doc, piece, bi) == Slice(info.tokens, WindowStart(piece, bi), LoopStop(info.isLast, info.stopDoc, lastPos));
        assert r.Ok? ==> EncodeBlock(h, doc, piece, bi, fulltextLength, st) == Ok(r.value.(lowestPos := b.y + b.height));
      }
    }
  }

  lemma {:induction false} EncodePieceBlocksCollect(h: Helpers, doc: Document, piece: DocumentPiece, bi: int, fulltextLength: int, st: BodyState)
    ensures var r := EncodePieceBlocks(h, doc, piece, bi, fulltextLength, st);
      r.Ok? ==> r.value.layoutTokens == st.layoutTokens + PieceWindow(h, doc, piece, bi)
    decreases piece.right.blockPtr + 1 - bi
  {
    if bi <= piece.right.blockPtr {
      var r := EncodeBlock(h, doc, piece, bi, fulltextLength, st);
      if r.Ok? {
        EncodePieceBlocksCollect(h, doc, piece, bi + 1, fulltextLength, r.value);
      }
      PieceBlocksCollectStep(h, doc, piece, bi, fulltextLength, st);
    }
  }

  /** The induction step of `EncodePieceBlocksCollect`: block `bi`'s window,
      then the windows of the blocks after it. */
  lemma PieceBlocksCollectStep(h: Helpers, doc: Document, piece: DocumentPiece, bi: int, fulltextLength: int, st: BodyState)
    requires bi <= piece.right.blockPtr
    requires var r := EncodeBlock(h, doc, piece, bi, fulltextLength, st);
      r.Ok? ==> var r' := EncodePieceBlocks(h, doc, piece, bi + 1, fulltextLength, r.value);
        r'.Ok? ==> r'.value.layoutTokens == r.value.layoutTokens + PieceWindow(h, doc, piece, bi + 1)
    ensures var r := EncodePieceBlocks(h, doc, piece, bi, fulltextLength, st);
      r.Ok? ==> r.value.layoutTokens == st.layoutTokens + PieceWindow(h, doc, piece, bi)
  {
    EncodeBlockCollects(h, doc, piece, bi, fulltextLength, st);
    EncodePieceBlocksCons(h, doc, piece, bi, fulltextLength, st);
    PieceWindowCons(h, doc, piece, bi);
    var w := BlockWindow(h, doc, piece, bi);
    var rest := PieceWindow(h, doc, piece, bi + 1);
    assert st.layoutTokens + w + rest == st.layoutTokens + (w + rest);
  }

  lemma EncodePieceBlocksCons(h: Helpers, doc: Document, piece: DocumentPiece, bi: int, fulltextLength: int, st: BodyState)
    requires bi <= piece.right.blockPtr
    ensures var r := EncodeBlock(h, doc, piece, bi, fulltextLength, st);
      r.Ok? ==> EncodePieceBlocks(h, doc, piece, bi, fulltextLength, st) == EncodePieceBlocks(h, doc, piece, bi + 1, fulltextLength, r.value)
  { }

  lemma PieceWindowCons(h: Helpers, doc: Document, piece: DocumentPiece, bi: int)
    requires bi <= piece.right.blockPtr
    ensures PieceWindow(h, doc, piece, bi) == BlockWindow(h, doc, piece, bi) + PieceWindow(h, doc, piece, bi + 1)
  { }

  lemma {:induction false} EncodePiecesCollect(h: Helpers, doc: Document, parts: seq<DocumentPiece>, fulltextLength: int, st: BodyState)
    ensures var r := EncodePieces(h, doc, parts, fulltextLength, st);
      r.Ok? ==> r.value.layoutTokens == st.layoutTokens + BodyWindow(h, doc, parts)
    decreases |parts|
  {
    if |parts| > 0 {
      var r := EncodePieceBlocks(h, doc, parts[0], parts[0].left.blockPtr, fulltextLength, st);
      if r.Ok? {
        EncodePiecesCollect(h, doc, parts[1..], fulltextLength, r.value);
      }
      PiecesCollectStep(h, doc, parts, fulltextLength, st);
    }
  }

  /** The induction step of `EncodePiecesCollect`: the first part's window,
      then the windows of the parts after it. */
  lemma PiecesCollectStep(h: Helpers, doc: Document, parts: seq<DocumentPiece>, fulltextLength: int, st: BodyState)
    requires |parts| > 0
    requires var r := EncodePieceBlocks(h, doc, parts[0], parts[0].left.blockPtr, fulltextLength, st);
      r.Ok? ==> var r' := EncodePieces(h, doc, parts[1..], fulltextLength, r.value);
        r'.Ok? ==> r'.value.layoutTokens == r.value.layoutTokens + BodyWindow(h, doc, parts[1..])
    ensures var r := EncodePieces(h, doc, parts, fulltextLength, st);
      r.Ok? ==> r.value.layoutTokens == st.layoutTokens + BodyWindow(h, doc, parts)
  {
    EncodePieceBlocksCollect(h, doc, parts[0], parts[0].left.blockPtr, fulltextLength, st);
    EncodePiecesCons(h, doc, parts, fulltextLength, st);
    BodyWindowCons(h, doc, parts);
    var w := PieceWindow(h, doc, parts[0], parts[0].left.blockPtr);
    var rest := BodyWindow(h, doc, parts[1..]);
    assert st.layoutTokens + w + rest == st.layoutTokens + (w + rest);
  }

  lemma EncodePiecesCons(h: Helpers, doc: Document, parts: seq<DocumentPiece>, fulltextLength: int, st: BodyState)
    requires |parts| > 0
    ensures var r := EncodePieceBlocks(h, doc, parts[0], parts[0].left.blockPtr, fulltextLength, st);
      r.Ok? ==> EncodePieces(h, doc, parts, fulltextLength, st) == EncodePieces(h, doc, parts[1..], fulltextLength, r.value)
  { }

  lemma BodyWindowCons(h: Helpers, doc: Document, parts: seq<DocumentPiece>)
    requires |parts| > 0
    ensures BodyWindow(h, doc, parts) == PieceWindow(h, doc, parts[0], parts[0].left.blockPtr) + BodyWindow(h, doc, parts[1..])
  { }

  // ---------------------------------------------------------------------------
  // The printed stream

  /** The successor of record `i` starts a block while record `i` is BLOCKIN. */
  ghost predicate BlockCorrected(cs: seq<BodyRecord>, i: nat)
    requires i < |cs|
  {
    i + 1 < |cs| && cs[i + 1].features.blockStatus == Some(BlockStart) && cs[i].features.blockStatus == Some(BlockIn)
  }

  /** Printed record `i` against created record `i`: only its three statuses
      can differ; it is PAGEEND exactly when the next record starts a page;
      a BLOCKIN record followed by a block start is corrected to BLOCKEND and
      LINEEND, and that is the only change to its block status; a record
      whose successor starts a line is LINEEND unless it is itself pending as
      LINESTART; its line status changes for these two reasons only; and no
      printed BLOCKIN record is followed by a printed BLOCKSTART. */
  ghost predicate OutputAt(cs: seq<BodyRecord>, out: seq<BodyRecord>, i: nat)
    requires |out| == |cs| && i < |cs|
  {
    var c := cs[i];
    var o := out[i];
    && o.origin == c.origin && o.closesLine == c.closesLine
    && o.features.(pageStatus := c.features.pageStatus, lineStatus := c.features.lineStatus,
                   blockStatus := c.features.blockStatus) == c.features
    && (o.features.pageStatus == PageEnd <==> i + 1 < |cs| && cs[i + 1].features.pageStatus == PageStart)
    && (o.features.pageStatus != PageEnd ==> o.features.pageStatus == c.features.pageStatus)
    && (i + 1 < |cs| && cs[i + 1].features.blockStatus == Some(BlockStart) && c.features.blockStatus == Some(BlockIn) ==>
          o.features.blockStatus == Some(BlockEnd) && o.features.lineStatus == Some(LineEnd))
    && (o.features.blockStatus != c.features.blockStatus ==>
          o.features.blockStatus == Some(BlockEnd) && BlockCorrected(cs, i))
    && (i + 1 < |cs| && cs[i + 1].closesLine && c.features.lineStatus != Some(LineStart) ==>
          o.features.lineStatus == Some(LineEnd))
    && (o.features.lineStatus != c.features.lineStatus ==>
          o.features.lineStatus == Some(LineEnd) &&
          (BlockCorrected(cs, i) || (i + 1 < |cs| && cs[i + 1].closesLine && c.features.lineStatus != Some(LineStart))))
    && (i + 1 < |out| && out[i + 1].features.blockStatus == Some(BlockStart) ==> o.features.blockStatus != Some(BlockIn))
  }

  lemma LaggedOutput(cs: seq<BodyRecord>)
    requires forall i: nat :: i < |cs| ==> cs[i].features.pageStatus != PageEnd
    ensures var out := Lagged(cs, BodyPatch);
      forall i: nat :: i < |cs| ==> OutputAt(cs, out, i)
  {
    var out := Lagged(cs, BodyPatch);
    forall i: nat | i < |cs| ensures OutputAt(cs, out, i) {
      if i + 1 < |cs| {
        assert out[i] == BodyPatch(cs[i], cs[i + 1]);
        if i + 2 < |cs| {
          assert out[i + 1] == BodyPatch(cs[i + 1], cs[i + 2]);
        } else {
          assert out[i + 1] == cs[i + 1];
        }
      } else {
        assert out[i] == cs[i];
      }
    }
  }

  lemma InitialInv(h: Helpers, doc: Document, fulltextLength: int)
    ensures Inv(h, doc, fulltextLength, InitialBodyState)
  {
    assert PushAll([], BodyPatch) == Empty();
  }

  /** The body encoder's walk: the printed records are the created ones with
      a one-record lag, each describing one collected token, one record per
      qualifying token, in token order, with the font, size and page statuses
      following the stream, and the collected layout tokens are exactly the
      tokens of the parts' pointer windows. */
  lemma EncodeBodyStream(h: Helpers, doc: Document, parts: seq<DocumentPiece>, fulltextLength: int)
    requires EncodeBody(h, doc, parts, fulltextLength).Ok?
    ensures var st := EncodeBody(h, doc, parts, fulltextLength).value;
      var out := Flush(st.buffer);
      && out == Lagged(st.created, BodyPatch)
      && st.layoutTokens == BodyWindow(h, doc, parts)
      && |st.created| == Qualifying(h, st.layoutTokens)
      && st.nn == Offset(h, st.layoutTokens)
      && RecordsHold(h, doc, fulltextLength, st.layoutTokens, st.created)
      && FontStatusesFollow(st.created, RecordFont, RecordFontStatus)
      && SizeStatusesFollow(st.created, RecordSize, RecordSizeStatus)
      && (forall i: nat :: i < |out| ==> OutputAt(st.created, out, i))
  {
    var st := EncodeBody(h, doc, parts, fulltextLength).value;
    InitialInv(h, doc, fulltextLength);
    EncodePiecesKeep(h, doc, parts, fulltextLength, InitialBodyState);
    EncodePiecesCollect(h, doc, parts, fulltextLength, InitialBodyState);
    FlushIsLagged(st.created, BodyPatch);
    forall i: nat | i < |st.created| ensures st.created[i].features.pageStatus != PageEnd {
      assert RecordAt(h, doc, fulltextLength, st.layoutTokens, st.created, i);
    }
    LaggedOutput(st.created);
  }
}

=== FILE: body_training.dfy ===
/** The body segmentation model's training reconstructor (`trainingExtraction`
    and the static `writeField` and `testClosingTag`): it walks the label
    stream, one record per non-blank line, re-synchronises a cursor over the
    document's layout tokens to learn whether a space or a line break came
    before the record's token, and writes the tokens labelled `<other>` into
    a note element, closing an entry, title or title description when the
    label changes.

    Of the labels the model produces, only `<other>` ever writes text: the
    reconstructor passes no other field to `writeField`.
 */
module BodyTraining {
  import opened Wrappers
  import opened JavaStrings
  import opened Layout
  import opened Lexicon
  import opened Labels

  /** The element `<other>` tokens are written into. */
  const OtherNote: string := "<note type=\"other\">"

  /** The indentation of the opening element. */
  const NoteIndent: nat := 3

  /** The labels whose change closes an element. */
  const ClosedBodyTags: set<string> := {"<entry>", "<title>", "<titledesc>"}

  /** The characters separating a record's fields. */
  const FieldSeparators: set<char> := {' ', '\t'}

  const NoBreakSpace: string := "\U{00A0}"

  datatype BodyPiece =
    | LineBreak                              // "<lb/>"
    | Open(indent: nat, element: string)     // tabs, then the opening element
    | Word(space: bool, text: string)        // a token, after a space when one preceded it
    | Close(tag: string)                     // a closing element and a blank line

  function Tabs(n: nat): (r: string)
    ensures |r| == n && forall k :: 0 <= k < n ==> r[k] == '\t'
  {
    if n == 0 then "" else Tabs(n - 1) + "\t"
  }

  /** The closing element of an entry, a title or a title description,
      followed by a blank line. */
  function ClosingText(t: string): (r: string)
    ensures t in ClosedBodyTags ==> r == "</" + t[1..] + "\n\n"
  {
    if t == "<entry>" then "</entry>\n\n"
    else if t == "<title>" then "</title>\n\n"
    else if t == "<titledesc>" then "</titledesc>\n\n"
    else ""
  }

  function PieceText(p: BodyPiece): string {
    match p
    case LineBreak => "<lb/>"
    case Open(n, e) => Tabs(n) + e
    case Word(space, t) => (if space then " " else "") + t
    case Close(t) => ClosingText(t)
  }

  function Render(ps: seq<BodyPiece>): string {
    if |ps| == 0 then "" else Render(ps[..|ps| - 1]) + PieceText(ps[|ps| - 1])
  }

  // ---------------------------------------------------------------------------
  // writeField and testClosingTag

  /** `writeField`: nothing (false) for a null label or a label other than
      `field`; otherwise the token, opened by the indented element when there
      is no previous tag, and after a space when one preceded it otherwise. */
  function WriteField(s1: Option<string>, lastTag0: Option<string>, s2: string, field: string, outField: string,
                      addSpace: bool, nbIndent: nat): (r: Option<seq<BodyPiece>>)
    ensures r.Some? <==> s1.Some? && LabelFor(s1.value, field)
    ensures r.Some? && lastTag0.Some? ==> r.value == [Word(addSpace, s2)]
    ensures r.Some? && lastTag0.None? && !SameTag(s1.value, None) ==> r.value == [Open(nbIndent, outField), Word(false, s2)]
  {
    match s1
    case None => None
    case Some(name) =>
      if !LabelFor(name, field) then None
      else if SameTag(name, lastTag0) then Some([Word(addSpace, s2)])
      else if lastTag0.None? then Some([Open(nbIndent, outField), Word(false, s2)])
      else Some([Word(addSpace, s2)])
  }

  /** `testClosingTag`: when the base tag changes, the previous one is closed
      if it is an entry, a title or a title description. */
  function Closing(currentTag0: string, lastTag0: string): (r: seq<BodyPiece>)
    ensures |r| <= 1
    ensures |r| == 1 <==> currentTag0 != lastTag0 && lastTag0 in ClosedBodyTags
    ensures |r| == 1 ==> r[0] == Close(lastTag0)
  {
    if currentTag0 != lastTag0 then
      if lastTag0 == "<entry>" then [Close("<entry>")]
      else if lastTag0 == "<title>" then [Close("<title>")]
      else if lastTag0 == "<titledesc>" then [Close("<titledesc>")]
      else []
    else []
  }

  // ---------------------------------------------------------------------------
  // Re-synchronisation over the layout tokens

  predicate IsSpaceToken(t: string) {
    t == " " || t == NoBreakSpace
  }

  /** The token the scan stops at: equal to the record's token, tested after
      the space and line-break tests. */
  predicate StopsAt(t: string, s: string) {
    !IsSpaceToken(t) && t != "\n" && t == s
  }

  /** The scan's result: the new position and whether a space or a line break
      was passed. */
  datatype Sync = Sync(p: int, addSpace: bool, newLine: bool)

  /** The scan loop from position `p`. */
  function Scan(toks: seq<Token>, s: string, p: int, addSpace: bool, newLine: bool): Sync
    decreases |toks| - p
  {
    if p < 0 || p >= |toks| then Sync(p, addSpace, newLine)
    else
      var t := toks[p].text;
      if IsSpaceToken(t) then Scan(toks, s, p + 1, true, newLine)
      else if t == "\n" then Scan(toks, s, p + 1, addSpace, true)
      else if t == s then Sync(p + 1, addSpace, newLine)
      else Scan(toks, s, p + 1, addSpace, newLine)
  }

  /** The scan for the record token `s` from `p0`; when it ran into the end
      after passing more than two tokens, the position goes back to `p0`. */
  function Resync(toks: seq<Token>, s: string, p0: int): Sync {
    var r := Scan(toks, s, p0, false, false);
    if r.p == |toks| && r.p - p0 > 2 then r.(p := p0) else r
  }

  /** Reference: the first position at or after `from` where the scan stops. */
  function FirstStop(toks: seq<Token>, s: string, from: nat): (r: Option<nat>)
    ensures r.Some? ==> from <= r.value < |toks| && StopsAt(toks[r.value].text, s)
    ensures forall k :: from <= k < |toks| && (r.None? || k < r.value) ==> !StopsAt(toks[k].text, s)
    decreases |toks| - from
  {
    if from >= |toks| then None
    else if StopsAt(toks[from].text, s) then Some(from)
    else FirstStop(toks, s, from + 1)
  }

  /** One past the stop, or the end of the tokens. */
  function ScanEnd(toks: seq<Token>, s: string, from: nat): (e: nat)
    ensures from <= e || from > |toks|
  {
    match FirstStop(toks, s, from)
    case Some(k) => k + 1
    case None => if from > |toks| then from else |toks|
  }

  lemma {:induction false} ScanMeetsReference(toks: seq<Token>, s: string, p: nat, addSpace: bool, newLine: bool)
    requires p <= |toks|
    ensures var r := Scan(toks, s, p, addSpace, newLine);
      var e := ScanEnd(toks, s, p);
      && r.p == e
      && (r.addSpace <==> addSpace || exists k :: p <= k < e && IsSpaceToken(toks[k].text))
      && (r.newLine <==> newLine || exists k :: p <= k < e && toks[k].text == "\n")
    decreases |toks| - p
  {
    if p < |toks| {
      var t := toks[p].text;
      if StopsAt(t, s) {
        assert ScanEnd(toks, s, p) == p + 1;
      } else {
        assert FirstStop(toks, s, p) == FirstStop(toks, s, p + 1);
        var a := addSpace || IsSpaceToken(t);
        var n := newLine || (!IsSpaceToken(t) && t == "\n");
        ScanMeetsReference(toks, s, p + 1, a, n);
        var e := ScanEnd(toks, s, p);
        assert e == ScanEnd(toks, s, p + 1);
        assert (exists k :: p <= k < e && IsSpaceToken(toks[k].text)) <==>
               IsSpaceToken(t) || exists k :: p + 1 <= k < e && IsSpaceToken(toks[k].text);
        assert (exists k :: p <= k < e && toks[k].text == "\n") <==>
               t == "\n" || exists k :: p + 1 <= k < e && toks[k].text == "\n";
      }
    }
  }

  /** The re-synchronisation: the cursor moves past the first token equal to
      the record's, noting the spaces and line breaks passed on the way; when
      no such token remains, or the match is the last token, more than two
      tokens ahead, the cursor stays where it was. */
  lemma ResyncSpec(toks: seq<Token>, s: string, p0: nat)
    requires p0 <= |toks|
    ensures var r := Resync(toks, s, p0);
      var e := ScanEnd(toks, s, p0);
      && r.p == (if e == |toks| && e - p0 > 2 then p0 else e)
      && 0 <= r.p <= |toks|
      && (r.addSpace <==> exists k :: p0 <= k < e && IsSpaceToken(toks[k].text))
      && (r.newLine <==> exists k :: p0 <= k < e && toks[k].text == "\n")
  {
    ScanMeetsReference(toks, s, p0, false, false);
  }

  // ---------------------------------------------------------------------------
  // The label stream

  /** The label a record leaves set: its last field when it has at least two,
      the previous label otherwise. */
  function RecordTag(fields: seq<string>, previous: Option<string>): (r: Option<string>)
    ensures previous.Some? ==> r.Some?
    ensures |fields| < 2 ==> r == previous
    ensures |fields| >= 2 ==> r == Some(Trim(fields[|fields| - 1]))
  {
    if |fields| >= 2 then Some(Trim(fields[|fields| - 1])) else previous
  }

  /** A middle field of the record is the LINESTART feature. */
  predicate MarksLineStart(fields: seq<string>) {
    exists k :: 1 <= k < |fields| - 1 && Trim(fields[k]) == "LINESTART"
  }

  /** A trimmed non-empty line has at least one field. */
  lemma FieldsOfTrimmed(tok: string)
    requires |tok| > 0 && !IsTrimmable(tok[0])
    ensures |Tokens(tok, FieldSeparators)| > 0
  {
    assert tok[0] !in FieldSeparators;
  }

  datatype BodyExtraction = BodyExtraction(p: int, lastTag: Option<string>, start: bool, pieces: seq<BodyPiece>)

  const InitialBodyExtraction: BodyExtraction := BodyExtraction(0, None, true, [])

  function BaseOf(tag: Option<string>): Option<string> {
    if tag.Some? then Some(BaseTag(tag.value)) else None
  }

  /** The pieces a record writes: the line break, the closing element of the
      previous label, and the token when it is labelled `<other>`. */
  function RecordPieces(h: Helpers, st: BodyExtraction, fields: seq<string>, sync: Sync): (ps: seq<BodyPiece>)
    requires |fields| > 0
  {
    var s1 := RecordTag(fields, st.lastTag);
    var lb := if (sync.newLine || MarksLineStart(fields)) && !st.start then [LineBreak] else [];
    var close := if st.lastTag.Some? then Closing(BaseTag(s1.value), BaseTag(st.lastTag.value)) else [];
    var written := WriteField(s1, BaseOf(st.lastTag), h.htmlEncode(Trim(fields[0])), OtherLabel, OtherNote, sync.addSpace, NoteIndent);
    lb + close + written.GetOr([])
  }

  /** One line of the label stream. */
  function Step(h: Helpers, toks: seq<Token>, st: BodyExtraction, line: string): (r: BodyExtraction)
    ensures |Trim(line)| == 0 ==> r == st
    ensures |Trim(line)| > 0 ==> !r.start && |r.pieces| >= |st.pieces| && r.pieces[..|st.pieces|] == st.pieces
  {
    var tok := Trim(line);
    if |tok| == 0 then st
    else
      FieldsOfTrimmed(tok);
      var fields := Tokens(tok, FieldSeparators);
      var sync := Resync(toks, Trim(fields[0]), st.p);
      BodyExtraction(sync.p, RecordTag(fields, st.lastTag), false, st.pieces + RecordPieces(h, st, fields, sync))
  }

  function Run(h: Helpers, toks: seq<Token>, lines: seq<string>): BodyExtraction {
    if |lines| == 0 then InitialBodyExtraction else Step(h, toks, Run(h, toks, lines[..|lines| - 1]), lines[|lines| - 1])
  }

  /** The whole stream: a non-blank last line closes the last label. */
  function Extract(h: Helpers, toks: seq<Token>, lines: seq<string>): seq<BodyPiece> {
    var st := Run(h, toks, lines);
    if |lines| > 0 && |Trim(lines[|lines| - 1])| > 0 && st.lastTag.Some? then
      st.pieces + Closing("", BaseTag(st.lastTag.value))
    else st.pieces
  }

  /** `trainingExtraction` of the labelled result against the layout tokens. */
  function TrainingExtraction(h: Helpers, result: string, toks: seq<Token>): string {
    Render(Extract(h, toks, Tokens(result, {'\n'})))
  }
}

=== FILE: body_training_streams.dfy ===
/** What the body reconstructor writes over a whole label stream: the
    `<other>` tokens in order, each exactly once; the note element opened at
    most once, before any token; closing elements only for entries, titles
    and title descriptions; and no line break before the first record.
 */
module BodyTrainingStreams {
  import opened Wrappers
  import opened JavaStrings
  import opened Layout
  import opened Lexicon
  import opened Labels
  import opened BodyTraining

  // ---------------------------------------------------------------------------
  // Reference definitions over the label stream

  function Fields(line: string): seq<string> {
    Tokens(Trim(line), FieldSeparators)
  }

  predicate IsRecord(line: string) {
    |Trim(line)| > 0
  }

  /** The label set after the lines: the last field of the last line with at
      least two fields. */
  function LabelAfter(lines: seq<string>): Option<string> {
    if |lines| == 0 then None
    else
      var previous := LabelAfter(lines[..|lines| - 1]);
      var line := lines[|lines| - 1];
      if IsRecord(line) then RecordTag(Fields(line), previous) else previous
  }

  function RecordCount(lines: seq<string>): nat {
    if |lines| == 0 then 0 else RecordCount(lines[..|lines| - 1]) + (if IsRecord(lines[|lines| - 1]) then 1 else 0)
  }

  /** The encoded tokens of the records labelled `<other>`, in order. */
  function OtherWords(h: Helpers, lines: seq<string>): seq<string> {
    if |lines| == 0 then []
    else
      var line := lines[|lines| - 1];
      var tag := LabelAfter(lines);
      var fs := Fields(line);
      OtherWords(h, lines[..|lines| - 1])
        + (if IsRecord(line) && |fs| > 0 && tag.Some? && LabelFor(tag.value, OtherLabel)
           then [h.htmlEncode(Trim(fs[0]))] else [])
  }

  // ---------------------------------------------------------------------------
  // Piece counts

  function Words(ps: seq<BodyPiece>): seq<string> {
    if |ps| == 0 then [] else Words(ps[..|ps| - 1]) + (if ps[|ps| - 1].Word? then [ps[|ps| - 1].text] else [])
  }

  function LineBreaks(ps: seq<BodyPiece>): nat {
    if |ps| == 0 then 0 else LineBreaks(ps[..|ps| - 1]) + (if ps[|ps| - 1].LineBreak? then 1 else 0)
  }

  lemma {:induction false} WordsConcat(a: seq<BodyPiece>, b: seq<BodyPiece>)
    ensures Words(a + b) == Words(a) + Words(b)
    ensures LineBreaks(a + b) == LineBreaks(a) + LineBreaks(b)
    decreases |b|
  {
    if |b| == 0 {
      assert a + b == a;
    } else {
      var b' := b[..|b| - 1];
      WordsConcat(a, b');
      assert (a + b)[..|a + b| - 1] == a + b';
    }
  }

  /** Every closing element is one of the three closed labels. */
  predicate ClosesKnown(ps: seq<BodyPiece>) {
    forall i :: 0 <= i < |ps| && ps[i].Close? ==> ps[i].tag in ClosedBodyTags
  }

  /** The note element, indented, is the only opening element, and only line
      breaks come before it. */
  predicate OpensFirst(ps: seq<BodyPiece>) {
    forall i :: 0 <= i < |ps| && ps[i].Open? ==>
      ps[i] == Open(NoteIndent, OtherNote) && forall j :: 0 <= j < i ==> ps[j].LineBreak?
  }

  predicate OnlyLineBreaks(ps: seq<BodyPiece>) {
    forall i :: 0 <= i < |ps| ==> ps[i].LineBreak?
  }

  // ---------------------------------------------------------------------------
  // The invariant of the walk

  ghost predicate Inv(h: Helpers, toks: seq<Token>, lines: seq<string>, st: BodyExtraction) {
    && st.lastTag == LabelAfter(lines)
    && (st.start <==> RecordCount(lines) == 0)
    && 0 <= st.p <= |toks|
    && Words(st.pieces) == OtherWords(h, lines)
    && (LineBreaks(st.pieces) < RecordCount(lines) || LineBreaks(st.pieces) == 0)
    && ClosesKnown(st.pieces)
    && OpensFirst(st.pieces)
    && (st.lastTag.None? ==> OnlyLineBreaks(st.pieces))
  }

  predicate NoOpens(ps: seq<BodyPiece>) {
    forall i :: 0 <= i < |ps| ==> !ps[i].Open?
  }

  lemma LineBreakFacts(lb: seq<BodyPiece>)
    requires lb == [] || lb == [LineBreak]
    ensures ClosesKnown(lb) && OpensFirst(lb) && OnlyLineBreaks(lb) && NoOpens(lb)
    ensures Words(lb) == [] && LineBreaks(lb) == |lb|
  {
    if |lb| == 1 { assert lb[..0] == []; }
  }

  lemma CloseFacts(c: seq<BodyPiece>)
    requires |c| <= 1 && (|c| == 1 ==> c[0].Close? && c[0].tag in ClosedBodyTags)
    ensures ClosesKnown(c) && OpensFirst(c) && NoOpens(c)
    ensures Words(c) == [] && LineBreaks(c) == 0
  {
    if |c| == 1 { assert c[..0] == []; }
  }

  lemma WrittenFacts(w: seq<BodyPiece>, a: bool, s2: string)
    requires w == [] || w == [Word(a, s2)] || w == [Open(NoteIndent, OtherNote), Word(false, s2)]
    ensures ClosesKnown(w) && OpensFirst(w) && LineBreaks(w) == 0
    ensures Words(w) == (if w == [] then [] else [s2])
    ensures w != [Open(NoteIndent, OtherNote), Word(false, s2)] ==> NoOpens(w)
  {
    if |w| == 1 { assert w[..0] == []; }
    if |w| == 2 {
      assert w[..1] == [w[0]] && w[..1][..0] == [];
      assert Words(w[..1]) == [] && LineBreaks(w[..1]) == 0;
    }
  }

  /** The pieces one record writes. */
  lemma RecordPiecesShape(h: Helpers, st: BodyExtraction, fields: seq<string>, sync: Sync)
    requires |fields| > 0
    ensures var g := RecordPieces(h, st, fields, sync);
      var s1 := RecordTag(fields, st.lastTag);
      && ClosesKnown(g) && OpensFirst(g)
      && (st.lastTag.Some? ==> NoOpens(g))
      && (s1.None? ==> OnlyLineBreaks(g))
      && Words(g) == (if s1.Some? && LabelFor(s1.value, OtherLabel) then [h.htmlEncode(Trim(fields[0]))] else [])
      && LineBreaks(g) <= (if st.start then 0 else 1)
  {
    var s1 := RecordTag(fields, st.lastTag);
    var s2 := h.htmlEncode(Trim(fields[0]));
    var lb := if (sync.newLine || MarksLineStart(fields)) && !st.start then [LineBreak] else [];
    var close := if st.lastTag.Some? then Closing(BaseTag(s1.value), BaseTag(st.lastTag.value)) else [];
    var written := WriteField(s1, BaseOf(st.lastTag), s2, OtherLabel, OtherNote, sync.addSpace, NoteIndent);
    var w := written.GetOr([]);
    assert RecordPieces(h, st, fields, sync) == lb + close + w;
    LineBreakFacts(lb);
    CloseFacts(close);
    WrittenShape(s1, st.lastTag, s2, sync.addSpace);
    WrittenFacts(w, sync.addSpace, s2);
    CombineFacts(lb, close, w);
  }

  /** What the `<other>` field writes: nothing unless the label is `<other>`,
      and never the opening element once a label was set. */
  lemma WrittenShape(s1: Option<string>, lastTag: Option<string>, s2: string, a: bool)
    ensures var w := WriteField(s1, BaseOf(lastTag), s2, OtherLabel, OtherNote, a, NoteIndent).GetOr([]);
      && (w == [] || w == [Word(a, s2)] || w == [Open(NoteIndent, OtherNote), Word(false, s2)])
      && (lastTag.Some? ==> w == [] || w == [Word(a, s2)])
      && (w == [] <==> !(s1.Some? && LabelFor(s1.value, OtherLabel)))
  {
    var written := WriteField(s1, BaseOf(lastTag), s2, OtherLabel, OtherNote, a, NoteIndent);
    if written.Some? && BaseOf(lastTag).None? {
      assert LabelFor(s1.value, OtherLabel);
    }
  }

  lemma CombineFacts(lb: seq<BodyPiece>, close: seq<BodyPiece>, w: seq<BodyPiece>)
    requires ClosesKnown(lb) && OpensFirst(lb) && OnlyLineBreaks(lb) && NoOpens(lb) && Words(lb) == []
    requires ClosesKnown(close) && OpensFirst(close) && NoOpens(close) && Words(close) == [] && LineBreaks(close) == 0
    requires ClosesKnown(w) && OpensFirst(w) && LineBreaks(w) == 0
    requires NoOpens(w) || close == []
    ensures var g := lb + close + w;
      && ClosesKnown(g) && OpensFirst(g)
      && (NoOpens(w) ==> NoOpens(g))
      && (w == [] && close == [] ==> OnlyLineBreaks(g))
      && Words(g) == Words(w)
      && LineBreaks(g) == LineBreaks(lb)
  {
    WordsConcat(lb, close);
    AppendKeeps(lb, close);
    if close == [] { assert lb + close == lb; }
    WordsConcat(lb + close, w);
    AppendKeeps(lb + close, w);
    if w == [] { assert lb + close + w == lb + close; }
  }

  /** Appending a record's pieces keeps the piece properties. */
  lemma AppendKeeps(a: seq<BodyPiece>, g: seq<BodyPiece>)
    requires ClosesKnown(a) && OpensFirst(a) && ClosesKnown(g) && OpensFirst(g)
    requires NoOpens(g) || OnlyLineBreaks(a)
    ensures ClosesKnown(a + g) && OpensFirst(a + g)
    ensures OnlyLineBreaks(a) && OnlyLineBreaks(g) ==> OnlyLineBreaks(a + g)
    ensures NoOpens(a) && NoOpens(g) ==> NoOpens(a + g)
  {
    var ps := a + g;
    forall i | 0 <= i < |ps| && ps[i].Open?
      ensures ps[i] == Open(NoteIndent, OtherNote) && forall j :: 0 <= j < i ==> ps[j].LineBreak?
    {
      if i >= |a| {
        assert g[i - |a|].Open?;
        forall j | 0 <= j < i ensures ps[j].LineBreak? {
          if j < |a| { assert ps[j] == a[j]; } else { assert ps[j] == g[j - |a|]; }
        }
      } else {
        assert ps[i] == a[i];
        assert forall j :: 0 <= j < i ==> ps[j] == a[j];
      }
    }
    forall i | 0 <= i < |ps| && ps[i].Close? ensures ps[i].tag in ClosedBodyTags {
      if i < |a| { assert ps[i] == a[i]; } else { assert ps[i] == g[i - |a|]; }
    }
    if OnlyLineBreaks(a) && OnlyLineBreaks(g) {
      forall i | 0 <= i < |ps| ensures ps[i].LineBreak? {
        if i < |a| { assert ps[i] == a[i]; } else { assert ps[i] == g[i - |a|]; }
      }
    }
    if NoOpens(a) && NoOpens(g) {
      forall i | 0 <= i < |ps| ensures !ps[i].Open? {
        if i < |a| { assert ps[i] == a[i]; } else { assert ps[i] == g[i - |a|]; }
      }
    }
  }

  /** The pieces of one record keep the piece properties. */
  lemma RecordPiecesKeep(h: Helpers, st: BodyExtraction, fields: seq<string>, sync: Sync)
    requires |fields| > 0
    requires ClosesKnown(st.pieces) && OpensFirst(st.pieces)
    requires st.lastTag.None? ==> OnlyLineBreaks(st.pieces)
    ensures var ps := st.pieces + RecordPieces(h, st, fields, sync);
      var s1 := RecordTag(fields, st.lastTag);
      && ClosesKnown(ps) && OpensFirst(ps)
      && (s1.None? ==> OnlyLineBreaks(ps))
      && Words(ps) == Words(st.pieces) + (if s1.Some? && LabelFor(s1.value, OtherLabel) then [h.htmlEncode(Trim(fields[0]))] else [])
      && LineBreaks(ps) <= LineBreaks(st.pieces) + (if st.start then 0 else 1)
  {
    var g := RecordPieces(h, st, fields, sync);
    RecordPiecesShape(h, st, fields, sync);
    assert NoOpens(g) || OnlyLineBreaks(st.pieces);
    WordsConcat(st.pieces, g);
    AppendKeeps(st.pieces, g);
  }

  lemma StepKeeps(h: Helpers, toks: seq<Token>, lines: seq<string>, line: string, st: BodyExtraction)
    requires Inv(h, toks, lines, st)
    ensures Inv(h, toks, lines + [line], Step(h, toks, st, line))
  {
    var lines' := lines + [line];
    assert lines'[..|lines'| - 1] == lines;
    if IsRecord(line) {
      var tok := Trim(line);
      FieldsOfTrimmed(tok);
      var fields := Tokens(tok, FieldSeparators);
      var sync := Resync(toks, Trim(fields[0]), st.p);
      ResyncSpec(toks, Trim(fields[0]), st.p);
      assert Step(h, toks, st, line) == BodyExtraction(sync.p, RecordTag(fields, st.lastTag), false, st.pieces + RecordPieces(h, st, fields, sync));
      RecordPiecesKeep(h, st, fields, sync);
    }
  }

  lemma {:induction false} RunInvariant(h: Helpers, toks: seq<Token>, lines: seq<string>)
    ensures Inv(h, toks, lines, Run(h, toks, lines))
    decreases |lines|
  {
    if |lines| > 0 {
      var init := lines[..|lines| - 1];
      RunInvariant(h, toks, init);
      StepKeeps(h, toks, init, lines[|lines| - 1], Run(h, toks, init));
      assert init + [lines[|lines| - 1]] == lines;
    }
  }

  /** The body reconstructor over a whole label stream: it writes the encoded
      token of every record labelled `<other>`, in order and once each, and
      nothing else as text; the only opening element is the note element,
      written at most once and before any token; only entries, titles and
      title descriptions are closed; and there are fewer line breaks than
      records. */
  lemma ExtractWritesOthers(h: Helpers, toks: seq<Token>, lines: seq<string>)
    ensures var ps := Extract(h, toks, lines);
      && Words(ps) == OtherWords(h, lines)
      && ClosesKnown(ps)
      && OpensFirst(ps)
      && (forall i, j :: 0 <= i < j < |ps| && ps[j].Open? ==> !ps[i].Open?)
      && (LineBreaks(ps) < RecordCount(lines) || LineBreaks(ps) == 0)
  {
    RunInvariant(h, toks, lines);
    var st := Run(h, toks, lines);
    if |lines| > 0 && IsRecord(lines[|lines| - 1]) && st.lastTag.Some? {
      var c := Closing("", BaseTag(st.lastTag.value));
      WordsConcat(st.pieces, c);
      CloseFacts(c);
      AppendKeeps(st.pieces, c);
    }
  }
}

=== FILE: classify.dfy ===
/** The per-token lexical classes both encoders compute in the same order:
    a later test overrides an earlier one.
 */
module Classify {
  import opened Statuses
  import opened Lexicon

  /** INITCAP when the first character is upper case, overridden by ALLCAP
      when the whole text is capitals, NOCAPS otherwise. */
  function CapitalisationOf(h: Helpers, text: string): (c: Capitalisation)
    requires |text| > 0
    ensures c == AllCap <==> h.testAllCapital(text)
    ensures c == InitCap <==> !h.testAllCapital(text) && h.isUpperCase(text[0])
    ensures c == NoCaps <==> !h.testAllCapital(text) && !h.isUpperCase(text[0])
  {
    var initial := if h.isUpperCase(text[0]) then InitCap else NoCaps;
    if h.testAllCapital(text) then AllCap else initial
  }

  /** CONTAINSDIGITS when the text has a digit, overridden by ALLDIGIT when the
      digit pattern matches, NODIGIT otherwise. */
  function DigitClassOf(h: Helpers, text: string): (d: DigitClass)
    ensures d == AllDigit <==> h.isDigit(text)
    ensures d == ContainsDigits <==> !h.isDigit(text) && h.testDigit(text)
    ensures d == NoDigit <==> !h.isDigit(text) && !h.testDigit(text)
  {
    var some := if h.testDigit(text) then ContainsDigits else NoDigit;
    if h.isDigit(text) then AllDigit else some
  }
}

=== FILE: entries_vector.dfy ===
/** `FeaturesVectorDatacatEntries`: the token-level feature record of the body
    segmentation model and its serialisation as one line of space-separated
    fields.
 */
module EntriesVector {
  import opened Wrappers
  import opened JavaStrings
  import opened Statuses
  import opened Lexicon

  /** The printed fields of the record. The enumerated statuses the token
      encoder always sets are plain values; the three fields `printVector`
      omits when null are options. The layout token the record refers to is
      not a feature and is not printed, so it is not part of the model. */
  datatype EntryFeatures = EntryFeatures(
    text: Option<string>,              // `string`
    blockStatus: Option<BlockStatus>,
    lineStatus: Option<LineStatus>,
    pageStatus: PageStatus,
    fontStatus: FontStatus,
    fontSize: FontSizeStatus,
    bold: bool,
    italic: bool,
    capitalisation: Capitalisation,
    digit: DigitClass,
    singleChar: bool,
    properName: bool,
    commonName: bool,
    firstName: bool,
    punctType: Option<PunctType>,
    relativeDocumentPosition: int,
    relativePagePosition: int,
    punctuationProfile: Option<string>,
    lineLength: int,
    inMainArea: bool,
    repetitivePattern: bool,
    firstRepetitivePattern: bool,
    spacingWithPreviousBlock: int,     // computed, never printed
    characterDensity: int)             // computed, never printed

  /** A boolean feature as printed. */
  function Flag(b: bool): string {
    if b then "1" else "0"
  }

  /** An optional field: absent when null. */
  function Optional(name: Option<string>): (r: seq<string>)
    ensures |r| == if name.Some? then 1 else 0
  {
    if name.Some? then [name.value] else []
  }

  /** The capitalisation as printed: NOCAPS whenever the token is all digits. */
  function PrintedCapitalisation(f: EntryFeatures): string {
    if f.digit == AllDigit then NoCaps.Name() else f.capitalisation.Name()
  }

  /** The punctuation profile and its length; a null or empty profile prints as "no 0". */
  function ProfileFields(profile: Option<string>): (r: seq<string>)
    ensures |r| == 2
  {
    if profile.None? || |profile.value| == 0 then ["no", "0"]
    else [profile.value, IntToString(|profile.value|)]
  }

  function BlockField(f: EntryFeatures): seq<string> {
    Optional(if f.blockStatus.Some? then Some(f.blockStatus.value.Name()) else None)
  }

  function LineField(f: EntryFeatures): seq<string> {
    Optional(if f.lineStatus.Some? then Some(f.lineStatus.value.Name()) else None)
  }

  function PunctField(f: EntryFeatures): seq<string> {
    Optional(if f.punctType.Some? then Some(f.punctType.value.Name()) else None)
  }

  /** The token string, its lower case and its four prefixes. */
  function LeadFields(h: Helpers, s: string): (r: seq<string>)
    ensures |r| == 6
  {
    [s, h.toLowerCase(s), h.prefix(s, 1), h.prefix(s, 2), h.prefix(s, 3), h.prefix(s, 4)]
  }

  /** Page, font and size statuses, the style flags, capitalisation, digit
      class and the lexical flags. */
  function StyleFields(f: EntryFeatures): (r: seq<string>)
    ensures |r| == 11
  {
    [ f.pageStatus.Name(), f.fontStatus.Name(), f.fontSize.Name(),
      Flag(f.bold), Flag(f.italic),
      PrintedCapitalisation(f), f.digit.Name(),
      Flag(f.singleChar), Flag(f.properName), Flag(f.commonName), Flag(f.firstName) ]
  }

  /** Positions, punctuation profile, line length and the closing flags. */
  function TrailFields(f: EntryFeatures): (r: seq<string>)
    ensures |r| == 8
  {
    [IntToString(f.relativeDocumentPosition), IntToString(f.relativePagePosition)]
    + ProfileFields(f.punctuationProfile)
    + [ IntToString(f.lineLength),
        Flag(f.repetitivePattern), Flag(f.firstRepetitivePattern), Flag(f.inMainArea) ]
  }

  /** The fields `printVector` appends, in its order, for a record with text `s`. */
  function Fields(h: Helpers, f: EntryFeatures, s: string): seq<string> {
    LeadFields(h, s) + BlockField(f) + LineField(f) + StyleFields(f) + PunctField(f) + TrailFields(f)
  }

  /** `printVector`: null for a null or empty token string, otherwise the
      fields separated by single spaces and terminated by a newline. */
  function PrintVector(h: Helpers, f: EntryFeatures): (r: Option<string>)
    ensures r.None? <==> f.text.None? || |f.text.value| == 0
    ensures r.Some? ==> |r.value| > 0 && r.value[|r.value| - 1] == '\n'
  {
    if f.text.None? || |f.text.value| == 0 then None
    else Some(Join(Fields(h, f, f.text.value), ' ') + "\n")
  }

  /** How many of the three optional fields are present. */
  function OptionalCount(f: EntryFeatures): nat {
    (if f.blockStatus.Some? then 1 else 0)
    + (if f.lineStatus.Some? then 1 else 0)
    + (if f.punctType.Some? then 1 else 0)
  }

  /** 25 fixed fields plus the optional ones, led by the token, its lower
      case and its four prefixes. */
  lemma FieldCount(h: Helpers, f: EntryFeatures, s: string)
    ensures var fs := Fields(h, f, s);
      && |fs| == 25 + OptionalCount(f)
      && fs[..6] == [s, h.toLowerCase(s), h.prefix(s, 1), h.prefix(s, 2), h.prefix(s, 3), h.prefix(s, 4)]
  {
    var fs := Fields(h, f, s);
    assert fs[..6] == LeadFields(h, s);
  }

  /** The block and line statuses follow the prefixes when present; the page,
      font and size statuses, the bold and italic flags, the capitalisation
      (NOCAPS for an all-digit token), the digit class and the four lexical
      flags follow, at offsets that shift with the optional fields. */
  lemma StyleLayout(h: Helpers, f: EntryFeatures, s: string)
    ensures var fs := Fields(h, f, s);
      var o := |BlockField(f)| + |LineField(f)|;
      && |fs| >= 17 + o
      && (f.blockStatus.Some? ==> fs[6] == f.blockStatus.value.Name())
      && (f.lineStatus.Some? ==> fs[6 + |BlockField(f)|] == f.lineStatus.value.Name())
      && fs[6 + o..17 + o] == [ f.pageStatus.Name(), f.fontStatus.Name(), f.fontSize.Name(),
                                Flag(f.bold), Flag(f.italic),
                                if f.digit == AllDigit then "NOCAPS" else f.capitalisation.Name(),
                                f.digit.Name(),
                                Flag(f.singleChar), Flag(f.properName), Flag(f.commonName), Flag(f.firstName) ]
  {
    var fs := Fields(h, f, s);
    var lead := LeadFields(h, s) + BlockField(f) + LineField(f);
    assert |lead| == 6 + |BlockField(f)| + |LineField(f)|;
    Middle(lead, StyleFields(f), PunctField(f), TrailFields(f));
    if f.blockStatus.Some? { assert fs[6] == lead[6] == BlockField(f)[0]; }
    if f.lineStatus.Some? { assert fs[6 + |BlockField(f)|] == lead[6 + |BlockField(f)|] == LineField(f)[0]; }
  }

  lemma Middle<T>(a: seq<T>, b: seq<T>, c: seq<T>, d: seq<T>)
    ensures (a + b + c + d)[|a|..|a| + |b|] == b
  {
  }

  /** The punctuation type when present, then the two relative positions, the
      profile ("no 0" when null or empty, else the profile and its length), the
      line length and the repetitive, first-repetitive and main-area flags,
      which close the list. */
  lemma TrailLayout(h: Helpers, f: EntryFeatures, s: string)
    ensures var fs := Fields(h, f, s);
      var p := |BlockField(f)| + |LineField(f)| + |PunctField(f)|;
      && |fs| == 25 + p
      && (f.punctType.Some? ==> fs[17 + |BlockField(f)| + |LineField(f)|] == f.punctType.value.Name())
      && fs[17 + p] == IntToString(f.relativeDocumentPosition)
      && fs[18 + p] == IntToString(f.relativePagePosition)
      && ((f.punctuationProfile.None? || |f.punctuationProfile.value| == 0) ==> fs[19 + p] == "no" && fs[20 + p] == "0")
      && ((f.punctuationProfile.Some? && |f.punctuationProfile.value| > 0) ==>
            fs[19 + p] == f.punctuationProfile.value && fs[20 + p] == IntToString(|f.punctuationProfile.value|))
      && fs[21 + p..] == [IntToString(f.lineLength), Flag(f.repetitivePattern), Flag(f.firstRepetitivePattern), Flag(f.inMainArea)]
  {
    var fs := Fields(h, f, s);
    var p := |BlockField(f)| + |LineField(f)| + |PunctField(f)|;
    var front := LeadFields(h, s) + BlockField(f) + LineField(f) + StyleFields(f);
    assert fs == front + PunctField(f) + TrailFields(f);
    assert fs[17 + p..] == TrailFields(f);
    if f.punctType.Some? { assert fs[|front|] == PunctField(f)[0]; }
  }

  /** The printed line parses back: dropping the final newline and splitting
      on single spaces gives exactly the field list, provided no field itself
      contains a space; and the line holds exactly one newline, at its end,
      provided no field contains one. */
  lemma PrintVectorParses(h: Helpers, f: EntryFeatures)
    requires f.text.Some? && |f.text.value| > 0
    ensures var r := PrintVector(h, f).value;
      var fs := Fields(h, f, f.text.value);
      && r == Join(fs, ' ') + "\n"
      && ((forall k :: 0 <= k < |fs| ==> NoneOf(fs[k], {' '})) ==> Pieces(r[..|r| - 1], {' '}) == fs)
      && ((forall k :: 0 <= k < |fs| ==> NoneOf(fs[k], {'\n'})) ==> NoneOf(r[..|r| - 1], {'\n'}))
  {
    var fs := Fields(h, f, f.text.value);
    var r := PrintVector(h, f).value;
    assert r[..|r| - 1] == Join(fs, ' ');
    if forall k :: 0 <= k < |fs| ==> NoneOf(fs[k], {' '}) {
      PiecesOfJoin(fs, ' ');
    }
    if forall k :: 0 <= k < |fs| ==> NoneOf(fs[k], {'\n'}) {
      JoinKeepsOut(fs, ' ', '\n');
    }
  }
}

=== FILE: font_tracking.dfy ===
/** The running font and font-size comparison both encoders make against the
    first token of each record, and what it amounts to over a whole stream of
    records: every record is compared with the record created just before it.
 */
module FontTracking {
  import opened Wrappers
  import opened Statuses

  /** One font comparison: the record's status and the font tracked afterwards
      (`currentFont`, null before the first record). */
  function FontStep(current: Option<string>, font: Option<string>): (r: (FontStatus, Option<string>))
    ensures r.1 == font
  {
    if current.None? then (NewFont, font)
    else if current != font then (NewFont, font)
    else (SameFont, current)
  }

  /** One font-size comparison: the record's status and the size tracked
      afterwards (`currentFontSize`, -1 before the first record). */
  function SizeStep(current: int, size: int): (r: (FontSizeStatus, int))
    ensures r.1 == size
  {
    if current == -1 then (HigherFont, size)
    else if current == size then (SameFontSize, current)
    else if current < size then (HigherFont, size)
    else (LowerFont, size)
  }

  /** The font tracked after the records `rs`. */
  function TrackedFont<R>(rs: seq<R>, font: R -> Option<string>): Option<string> {
    if |rs| == 0 then None else font(rs[|rs| - 1])
  }

  /** The size tracked after the records `rs`. */
  function TrackedSize<R>(rs: seq<R>, size: R -> int): int {
    if |rs| == 0 then -1 else size(rs[|rs| - 1])
  }

  /** Record `i` is NEWFONT exactly when it is the first, or the record before
      it had no font, or its font differs from that record's. */
  ghost predicate FontStatusAt<R>(rs: seq<R>, font: R -> Option<string>, status: R -> FontStatus, i: nat)
    requires i < |rs|
  {
    status(rs[i]) == NewFont <==> i == 0 || font(rs[i - 1]).None? || font(rs[i]) != font(rs[i - 1])
  }

  /** Record `i`'s size is compared with the previous record's size, a previous
      size of -1 counting as no previous record. */
  ghost predicate SizeStatusAt<R>(rs: seq<R>, size: R -> int, status: R -> FontSizeStatus, i: nat)
    requires i < |rs|
  {
    && (status(rs[i]) == HigherFont <==> i == 0 || size(rs[i - 1]) == -1 || size(rs[i - 1]) < size(rs[i]))
    && (status(rs[i]) == SameFontSize <==> i > 0 && size(rs[i - 1]) != -1 && size(rs[i - 1]) == size(rs[i]))
    && (status(rs[i]) == LowerFont <==> i > 0 && size(rs[i - 1]) != -1 && size(rs[i - 1]) > size(rs[i]))
  }

  ghost predicate FontStatusesFollow<R>(rs: seq<R>, font: R -> Option<string>, status: R -> FontStatus) {
    forall i: nat :: i < |rs| ==> FontStatusAt(rs, font, status, i)
  }

  ghost predicate SizeStatusesFollow<R>(rs: seq<R>, size: R -> int, status: R -> FontSizeStatus) {
    forall i: nat :: i < |rs| ==> SizeStatusAt(rs, size, status, i)
  }

  /** A record compared against the tracked font keeps the stream property. */
  lemma FontStatusExtends<R>(rs: seq<R>, font: R -> Option<string>, status: R -> FontStatus, r: R)
    requires FontStatusesFollow(rs, font, status)
    requires status(r) == FontStep(TrackedFont(rs, font), font(r)).0
    ensures FontStatusesFollow(rs + [r], font, status)
  {
    var rs' := rs + [r];
    forall i: nat | i < |rs'| ensures FontStatusAt(rs', font, status, i) {
      if i < |rs| {
        assert FontStatusAt(rs, font, status, i);
        assert rs'[i] == rs[i];
        if i > 0 { assert rs'[i - 1] == rs[i - 1]; }
      } else {
        assert rs'[i] == r;
        if i > 0 { assert rs'[i - 1] == rs[|rs| - 1]; }
      }
    }
  }

  /** A record compared against the tracked size keeps the stream property. */
  lemma SizeStatusExtends<R>(rs: seq<R>, size: R -> int, status: R -> FontSizeStatus, r: R)
    requires SizeStatusesFollow(rs, size, status)
    requires status(r) == SizeStep(TrackedSize(rs, size), size(r)).0
    ensures SizeStatusesFollow(rs + [r], size, status)
  {
    var rs' := rs + [r];
    forall i: nat | i < |rs'| ensures SizeStatusAt(rs', size, status, i) {
      if i < |rs| {
        assert SizeStatusAt(rs, size, status, i);
        assert rs'[i] == rs[i];
        if i > 0 { assert rs'[i - 1] == rs[i - 1]; }
      } else {
        assert rs'[i] == r;
        if i > 0 { assert rs'[i - 1] == rs[|rs| - 1]; }
      }
    }
  }
}

=== FILE: java_strings.dfy ===
/** The few `java.lang.String` / `java.util.StringTokenizer` operations the
    modelled code relies on, with Java's own semantics: `trim` strips every
    character up to U+0020, `split` with a regular expression drops trailing
    empty pieces, `replace` is a single left-to-right pass, and a tokenizer never
    yields an empty token.
 */
module JavaStrings {
  import opened Wrappers

  // ---------------------------------------------------------------------------
  // Character predicates

  /** The characters `String.trim()` removes. */
  predicate IsTrimmable(c: char) {
    c <= ' '
  }

  /** No character of `s` belongs to `d`. */
  predicate NoneOf(s: string, d: set<char>) {
    forall k :: 0 <= k < |s| ==> s[k] !in d
  }

  predicate AllTrimmable(s: string) {
    forall k :: 0 <= k < |s| ==> IsTrimmable(s[k])
  }

  // ---------------------------------------------------------------------------
  // trim

  /** Index of the first non-trimmable character at or after `i`. */
  function SkipLeading(s: string, i: nat): (j: nat)
    requires i <= |s|
    ensures i <= j <= |s|
    ensures forall k :: i <= k < j ==> IsTrimmable(s[k])
    ensures j < |s| ==> !IsTrimmable(s[j])
    decreases |s| - i
  {
    if i == |s| || !IsTrimmable(s[i]) then i else SkipLeading(s, i + 1)
  }

  /** One past the last non-trimmable character before `j`, no lower than `i`. */
  function SkipTrailing(s: string, i: nat, j: nat): (e: nat)
    requires i <= j <= |s|
    ensures i <= e <= j
    ensures forall k :: e <= k < j ==> IsTrimmable(s[k])
    ensures e > i ==> !IsTrimmable(s[e - 1])
    decreases j
  {
    if j == i || !IsTrimmable(s[j - 1]) then j else SkipTrailing(s, i, j - 1)
  }

  /** `String.trim()`. */
  function Trim(s: string): (r: string)
    ensures |r| <= |s|
    ensures |r| == 0 <==> AllTrimmable(s)
    ensures |r| > 0 ==> !IsTrimmable(r[0]) && !IsTrimmable(r[|r| - 1])
    ensures forall k :: 0 <= k < |r| ==> r[k] in s
  {
    var b := SkipLeading(s, 0);
    var e := SkipTrailing(s, b, |s|);
    assert |s[b..e]| == 0 ==> AllTrimmable(s) by {
      if b == e {
        forall k | 0 <= k < |s| ensures IsTrimmable(s[k]) {
          if k >= b {}
        }
      }
    }
    s[b..e]
  }

  // ---------------------------------------------------------------------------
  // Searching

  predicate StartsWith(s: string, p: string) {
    |p| <= |s| && s[..|p|] == p
  }

  predicate OccursAt(s: string, sub: string, k: nat) {
    k + |sub| <= |s| && s[k..k + |sub|] == sub
  }

  /** `s.indexOf(sub, from)`: the first occurrence of `sub` at or after `from`. */
  function IndexOf(s: string, sub: string, from: nat): (r: Option<nat>)
    ensures r.Some? ==> from <= r.value && OccursAt(s, sub, r.value)
    ensures forall k :: from <= k && (r.None? || k < r.value) ==> !OccursAt(s, sub, k)
    decreases |s| - from
  {
    if from + |sub| > |s| then None
    else if s[from..from + |sub|] == sub then Some(from)
    else IndexOf(s, sub, from + 1)
  }

  /** `s.contains(sub)`. */
  predicate Contains(s: string, sub: string) {
    IndexOf(s, sub, 0).Some?
  }

  // ---------------------------------------------------------------------------
  // Tokenizers

  /** Index of the first character of `d` at or after `i`, or `|s|`. */
  function RunEnd(s: string, i: nat, d: set<char>): (j: nat)
    requires i <= |s|
    ensures i <= j <= |s|
    ensures forall k :: i <= k < j ==> s[k] !in d
    ensures j < |s| ==> s[j] in d
    decreases |s| - i
  {
    if i == |s| || s[i] in d then i else RunEnd(s, i + 1, d)
  }

  /** `new StringTokenizer(s, d)`: the maximal runs of characters outside `d`. */
  function Tokens(s: string, d: set<char>): (r: seq<string>)
    ensures forall k :: 0 <= k < |r| ==> |r[k]| > 0 && NoneOf(r[k], d)
    decreases |s|
  {
    if |s| == 0 then []
    else if s[0] in d then Tokens(s[1..], d)
    else
      var j := RunEnd(s, 0, d);
      [s[..j]] + Tokens(s[j..], d)
  }

  /** `new StringTokenizer(s, d, true)`: the runs outside `d`, and every
      character of `d` as a one-character token of its own. */
  function TokensWithDelimiters(s: string, d: set<char>): (r: seq<string>)
    ensures forall k :: 0 <= k < |r| ==> |r[k]| > 0
    ensures forall k :: 0 <= k < |r| ==> NoneOf(r[k], d) || (|r[k]| == 1 && r[k][0] in d)
    decreases |s|
  {
    if |s| == 0 then []
    else if s[0] in d then [[s[0]]] + TokensWithDelimiters(s[1..], d)
    else
      var j := RunEnd(s, 0, d);
      [s[..j]] + TokensWithDelimiters(s[j..], d)
  }

  // ---------------------------------------------------------------------------
  // split

  /** The pieces between the characters of `d`, empty pieces included. */
  function Pieces(s: string, d: set<char>): (r: seq<string>)
    ensures |r| >= 1
    ensures forall k :: 0 <= k < |r| ==> NoneOf(r[k], d)
    decreases |s|
  {
    var j := RunEnd(s, 0, d);
    if j == |s| then [s] else [s[..j]] + Pieces(s[j + 1..], d)
  }

  /** Java's split drops the trailing empty pieces. */
  function DropTrailingEmpty(ps: seq<string>): (r: seq<string>)
    ensures |r| <= |ps| && r == ps[..|r|]
    ensures |r| > 0 ==> |r[|r| - 1]| > 0
    ensures forall k :: |r| <= k < |ps| ==> |ps[k]| == 0
  {
    if |ps| == 0 then []
    else if |ps[|ps| - 1]| == 0 then DropTrailingEmpty(ps[..|ps| - 1])
    else ps
  }

  /** `s.split("[...]")` for a character-class pattern: the whole string when no
      character of `d` occurs, otherwise the pieces without the trailing empty ones. */
  function SplitChars(s: string, d: set<char>): (r: seq<string>)
    ensures forall k :: 0 <= k < |r| ==> NoneOf(r[k], d)
    ensures NoneOf(s, d) ==> r == [s]
  {
    if NoneOf(s, d) then [s] else DropTrailingEmpty(Pieces(s, d))
  }

  /** The pieces between the non-overlapping occurrences of `sep`, scanned left to right. */
  function PiecesOn(s: string, sep: string): (r: seq<string>)
    requires |sep| > 0
    ensures |r| >= 1
    decreases |s|
  {
    match IndexOf(s, sep, 0)
    case None => [s]
    case Some(k) => [s[..k]] + PiecesOn(s[k + |sep|..], sep)
  }

  /** `s.split(regex)` for a regex matching exactly the literal `sep`. */
  function SplitOn(s: string, sep: string): seq<string>
    requires |sep| > 0
  {
    if IndexOf(s, sep, 0).None? then [s] else DropTrailingEmpty(PiecesOn(s, sep))
  }

  // ---------------------------------------------------------------------------
  // replace

  /** `s.replace(target, repl)`: one left-to-right pass over non-overlapping occurrences. */
  function Replace(s: string, target: string, repl: string): (r: string)
    requires |target| > 0
    ensures IndexOf(s, target, 0).None? ==> r == s
    decreases |s|
  {
    match IndexOf(s, target, 0)
    case None => s
    case Some(k) => s[..k] + repl + Replace(s[k + |target|..], target, repl)
  }

  /** `s.replaceAll("[...]", "")`: every character of `d` removed. */
  function RemoveChars(s: string, d: set<char>): (r: string)
    ensures NoneOf(r, d)
    ensures |r| <= |s|
  {
    if |s| == 0 then []
    else if s[0] in d then RemoveChars(s[1..], d)
    else [s[0]] + RemoveChars(s[1..], d)
  }

  // ---------------------------------------------------------------------------
  // Numbers and joins

  function DigitChar(d: nat): (c: char)
    requires d < 10
  {
    "0123456789"[d]
  }

  function NatToString(n: nat): (r: string)
    ensures |r| > 0
    ensures forall k :: 0 <= k < |r| ==> '0' <= r[k] <= '9'
    decreases n
  {
    if n < 10 then [DigitChar(n)] else NatToString(n / 10) + [DigitChar(n % 10)]
  }

  /** `Integer.toString(i)`, as string concatenation prints an `int`. */
  function IntToString(i: int): (r: string)
    ensures |r| > 0
    ensures forall k :: 0 <= k < |r| ==> r[k] == '-' || '0' <= r[k] <= '9'
  {
    if i < 0 then "-" + NatToString(-i) else NatToString(i)
  }

  /** The fields separated by one `sep` each. */
  function Join(fields: seq<string>, sep: char): string
  {
    if |fields| == 0 then ""
    else if |fields| == 1 then fields[0]
    else fields[0] + [sep] + Join(fields[1..], sep)
  }

  /** Splitting a join on its separator gives the fields back, provided that no
      field contains the separator. */
  lemma {:induction false} PiecesOfJoin(fields: seq<string>, sep: char)
    requires |fields| > 0
    requires forall k :: 0 <= k < |fields| ==> NoneOf(fields[k], {sep})
    ensures Pieces(Join(fields, sep), {sep}) == fields
    decreases |fields|
  {
    var s := Join(fields, sep);
    if |fields| == 1 {
      RunEndOfPlain(fields[0], 0, {sep});
    } else {
      var rest := Join(fields[1..], sep);
      assert s == fields[0] + [sep] + rest;
      RunEndAtSeparator(fields[0], rest, sep);
      assert s[..|fields[0]|] == fields[0];
      assert s[|fields[0]| + 1..] == rest;
      PiecesOfJoin(fields[1..], sep);
      assert [fields[0]] + fields[1..] == fields;
    }
  }

  lemma RunEndOfPlain(s: string, i: nat, d: set<char>)
    requires i <= |s|
    requires NoneOf(s, d)
    ensures RunEnd(s, i, d) == |s|
    decreases |s| - i
  {
    if i < |s| {
      RunEndOfPlain(s, i + 1, d);
    }
  }

  lemma RunEndAtSeparator(w: string, rest: string, sep: char)
    requires NoneOf(w, {sep})
    ensures RunEnd(w + [sep] + rest, 0, {sep}) == |w|
  {
    var s := w + [sep] + rest;
    assert s[|w|] == sep;
    assert forall k :: 0 <= k < |w| ==> s[k] == w[k];
  }

  /** A character that is neither the separator nor in any field is not in the join. */
  lemma {:induction false} JoinKeepsOut(fields: seq<string>, sep: char, c: char)
    requires c != sep
    requires forall k :: 0 <= k < |fields| ==> NoneOf(fields[k], {c})
    ensures NoneOf(Join(fields, sep), {c})
    decreases |fields|
  {
    if |fields| > 1 {
      JoinKeepsOut(fields[1..], sep, c);
      var s := Join(fields, sep);
      var rest := Join(fields[1..], sep);
      assert s == fields[0] + [sep] + rest;
      forall k | 0 <= k < |s| ensures s[k] != c {
        if k < |fields[0]| {
          assert s[k] == fields[0][k];
        } else if k > |fields[0]| {
          assert s[k] == rest[k - |fields[0]| - 1];
        }
      }
    }
  }
}

=== FILE: labels.dfy ===
/** The label taxonomy: the coarse segmentation labels of `DatacatLabels`, the
    begin marker "I-" of the label stream, and the tag comparisons both
    reconstructors make.
 */
module Labels {
  import opened Wrappers
  import opened JavaStrings

  // DatacatLabels
  const FrontMatterLabel: string := "<front>"
  const BodyLabel: string := "<body>"
  const BackMatterLabel: string := "<back>"
  const AnnexLabel: string := "<annex>"

  /** The label of material outside every zone. */
  const OtherLabel: string := "<other>"

  /** The marker of a span's first unit in the label stream. */
  const BeginPrefix: string := "I-"

  /** A label with its begin marker removed (`lastTag0`, `currentTag0`). */
  function BaseTag(name: string): (r: string)
    ensures StartsWith(name, BeginPrefix) ==> BeginPrefix + r == name
    ensures !StartsWith(name, BeginPrefix) ==> r == name
  {
    if StartsWith(name, BeginPrefix) then name[2..] else name
  }

  /** `s1.equals(lastTag0) || s1.equals("I-" + lastTag0)`; Java's string
      concatenation prints a null `lastTag0` as "null". */
  predicate SameTag(s1: string, lastTag0: Option<string>) {
    match lastTag0
    case None => s1 == BeginPrefix + "null"
    case Some(t) => s1 == t || s1 == BeginPrefix + t
  }

  /** A tag element name: starts with '<', so it never starts with "I-". */
  predicate IsElementTag(t: string) {
    |t| > 0 && t[0] == '<'
  }

  /** A label naming the element `t`, with or without the begin marker. */
  predicate LabelFor(name: string, t: string) {
    name == t || name == BeginPrefix + t
  }

  /** For labels of element tags, the writer's string test and the closer's
      base-tag test agree: the two reconstructors never open a span they do
      not close for that reason. */
  lemma SameTagIsBaseEquality(name: string, t: string, previous: string)
    requires IsElementTag(t) && LabelFor(name, t)
    requires IsElementTag(previous)
    ensures SameTag(name, Some(previous)) <==> BaseTag(name) == previous
    ensures BaseTag(name) == t
  {
    if name == BeginPrefix + t {
      assert StartsWith(name, BeginPrefix);
      assert name[2..] == t;
    } else {
      assert name[0] == '<';
      assert !StartsWith(name, BeginPrefix);
      assert name != BeginPrefix + previous by {
        assert (BeginPrefix + previous)[0] == 'I';
      }
    }
  }
}

=== FILE: layout.dfy ===
/** The parsed document the encoders walk: pages of blocks of layout tokens,
    with the geometry and font metadata the layout extraction produced.
    Coordinates and sizes are Java doubles, modelled as exact reals.
 */
module Layout {
  import opened Wrappers

  /** A `LayoutToken`. */
  datatype Token = Token(
    text: string,
    x: real,
    y: real,
    width: real,
    font: Option<string>,
    fontSize: real,
    bold: bool,
    italic: bool)

  /** A `BoundingBox`: page number, origin and dimensions. */
  datatype Box = Box(page: int, x: real, y: real, width: real, height: real)

  /** The type of a graphic object connected to a block. */
  datatype GraphicKind = Bitmap | Vector | VectorBox | OtherGraphic

  /** A `Block`. Null text and null token lists are distinguished from empty
      ones, because the encoders skip different work for each. */
  datatype Block = Block(
    text: Option<string>,
    tokens: Option<seq<Token>>,
    x: real,
    y: real,
    width: real,
    height: real,
    graphics: seq<GraphicKind>,   // the graphics connected to the block
    pageNumber: int,              // block.getPage().getNumber()
    pageHeight: real,             // block.getPage().getHeight()
    startToken: int)              // index of the block's first token in the document tokenization

  /** A `Page`; a null block list is the same as an empty one to every caller. */
  datatype Page = Page(
    number: int,
    height: real,
    lengthChar: int,
    mainArea: Option<Box>,
    blocks: seq<Block>)

  /** A `Document` together with the statistics `produceStatistics` computed. */
  datatype Document = Document(
    pages: seq<Page>,
    blocks: seq<Block>,
    tokenizations: seq<Token>,
    documentLengthChar: int,
    minBlockSpacing: real,
    maxBlockSpacing: real,
    minCharacterDensity: real,
    maxCharacterDensity: real)

  /** A `DocumentPointer`: block index, token index within the block, token index within the document. */
  datatype DocumentPointer = DocumentPointer(blockPtr: int, tokenBlockPos: int, tokenDocPos: int)

  /** A `DocumentPiece`: the first and the last token of a contiguous part. */
  datatype DocumentPiece = DocumentPiece(left: DocumentPointer, right: DocumentPointer)

  /** Java's `(int)` cast of a double: truncation toward zero (saturation at the
      32-bit bounds and NaN are not modelled). */
  function TruncateToInt(v: real): (r: int)
    ensures v >= 0.0 ==> r as real <= v < r as real + 1.0
    ensures v < 0.0 ==> r as real - 1.0 < v <= r as real
  {
    if v >= 0.0 then v.Floor else -((-v).Floor)
  }
}

=== FILE: lexicon.dfy ===
/** The lexical and numeric utilities of the surrounding library that the
    modelled code calls but that are not part of this model: each is a field of
    `Helpers`, and every operation takes the record as a parameter, so every
    property proved holds for any implementation of them.
 */
module Lexicon {
  import opened Wrappers
  import opened Layout

  datatype Helpers = Helpers(
    getPattern: string -> string,            // FeatureFactory.getPattern
    filterLine: Option<string> -> bool,      // TextUtilities.filterLine (accepts null)
    htmlEncode: string -> string,            // TextUtilities.HTMLEncode
    prefix: (string, nat) -> string,         // TextUtilities.prefix
    punctuationProfile: string -> string,    // TextUtilities.punctuationProfile
    toLowerCase: string -> string,           // String.toLowerCase
    isUpperCase: char -> bool,               // Character.isUpperCase
    testAllCapital: string -> bool,          // FeatureFactory.test_all_capital
    testDigit: string -> bool,               // FeatureFactory.test_digit
    isDigit: string -> bool,                 // FeatureFactory.isDigit matcher find()
    isPunct: string -> bool,                 // FeatureFactory.isPunct matcher find()
    testCommon: string -> bool,              // FeatureFactory.test_common
    testNames: string -> bool,               // FeatureFactory.test_names
    testMonth: string -> bool,               // FeatureFactory.test_month
    isYear: string -> bool,                  // FeatureFactory.year matcher find()
    isEmail: string -> bool,                 // FeatureFactory.email matcher find()
    isHttp: string -> bool,                  // FeatureFactory.http matcher find()
    linearScaling: (real, real, int) -> int, // FeatureFactory.linearScaling
    delimiters: set<char>,                   // TextUtilities.delimiters
    boxContains: (Box, Box) -> bool,         // BoundingBox.contains
    boxIntersects: (Box, Box) -> bool)       // BoundingBox.intersect
}

=== FILE: line_cursor.dfy ===
/** The cursor the segmenter's training reconstructor moves over the
    document's blocks to fetch, for each labelled record, the text line it
    stands for: blocks without tokens or with blank text are skipped, and so
    are blank and filtered lines.
 */
module LineCursor {
  import opened Wrappers
  import opened JavaStrings
  import opened Layout
  import opened Lexicon
  import opened SegmenterPatterns

  /** `currentBlockIndex` and `indexLine`. */
  datatype Cursor = Cursor(block: nat, line: nat)

  /** The lines the cursor can stop in within a block: none when the block
      has no tokens or its text is null or blank. */
  function BlockLines(b: Block): seq<string> {
    if b.tokens.None? || b.text.None? || |Trim(b.text.value)| == 0 then []
    else SplitChars(b.text.value, LineBreaks)
  }

  /** A line the cursor returns: not blank and not filtered. */
  predicate Retained(h: Helpers, line: string) {
    |Trim(line)| > 0 && !h.filterLine(Some(line))
  }

  /** Lines left to visit in the cursor's block. */
  function LinesLeft(blocks: seq<Block>, c: Cursor): nat {
    if c.block < |blocks| && c.line <= |BlockLines(blocks[c.block])| then |BlockLines(blocks[c.block])| - c.line else 0
  }

  /** The next line for a record, and the cursor after it; none once the
      blocks are exhausted. */
  function NextLine(h: Helpers, blocks: seq<Block>, c: Cursor): (r: (Option<string>, Cursor))
    decreases |blocks| - c.block, LinesLeft(blocks, c)
  {
    if c.block >= |blocks| then (None, c)
    else
      var b := blocks[c.block];
      if b.tokens.None? then NextLine(h, blocks, Cursor(c.block + 1, 0))
      else if b.text.None? || |Trim(b.text.value)| == 0 then NextLine(h, blocks, Cursor(c.block + 1, 0))
      else
        var lines := SplitChars(b.text.value, LineBreaks);
        if |lines| == 0 || c.line >= |lines| then NextLine(h, blocks, Cursor(c.block + 1, 0))
        else
          var line := lines[c.line];
          var next := Cursor(c.block, c.line + 1);
          if |Trim(line)| == 0 then NextLine(h, blocks, next)
          else if h.filterLine(Some(line)) then NextLine(h, blocks, next)
          else (Some(line), next)
  }

  /** Reference: the retained lines of a line list, in order. */
  function RetainedLines(h: Helpers, lines: seq<string>): (r: seq<string>)
  {
    if |lines| == 0 then []
    else (if Retained(h, lines[0]) then [lines[0]] else []) + RetainedLines(h, lines[1..])
  }

  /** The cursor lines of every block. */
  function LinesPerBlock(blocks: seq<Block>): (ls: seq<seq<string>>)
    ensures |ls| == |blocks|
    ensures forall i :: 0 <= i < |blocks| ==> ls[i] == BlockLines(blocks[i])
  {
    seq(|blocks|, i requires 0 <= i < |blocks| => BlockLines(blocks[i]))
  }

  /** Reference: every retained line, block by block, in document order. */
  function CandidatesOf(h: Helpers, ls: seq<seq<string>>): seq<string> {
    if |ls| == 0 then [] else RetainedLines(h, ls[0]) + CandidatesOf(h, ls[1..])
  }

  /** Reference: every line the cursor can return, in document order. */
  function Candidates(h: Helpers, blocks: seq<Block>): seq<string> {
    CandidatesOf(h, LinesPerBlock(blocks))
  }

  /** Reference: the lines still to be returned from a cursor position. */
  function Remaining(h: Helpers, ls: seq<seq<string>>, c: Cursor): seq<string> {
    if c.block >= |ls| then []
    else
      var from := if c.line <= |ls[c.block]| then c.line else |ls[c.block]|;
      RetainedLines(h, ls[c.block][from..]) + CandidatesOf(h, ls[c.block + 1..])
  }

  /** From the start, the lines still to be returned are all the candidates. */
  lemma RemainingFromStart(h: Helpers, ls: seq<seq<string>>)
    ensures Remaining(h, ls, Cursor(0, 0)) == CandidatesOf(h, ls)
  {
    if |ls| > 0 {
      assert ls[0][0..] == ls[0];
    }
  }

  /** Past the lines of its block, the cursor continues at the next block. */
  lemma RemainingSkipsBlock(h: Helpers, ls: seq<seq<string>>, c: Cursor)
    requires c.block < |ls|
    requires c.line >= |ls[c.block]|
    ensures Remaining(h, ls, c) == Remaining(h, ls, Cursor(c.block + 1, 0))
  {
    var lines := ls[c.block];
    assert lines[|lines|..] == [];
    assert RetainedLines(h, []) == [];
    if c.block + 1 < |ls| {
      var tail := ls[c.block + 1..];
      assert tail[0] == ls[c.block + 1];
      assert tail[1..] == ls[c.block + 2..];
      assert ls[c.block + 1][0..] == ls[c.block + 1];
    }
  }

  /** Within its block, the cursor's first line is kept when retained. */
  lemma RemainingStepsLine(h: Helpers, ls: seq<seq<string>>, c: Cursor)
    requires c.block < |ls|
    requires c.line < |ls[c.block]|
    ensures var line := ls[c.block][c.line];
      Remaining(h, ls, c) == (if Retained(h, line) then [line] else []) + Remaining(h, ls, Cursor(c.block, c.line + 1))
  {
    var lines := ls[c.block];
    assert lines[c.line..][1..] == lines[c.line + 1..];
  }

  /** The cursor's call from `c` returns the first remaining line and leaves
      the rest. */
  ghost predicate IsHead(h: Helpers, blocks: seq<Block>, c: Cursor) {
    var r := NextLine(h, blocks, c);
    var ls := LinesPerBlock(blocks);
    var rest := Remaining(h, ls, c);
    && (r.0.None? <==> |rest| == 0)
    && (r.0.Some? ==> r.0.value == rest[0] && Remaining(h, ls, r.1) == rest[1..])
    && (r.0.None? ==> |Remaining(h, ls, r.1)| == 0)
  }

  /** A block the cursor skips, or whose lines it has passed. */
  predicate SkipsBlock(blocks: seq<Block>, c: Cursor)
    requires c.block < |blocks|
  {
    var b := blocks[c.block];
    b.tokens.None? || b.text.None? || |Trim(b.text.value)| == 0 || c.line >= |BlockLines(b)|
  }

  lemma HeadAfterSkip(h: Helpers, blocks: seq<Block>, c: Cursor)
    requires c.block < |blocks| && SkipsBlock(blocks, c)
    requires IsHead(h, blocks, Cursor(c.block + 1, 0))
    ensures IsHead(h, blocks, c)
  {
    var ls := LinesPerBlock(blocks);
    assert ls[c.block] == BlockLines(blocks[c.block]);
    NextLineSkips(h, blocks, c);
    RemainingSkipsBlock(h, ls, c);
  }

  /** A skipped block, or one whose lines are passed, sends the call on to the next block. */
  lemma NextLineSkips(h: Helpers, blocks: seq<Block>, c: Cursor)
    requires c.block < |blocks| && SkipsBlock(blocks, c)
    ensures NextLine(h, blocks, c) == NextLine(h, blocks, Cursor(c.block + 1, 0))
  {
  }

  lemma HeadAfterLine(h: Helpers, blocks: seq<Block>, c: Cursor)
    requires c.block < |blocks| && !SkipsBlock(blocks, c)
    requires IsHead(h, blocks, Cursor(c.block, c.line + 1))
    ensures IsHead(h, blocks, c)
  {
    var ls := LinesPerBlock(blocks);
    var lines := BlockLines(blocks[c.block]);
    assert ls[c.block] == lines;
    var line := lines[c.line];
    var next := Cursor(c.block, c.line + 1);
    NextLineAtLine(h, blocks, c);
    RemainingStepsLine(h, ls, c);
    var rest' := Remaining(h, ls, next);
    if Retained(h, line) {
      assert Remaining(h, ls, c) == [line] + rest';
      assert ([line] + rest')[1..] == rest';
    } else {
      assert Remaining(h, ls, c) == rest';
      assert NextLine(h, blocks, c) == NextLine(h, blocks, next);
    }
  }

  /** Within a block's lines, the call returns the cursor's line when it is
      retained and moves on otherwise. */
  lemma NextLineAtLine(h: Helpers, blocks: seq<Block>, c: Cursor)
    requires c.block < |blocks| && !SkipsBlock(blocks, c)
    ensures var lines := BlockLines(blocks[c.block]);
      var next := Cursor(c.block, c.line + 1);
      NextLine(h, blocks, c) == if Retained(h, lines[c.line]) then (Some(lines[c.line]), next) else NextLine(h, blocks, next)
  {
    var b := blocks[c.block];
    assert BlockLines(b) == SplitChars(b.text.value, LineBreaks);
  }

  lemma {:induction false} Heads(h: Helpers, blocks: seq<Block>, c: Cursor)
    ensures IsHead(h, blocks, c)
    decreases |blocks| - c.block, LinesLeft(blocks, c)
  {
    if c.block >= |blocks| {
      assert Remaining(h, LinesPerBlock(blocks), c) == [];
    } else if SkipsBlock(blocks, c) {
      Heads(h, blocks, Cursor(c.block + 1, 0));
      HeadAfterSkip(h, blocks, c);
    } else {
      Heads(h, blocks, Cursor(c.block, c.line + 1));
      HeadAfterLine(h, blocks, c);
    }
  }

  /** Each call returns the first remaining line and leaves the rest; once
      nothing remains it returns none and nothing remains after it. */
  lemma NextLineIsHead(h: Helpers, blocks: seq<Block>, c: Cursor)
    ensures var (line, c') := NextLine(h, blocks, c);
      var ls := LinesPerBlock(blocks);
      var rest := Remaining(h, ls, c);
      && (line.None? <==> |rest| == 0)
      && (line.Some? ==> line.value == rest[0] && Remaining(h, ls, c') == rest[1..])
      && (line.None? ==> |Remaining(h, ls, c')| == 0)
  {
    Heads(h, blocks, c);
  }
}

=== FILE: look_behind.dfy ===
/** The one-record look-behind buffer both encoders use: a record is written
    out only when its successor exists, so that building the successor can
    still patch it; the last record is written after the loop.
 */
module LookBehind {
  import opened Wrappers

  datatype Buffer<T> = Buffer(pending: Option<T>, flushed: seq<T>)

  function Empty<T>(): Buffer<T> {
    Buffer(None, [])
  }

  /** A new record arrives: the pending one, patched in view of the new one,
      is written out, and the new one becomes pending. */
  function Push<T>(b: Buffer<T>, r: T, patch: (T, T) -> T): (b': Buffer<T>)
    ensures b'.pending == Some(r)
    ensures b.pending.None? ==> b'.flushed == b.flushed
    ensures b.pending.Some? ==> b'.flushed == b.flushed + [patch(b.pending.value, r)]
  {
    match b.pending
    case None => Buffer(Some(r), b.flushed)
    case Some(p) => Buffer(Some(r), b.flushed + [patch(p, r)])
  }

  /** The end of the loop: the pending record is written out unpatched. */
  function Flush<T>(b: Buffer<T>): seq<T> {
    match b.pending
    case None => b.flushed
    case Some(p) => b.flushed + [p]
  }

  /** The buffer after the records `rs` were created, in order. */
  function PushAll<T>(rs: seq<T>, patch: (T, T) -> T): Buffer<T>
    decreases |rs|
  {
    if |rs| == 0 then Empty() else Push(PushAll(rs[..|rs| - 1], patch), rs[|rs| - 1], patch)
  }

  /** The stream the look-behind promises: every created record exactly once,
      in creation order, each patched by its successor only, the last unpatched. */
  function Lagged<T>(rs: seq<T>, patch: (T, T) -> T): (out: seq<T>)
    ensures |out| == |rs|
  {
    seq(|rs|, i requires 0 <= i < |rs| => if i + 1 < |rs| then patch(rs[i], rs[i + 1]) else rs[i])
  }

  lemma {:induction false} PushAllHoldsLast<T>(rs: seq<T>, patch: (T, T) -> T)
    ensures |rs| == 0 ==> PushAll(rs, patch) == Empty()
    ensures |rs| > 0 ==> PushAll(rs, patch).pending == Some(rs[|rs| - 1])
    ensures |rs| > 0 ==> PushAll(rs, patch).flushed == Lagged(rs, patch)[..|rs| - 1]
    decreases |rs|
  {
    if |rs| > 1 {
      var init := rs[..|rs| - 1];
      PushAllHoldsLast(init, patch);
      assert init[|init| - 1] == rs[|rs| - 2];
      var f := PushAll(rs, patch).flushed;
      assert f == Lagged(init, patch)[..|init| - 1] + [patch(rs[|rs| - 2], rs[|rs| - 1])];
      assert forall i :: 0 <= i < |init| ==> init[i] == rs[i];
    }
  }

  /** One-record lag: flushing the buffer after the last record gives exactly the lagged stream. */
  lemma FlushIsLagged<T>(rs: seq<T>, patch: (T, T) -> T)
    ensures Flush(PushAll(rs, patch)) == Lagged(rs, patch)
  {
    PushAllHoldsLast(rs, patch);
    if |rs| > 0 {
      var out := Flush(PushAll(rs, patch));
      assert out == Lagged(rs, patch)[..|rs| - 1] + [rs[|rs| - 1]];
    }
  }

  /** Pushing one more record extends the fold. */
  lemma PushAllSnoc<T>(rs: seq<T>, r: T, patch: (T, T) -> T)
    ensures PushAll(rs + [r], patch) == Push(PushAll(rs, patch), r, patch)
  {
    assert (rs + [r])[..|rs|] == rs;
  }
}

=== FILE: sax_lines.dfy ===
/** What the two training-data SAX handlers share: the events a SAX parser
    delivers to a `DefaultHandler`, and the labelled lines they collect, one
    `token label` pair per line, the label carrying the begin marker "I-" on
    the first token of a span.
 */
module SaxLines {
  import opened Labels

  /** `startElement`, `endElement` and `characters`, with the qualified name
      and the character data; namespaces and attributes are never read. */
  datatype Event =
    | StartElement(name: string)
    | EndElement(name: string)
    | Characters(text: string)

  /** One entry of the labelled result. */
  datatype LabeledLine = LabeledLine(token: string, tag: string, begin: bool)

  /** The line as the handlers store it: `tok + " I-" + tag + "\n"` or
      `tok + " " + tag + "\n"`. */
  function LineText(l: LabeledLine): (r: string)
    ensures |r| == |l.token| + 1 + (if l.begin then 2 else 0) + |l.tag| + 1
    ensures r[..|l.token|] == l.token && r[|l.token|] == ' ' && r[|r| - 1] == '\n'
  {
    l.token + " " + (if l.begin then BeginPrefix else "") + l.tag + "\n"
  }

  /** `getLabeledResult()`. */
  function LabeledText(ls: seq<LabeledLine>): (r: seq<string>)
    ensures |r| == |ls|
    ensures forall k :: 0 <= k < |ls| ==> r[k] == LineText(ls[k])
  {
    if |ls| == 0 then [] else LabeledText(ls[..|ls| - 1]) + [LineText(ls[|ls| - 1])]
  }
}

=== FILE: segmenter_coverage.dfy ===
/** Which document lines the segmenter's line encoder makes records for: a
    reference walk over pages, blocks and the lines of each block's text, and
    the proof that the records the encoder creates are exactly one per line
    of that walk, in document order.
 */
module SegmenterCoverage {
  import opened Wrappers
  import opened JavaStrings
  import opened Layout
  import opened Lexicon
  import opened FontTracking
  import opened SegmenterPatterns
  import opened SegmenterEncoder

  /** A line the encoder makes a record for: page, block and line index, the
      line, its sanitised first word and the first token of its block. */
  datatype LineRef = LineRef(page: nat, block: nat, line: nat, text: string, word: string, token: Token)

  /** The first word of a line, with spaces and newlines removed and trimmed;
      empty when the line has no word. */
  function FirstWord(line: string): string {
    var words := Tokens(line, WordSeparators);
    if |words| == 0 then "" else Trim(RemoveChars(words[0], SpaceOrNewline))
  }

  /** A line gets a record: its first word is not empty and the line is not filtered. */
  predicate Qualifies(h: Helpers, line: string) {
    |FirstWord(line)| > 0 && !h.filterLine(Some(line))
  }

  /** Reference: the qualifying lines `li..` of block `bi` of page `pi`. */
  function LineRefs(h: Helpers, pi: nat, bi: nat, lines: seq<string>, token: Token, li: nat): seq<LineRef>
    requires li <= |lines|
    decreases |lines| - li
  {
    if li == |lines| then []
    else
      (if Qualifies(h, lines[li]) then [LineRef(pi, bi, li, lines[li], FirstWord(lines[li]), token)] else [])
      + LineRefs(h, pi, bi, lines, token, li + 1)
  }

  /** Reference: the qualifying lines of block `bi`; none when the block has
      no text, no tokens or an empty token list. */
  function BlockRefs(h: Helpers, pi: nat, page: Page, bi: nat): seq<LineRef>
    requires bi < |page.blocks|
  {
    var b := page.blocks[bi];
    if b.text.Some? && b.tokens.Some? && |b.tokens.value| > 0
    then LineRefs(h, pi, bi, SplitChars(b.text.value, LineBreaks), b.tokens.value[0], 0)
    else []
  }

  /** Reference: the qualifying lines of blocks `bi..` of page `pi`. */
  function BlocksRefs(h: Helpers, pi: nat, page: Page, bi: nat): seq<LineRef>
    requires bi <= |page.blocks|
    decreases |page.blocks| - bi
  {
    if bi == |page.blocks| then [] else BlockRefs(h, pi, page, bi) + BlocksRefs(h, pi, page, bi + 1)
  }

  /** Reference: the qualifying lines of pages `pi..`. */
  function PagesRefs(h: Helpers, doc: Document, pi: nat): seq<LineRef>
    requires pi <= |doc.pages|
    decreases |doc.pages| - pi
  {
    if pi == |doc.pages| then [] else BlocksRefs(h, pi, doc.pages[pi], 0) + PagesRefs(h, doc, pi + 1)
  }

  /** Reference: every line of the document that gets a record, in document order. */
  function DocumentLines(h: Helpers, doc: Document): seq<LineRef> {
    PagesRefs(h, doc, 0)
  }

  /** What the created records and their origins say about their lines. */
  function TraceOf(cs: seq<LineFeatures>, os: seq<LineOrigin>): (t: seq<LineRef>)
    requires |cs| == |os|
    ensures |t| == |cs|
  {
    seq(|cs|, i requires 0 <= i < |cs| => LineRef(os[i].page, os[i].block, os[i].line, cs[i].line, cs[i].text, cs[i].token))
  }

  function Trace(st: EncoderState): seq<LineRef>
    requires |st.created| == |st.origins|
  {
    TraceOf(st.created, st.origins)
  }

  lemma TraceSnoc(cs: seq<LineFeatures>, os: seq<LineOrigin>, r: LineFeatures, o: LineOrigin)
    requires |cs| == |os|
    ensures TraceOf(cs + [r], os + [o]) == TraceOf(cs, os) + [LineRef(o.page, o.block, o.line, r.line, r.text, r.token)]
  {
    var cs', os' := cs + [r], os + [o];
    forall i | 0 <= i < |cs'|
      ensures TraceOf(cs', os')[i] == (TraceOf(cs, os) + [LineRef(o.page, o.block, o.line, r.line, r.text, r.token)])[i]
    {
      if i < |cs| {
        assert cs'[i] == cs[i] && os'[i] == os[i];
      }
    }
  }

  lemma Assoc(a: seq<LineRef>, b: seq<LineRef>, c: seq<LineRef>)
    ensures a + b + c == a + (b + c)
  {
  }

  /** Two walk steps that each append to the trace append both, in order. */
  lemma TraceChain(st: EncoderState, mid: EncoderState, st': EncoderState, a: seq<LineRef>, b: seq<LineRef>)
    requires |st.created| == |st.origins| && |mid.created| == |mid.origins| && |st'.created| == |st'.origins|
    requires Trace(mid) == Trace(st) + a && Trace(st') == Trace(mid) + b
    ensures Trace(st') == Trace(st) + (a + b)
  {
    Assoc(Trace(st), a, b);
  }

  /** Line `li` adds a record exactly when it qualifies, with its own line,
      first word and block token; the page being walked stays. */
  lemma EncodeLineTrace(h: Helpers, counts: map<string, int>, ctx: BlockContext, li: nat, st: EncoderState)
    requires li < |ctx.lines| && |st.created| == |st.origins|
    ensures var st' := EncodeLine(h, counts, ctx, li, st);
      var line := ctx.lines[li];
      && |st'.created| == |st'.origins|
      && st'.page == st.page
      && Trace(st') == Trace(st) +
           (if Qualifies(h, line) then [LineRef(st.page, ctx.block, li, line, FirstWord(line), ctx.token)] else [])
  {
    if Qualifies(h, ctx.lines[li]) {
      EncodeLineEmits(h, counts, ctx, li, st);
    } else {
      EncodeLineSkips(h, counts, ctx, li, st);
    }
  }

  lemma EncodeLineEmits(h: Helpers, counts: map<string, int>, ctx: BlockContext, li: nat, st: EncoderState)
    requires li < |ctx.lines| && |st.created| == |st.origins|
    requires Qualifies(h, ctx.lines[li])
    ensures var st' := EncodeLine(h, counts, ctx, li, st);
      var line := ctx.lines[li];
      && |st'.created| == |st'.origins|
      && st'.page == st.page
      && Trace(st') == Trace(st) + [LineRef(st.page, ctx.block, li, line, FirstWord(line), ctx.token)]
  {
    var line := ctx.lines[li];
    var (repetitive, firstRepetitive, firstTime) := RepetitionOf(h, counts, ctx, line, st.firstTime);
    var st1 := st.(firstTime := firstTime);
    var words := Tokens(line, WordSeparators);
    var text := Trim(RemoveChars(words[0], SpaceOrNewline));
    var r := LineRecord(h, ctx, li, st1, line, words, text, repetitive, firstRepetitive);
    var o := LineOrigin(st1.page, ctx.block, ctx.blockCount, li, |ctx.lines|, h.getPattern(line));
    var st' := Emit(st1, r, o, FontStep(st1.font, ctx.token.font).1, SizeStep(st1.fontSize, TruncateToInt(ctx.token.fontSize)).1);
    assert EncodeLine(h, counts, ctx, li, st) == st';
    assert r.line == line && r.text == text && r.token == ctx.token;
    TraceSnoc(st.created, st.origins, r, o);
  }

  lemma EncodeLineSkips(h: Helpers, counts: map<string, int>, ctx: BlockContext, li: nat, st: EncoderState)
    requires li < |ctx.lines| && |st.created| == |st.origins|
    requires !Qualifies(h, ctx.lines[li])
    ensures var st' := EncodeLine(h, counts, ctx, li, st);
      && st'.created == st.created && st'.origins == st.origins
      && st'.page == st.page
  {
    var line := ctx.lines[li];
    var (repetitive, firstRepetitive, firstTime) := RepetitionOf(h, counts, ctx, line, st.firstTime);
    assert EncodeLine(h, counts, ctx, li, st) == st.(firstTime := firstTime);
  }

  lemma {:induction false} EncodeLinesTrace(h: Helpers, counts: map<string, int>, ctx: BlockContext, li: nat, st: EncoderState)
    requires li <= |ctx.lines| && |st.created| == |st.origins|
    ensures var st' := EncodeLines(h, counts, ctx, li, st);
      && |st'.created| == |st'.origins|
      && st'.page == st.page
      && Trace(st') == Trace(st) + LineRefs(h, st.page, ctx.block, ctx.lines, ctx.token, li)
    decreases |ctx.lines| - li
  {
    if li == |ctx.lines| {
      assert Trace(st) + [] == Trace(st);
    } else {
      var st1 := EncodeLine(h, counts, ctx, li, st);
      EncodeLineTrace(h, counts, ctx, li, st);
      EncodeLinesTrace(h, counts, ctx, li + 1, st1);
      var line := ctx.lines[li];
      var own := if Qualifies(h, line) then [LineRef(st.page, ctx.block, li, line, FirstWord(line), ctx.token)] else [];
      Assoc(Trace(st), own, LineRefs(h, st.page, ctx.block, ctx.lines, ctx.token, li + 1));
    }
  }

  /** A block adds the records of its qualifying lines; a skipped block none. */
  lemma EncodeBlockTrace(h: Helpers, doc: Document, counts: map<string, int>, page: Page, bi: nat,
                         st: EncoderState, lowestPos: real)
    requires bi < |page.blocks| && |st.created| == |st.origins|
    ensures var st' := EncodeBlock(h, doc, counts, page, bi, st, lowestPos).0;
      && |st'.created| == |st'.origins|
      && st'.page == st.page
      && Trace(st') == Trace(st) + BlockRefs(h, st.page, page, bi)
  {
    var ctx := BlockContextOf(h, doc, page, bi, lowestPos);
    if ctx.Some? {
      EncodeLinesTrace(h, counts, ctx.value, 0, st);
    } else {
      assert Trace(st) + [] == Trace(st);
    }
  }

  lemma {:induction false} EncodeBlocksTrace(h: Helpers, doc: Document, counts: map<string, int>, page: Page, bi: nat,
                                             st: EncoderState, lowestPos: real)
    requires bi <= |page.blocks| && |st.created| == |st.origins|
    ensures var st' := EncodeBlocks(h, doc, counts, page, bi, st, lowestPos);
      && |st'.created| == |st'.origins|
      && st'.page == st.page
      && Trace(st') == Trace(st) + BlocksRefs(h, st.page, page, bi)
    decreases |page.blocks| - bi
  {
    if bi == |page.blocks| {
      assert Trace(st) + [] == Trace(st);
    } else {
      var e := EncodeBlock(h, doc, counts, page, bi, st, lowestPos);
      var st' := EncodeBlocks(h, doc, counts, page, bi, st, lowestPos);
      var own, rest := BlockRefs(h, st.page, page, bi), BlocksRefs(h, st.page, page, bi + 1);
      assert st' == EncodeBlocks(h, doc, counts, page, bi + 1, e.0, e.1) && BlocksRefs(h, st.page, page, bi) == own + rest by {
        BlocksStep(h, doc, counts, page, bi, st, lowestPos);
      }
      assert |e.0.created| == |e.0.origins| && e.0.page == st.page && Trace(e.0) == Trace(st) + own by {
        EncodeBlockTrace(h, doc, counts, page, bi, st, lowestPos);
      }
      EncodeBlocksTrace(h, doc, counts, page, bi + 1, e.0, e.1);
      TraceChain(st, e.0, st', own, rest);
    }
  }

  /** One block of the walk and of its reference. */
  lemma BlocksStep(h: Helpers, doc: Document, counts: map<string, int>, page: Page, bi: nat,
                   st: EncoderState, lowestPos: real)
    requires bi < |page.blocks|
    ensures var e := EncodeBlock(h, doc, counts, page, bi, st, lowestPos);
      && EncodeBlocks(h, doc, counts, page, bi, st, lowestPos) == EncodeBlocks(h, doc, counts, page, bi + 1, e.0, e.1)
      && BlocksRefs(h, st.page, page, bi) == BlockRefs(h, st.page, page, bi) + BlocksRefs(h, st.page, page, bi + 1)
  {
  }

  /** One page of the walk and of its reference. */
  lemma PagesStep(h: Helpers, doc: Document, counts: map<string, int>, pi: nat, st: EncoderState)
    requires pi < |doc.pages|
    ensures var st1 := st.(newPage := true, mm := 0, page := pi);
      && EncodePages(h, doc, counts, pi, st) ==
           EncodePages(h, doc, counts, pi + 1, EncodeBlocks(h, doc, counts, doc.pages[pi], 0, st1, 0.0))
      && PagesRefs(h, doc, pi) == BlocksRefs(h, pi, doc.pages[pi], 0) + PagesRefs(h, doc, pi + 1)
  {
  }

  lemma {:induction false} EncodePagesTrace(h: Helpers, doc: Document, counts: map<string, int>, pi: nat, st: EncoderState)
    requires pi <= |doc.pages| && |st.created| == |st.origins|
    ensures var st' := EncodePages(h, doc, counts, pi, st);
      && |st'.created| == |st'.origins|
      && Trace(st') == Trace(st) + PagesRefs(h, doc, pi)
    decreases |doc.pages| - pi
  {
    if pi == |doc.pages| {
      assert Trace(st) + [] == Trace(st);
    } else {
      var st1 := st.(newPage := true, mm := 0, page := pi);
      assert st1.created == st.created && st1.origins == st.origins;
      var st2 := EncodeBlocks(h, doc, counts, doc.pages[pi], 0, st1, 0.0);
      var st' := EncodePages(h, doc, counts, pi, st);
      var own, rest := BlocksRefs(h, pi, doc.pages[pi], 0), PagesRefs(h, doc, pi + 1);
      assert st' == EncodePages(h, doc, counts, pi + 1, st2) && PagesRefs(h, doc, pi) == own + rest by {
        PagesStep(h, doc, counts, pi, st);
      }
      assert |st2.created| == |st2.origins| && Trace(st2) == Trace(st) + own by {
        EncodeBlocksTrace(h, doc, counts, doc.pages[pi], 0, st1, 0.0);
      }
      EncodePagesTrace(h, doc, counts, pi + 1, st2);
      TraceChain(st, st2, st', own, rest);
    }
  }

  /** The created records are one per line of the reference walk, in
      document order: record i has the page, block and line index, the line,
      the first word and the block token of the i-th qualifying line. */
  lemma EncodeDocumentTrace(h: Helpers, doc: Document, table: PatternTable)
    ensures var st := EncodeDocument(h, doc, table);
      |st.created| == |st.origins| && TraceOf(st.created, st.origins) == DocumentLines(h, doc)
  {
    var st0 := InitialState(table.firstTime);
    EncodePagesTrace(h, doc, table.counts, 0, st0);
    assert Trace(st0) == [];
  }
}

=== FILE: segmenter_encoder.dfy ===
/** The line-level feature encoder of the segmenter (`getFeatureVectorsAsString`
    and `getAllLinesFeatured`): one record per retained text line, walking
    pages, blocks and the lines of each block's text, with the layout of the
    block's first token and a one-record look-behind that turns the last
    record of a page into PAGEEND once the next page's first record exists.
 */
module SegmenterEncoder {
  import opened Wrappers
  import opened JavaStrings
  import opened Statuses
  import opened Layout
  import opened Lexicon
  import opened LookBehind
  import opened FontTracking
  import opened Classify
  import opened SegmenterPatterns

  const NbBinsPosition: int := 12
  const NbBinsSpace: int := 5
  const NbBinsDensity: int := 5
  const LineScale: int := 10

  /** The separators of the per-line `StringTokenizer`. */
  const WordSeparators: set<char> := {' ', '\t'}

  /** The characters the sanitisation of the first word removes. */
  const SpaceOrNewline: set<char> := {' ', '\n'}

  /** A `FeaturesVectorDatacatSegmenter` record as the encoder fills it. The
      spacing and density features are absent when the encoder leaves them at
      the record's default. */
  datatype LineFeatures = LineFeatures(
    token: Token,                    // the block's first layout token
    line: string,
    text: string,                    // `string`: the sanitised first word
    secondString: Option<string>,
    firstPageBlock: bool,
    lastPageBlock: bool,
    lineLength: int,
    punctuationProfile: string,
    bitmapAround: bool,
    vectorAround: bool,
    blockStatus: BlockStatus,
    pageStatus: PageStatus,
    singleChar: bool,
    capitalisation: Capitalisation,
    digit: DigitClass,
    commonName: bool,
    properName: bool,
    month: bool,
    year: bool,
    email: bool,
    http: bool,
    fontStatus: FontStatus,
    fontSize: FontSizeStatus,
    bold: bool,
    italic: bool,
    relativeDocumentPosition: int,
    relativePagePositionChar: int,
    relativePagePosition: int,
    spacingWithPreviousBlock: Option<int>,
    inMainArea: bool,
    characterDensity: Option<int>,
    repetitivePattern: bool,
    firstRepetitivePattern: bool)

  /** Where a created record comes from: page index, block index and block
      count of its page, line index and line count of its block, and the
      pattern of its line. It is part of the model's trace only. */
  datatype LineOrigin = LineOrigin(page: nat, block: nat, blockCount: nat, line: nat, lineCount: nat, pattern: string)

  /** The values fixed for a block before its lines are walked. */
  datatype BlockContext = BlockContext(
    block: nat,
    blockCount: nat,
    token: Token,
    lines: seq<string>,
    maxLineLength: int,
    spacing: Option<int>,
    density: Option<int>,
    inMainArea: bool,
    bitmapAround: bool,
    vectorAround: bool,
    documentLength: int,
    pageLength: int,
    pageHeight: real)

  /** The running state of the encoder. `created` and `origins` record every
      record as it was created; they are the model's trace. */
  datatype EncoderState = EncoderState(
    font: Option<string>,            // currentFont
    fontSize: int,                   // currentFontSize
    newPage: bool,
    mm: int,                         // page position, in tokens
    nn: int,                         // document position, in tokens
    firstTime: map<string, bool>,    // firstTimePattern
    page: nat,                       // index of the page being walked
    buffer: Buffer<LineFeatures>,
    created: seq<LineFeatures>,
    origins: seq<LineOrigin>)

  /** The look-behind patch: the first record of a page turns the pending one into PAGEEND. */
  function PageEndPatch(previous: LineFeatures, next: LineFeatures): (r: LineFeatures)
    ensures r == previous.(pageStatus := r.pageStatus)
    ensures r.pageStatus == (if next.pageStatus == PageStart then PageEnd else previous.pageStatus)
  {
    if next.pageStatus == PageStart then previous.(pageStatus := PageEnd) else previous
  }

  function FontOf(r: LineFeatures): Option<string> { r.token.font }
  function SizeOf(r: LineFeatures): int { TruncateToInt(r.token.fontSize) }
  function FontStatusOf(r: LineFeatures): FontStatus { r.fontStatus }
  function SizeStatusOf(r: LineFeatures): FontSizeStatus { r.fontSize }

  /** The longest line, 0 when there is none. */
  function MaxLength(lines: seq<string>): (m: nat)
    ensures forall k :: 0 <= k < |lines| ==> |lines[k]| <= m
    ensures |lines| > 0 ==> exists k :: 0 <= k < |lines| && |lines[k]| == m
    ensures |lines| == 0 ==> m == 0
  {
    if |lines| == 0 then 0
    else
      var m := MaxLength(lines[..|lines| - 1]);
      assert forall k :: 0 <= k < |lines| - 1 ==> lines[..|lines| - 1][k] == lines[k];
      if |lines[|lines| - 1]| > m then |lines[|lines| - 1]| else m
  }

  /** The pattern-table step made for every line of a head or foot block,
      before the line is filtered: a repeated pattern marks the line, and the
      first such line of each pattern is marked as its first occurrence. */
  function RepetitionOf(h: Helpers, counts: map<string, int>, ctx: BlockContext, line: string, firstTime: map<string, bool>)
    : (r: (bool, bool, map<string, bool>))
    ensures var pattern := h.getPattern(line);
      && (r.0 <==> HeadOrFoot(ctx.block, ctx.blockCount) && pattern in counts && counts[pattern] > 1)
      && (r.1 <==> r.0 && pattern in firstTime && !firstTime[pattern])
      && r.2.Keys == firstTime.Keys
      && (r.0 && pattern in firstTime ==> r.2[pattern])
      && (forall q :: q in firstTime && q != pattern ==> r.2[q] == firstTime[q])
      && (forall q :: q in firstTime && firstTime[q] ==> r.2[q])
  {
    var pattern := h.getPattern(line);
    var repetitive := HeadOrFoot(ctx.block, ctx.blockCount) && pattern in counts && counts[pattern] > 1;
    var first := repetitive && pattern in firstTime && !firstTime[pattern];
    (repetitive, first, if first then firstTime[pattern := true] else firstTime)
  }

  /** The block status of line `li`: BLOCKSTART for a block's first line or
      after a BLOCKEND, BLOCKEND for its last line, BLOCKIN otherwise. */
  function BlockStatusOf(li: nat, lineCount: nat, created: seq<LineFeatures>): BlockStatus {
    if li == 0 || (|created| > 0 && created[|created| - 1].blockStatus == BlockEnd) then BlockStart
    else if li == lineCount - 1 then BlockEnd
    else BlockIn
  }

  /** The record of line `li`, whose first word gives the text `text`. */
  function LineRecord(h: Helpers, ctx: BlockContext, li: nat, st: EncoderState, line: string, words: seq<string>,
                      text: string, repetitive: bool, firstRepetitive: bool): LineFeatures
    requires |text| > 0
  {
    var pagePos := h.linearScaling(ctx.token.y, ctx.pageHeight, NbBinsPosition);
    LineFeatures(
      token := ctx.token,
      line := line,
      text := text,
      secondString := if |words| > 1 then Some(words[1]) else None,
      firstPageBlock := ctx.block == 0,
      lastPageBlock := ctx.block == ctx.blockCount - 1,
      lineLength := h.linearScaling(|line| as real, ctx.maxLineLength as real, LineScale),
      punctuationProfile := h.punctuationProfile(line),
      bitmapAround := ctx.bitmapAround,
      vectorAround := ctx.vectorAround,
      blockStatus := BlockStatusOf(li, |ctx.lines|, st.created),
      pageStatus := if st.newPage then PageStart else PageIn,
      singleChar := |text| == 1,
      capitalisation := CapitalisationOf(h, text),
      digit := DigitClassOf(h, text),
      commonName := h.testCommon(text),
      properName := h.testNames(text),
      month := h.testMonth(text),
      year := h.isYear(text),
      email := h.isEmail(text),
      http := h.isHttp(text),
      fontStatus := FontStep(st.font, ctx.token.font).0,
      fontSize := SizeStep(st.fontSize, TruncateToInt(ctx.token.fontSize)).0,
      bold := ctx.token.bold,
      italic := ctx.token.italic,
      relativeDocumentPosition := h.linearScaling(st.nn as real, ctx.documentLength as real, NbBinsPosition),
      relativePagePositionChar := h.linearScaling(st.mm as real, ctx.pageLength as real, NbBinsPosition),
      relativePagePosition := if pagePos > NbBinsPosition then NbBinsPosition else pagePos,
      spacingWithPreviousBlock := ctx.spacing,
      inMainArea := ctx.inMainArea,
      characterDensity := ctx.density,
      repetitivePattern := repetitive,
      firstRepetitivePattern := firstRepetitive)
  }

  /** Line `li` of the block. */
  function EncodeLine(h: Helpers, counts: map<string, int>, ctx: BlockContext, li: nat, st: EncoderState): EncoderState
    requires li < |ctx.lines|
  {
    var line := ctx.lines[li];
    var (repetitive, firstRepetitive, firstTime) := RepetitionOf(h, counts, ctx, line, st.firstTime);
    var st := st.(firstTime := firstTime);
    var words := Tokens(line, WordSeparators);
    if |words| == 0 then st
    else
      var text := Trim(RemoveChars(words[0], SpaceOrNewline));
      if |text| == 0 || h.filterLine(Some(line)) then st
      else
        var r := LineRecord(h, ctx, li, st, line, words, text, repetitive, firstRepetitive);
        var o := LineOrigin(st.page, ctx.block, ctx.blockCount, li, |ctx.lines|, h.getPattern(line));
        Emit(st, r, o, FontStep(st.font, ctx.token.font).1, SizeStep(st.fontSize, TruncateToInt(ctx.token.fontSize)).1)
  }

  /** A record is created: the previous one is written out, the new one is
      pending, and the tracked font and size are updated. */
  function Emit(st: EncoderState, r: LineFeatures, o: LineOrigin, font: Option<string>, size: int): EncoderState {
    st.(font := font, fontSize := size, newPage := false,
        buffer := Push(st.buffer, r, PageEndPatch),
        created := st.created + [r], origins := st.origins + [o])
  }

  /** Lines `li..` of the block. */
  function EncodeLines(h: Helpers, counts: map<string, int>, ctx: BlockContext, li: nat, st: EncoderState): EncoderState
    requires li <= |ctx.lines|
    decreases |ctx.lines| - li
  {
    if li == |ctx.lines| then st
    else EncodeLines(h, counts, ctx, li + 1, EncodeLine(h, counts, ctx, li, st))
  }

  /** The values the encoder fixes for block `bi` of the page, given the
      bottom of the previous block; none when the block has no text or no
      tokens, in which case the block is skipped. */
  function BlockContextOf(h: Helpers, doc: Document, page: Page, bi: nat, lowestPos: real): (r: Option<BlockContext>)
    requires bi < |page.blocks|
    ensures r.Some? <==> page.blocks[bi].text.Some? && page.blocks[bi].tokens.Some? && |page.blocks[bi].tokens.value| > 0
    ensures r.Some? ==> r.value.block == bi && r.value.blockCount == |page.blocks|
    ensures r.Some? ==> r.value.token == page.blocks[bi].tokens.value[0]
    ensures r.Some? ==> r.value.lines == SplitChars(page.blocks[bi].text.value, LineBreaks)
  {
    var block := page.blocks[bi];
    var spacing := if lowestPos > block.y then doc.maxBlockSpacing / 5.0 else block.y - lowestPos;
    match block.text
    case None => None
    case Some(text) =>
      var area := block.height * block.width;
      var density :=
        if block.height != 0.0 && block.width != 0.0 && !Contains(text, "@PAGE") && !Contains(text, "@IMAGE")
        then (assert area != 0.0; (|text| as real) / area)
        else 0.0;
      var box := Box(page.number, block.x, block.y, block.width, block.height);
      var inMainArea := page.mainArea.Some?
        && (h.boxContains(page.mainArea.value, box) || h.boxIntersects(page.mainArea.value, box));
      var lines := SplitChars(text, LineBreaks);
      if block.tokens.None? || |block.tokens.value| == 0 then None
      else
        Some(BlockContext(
          block := bi,
          blockCount := |page.blocks|,
          token := block.tokens.value[0],
          lines := lines,
          maxLineLength := MaxLength(lines),
          spacing := if spacing != 0.0
                     then Some(h.linearScaling(spacing - doc.minBlockSpacing, doc.maxBlockSpacing - doc.minBlockSpacing, NbBinsSpace))
                     else None,
          density := if density != -1.0
                     then Some(h.linearScaling(density - doc.minCharacterDensity, doc.maxCharacterDensity - doc.minCharacterDensity, NbBinsDensity))
                     else None,
          inMainArea := inMainArea,
          bitmapAround := Bitmap in block.graphics,
          vectorAround := Vector in block.graphics || VectorBox in block.graphics,
          documentLength := doc.documentLengthChar,
          pageLength := page.lengthChar,
          pageHeight := page.height))
  }

  /** Block `bi` of the page, with the bottom of the previous block; returns the
      state and the new bottom. A skipped block leaves the bottom and the
      positions unchanged. */
  function EncodeBlock(h: Helpers, doc: Document, counts: map<string, int>, page: Page, bi: nat,
                       st: EncoderState, lowestPos: real): (EncoderState, real)
    requires bi < |page.blocks|
  {
    match BlockContextOf(h, doc, page, bi, lowestPos)
    case None => (st, lowestPos)
    case Some(ctx) =>
      var block := page.blocks[bi];
      var tokens := block.tokens.value;
      var st' := EncodeLines(h, counts, ctx, 0, st);
      (st'.(mm := st'.mm + |tokens|, nn := st'.nn + |tokens|), block.y + block.height)
  }

  /** Blocks `bi..` of the page. */
  function EncodeBlocks(h: Helpers, doc: Document, counts: map<string, int>, page: Page, bi: nat,
                        st: EncoderState, lowestPos: real): EncoderState
    requires bi <= |page.blocks|
    decreases |page.blocks| - bi
  {
    if bi == |page.blocks| then st
    else
      var (st', lowest') := EncodeBlock(h, doc, counts, page, bi, st, lowestPos);
      EncodeBlocks(h, doc, counts, page, bi + 1, st', lowest')
  }

  /** Pages `pi..` of the document; each page starts a new page with its page
      position and bottom reset. */
  function EncodePages(h: Helpers, doc: Document, counts: map<string, int>, pi: nat, st: EncoderState): EncoderState
    requires pi <= |doc.pages|
    decreases |doc.pages| - pi
  {
    if pi == |doc.pages| then st
    else
      var st' := EncodeBlocks(h, doc, counts, doc.pages[pi], 0, st.(newPage := true, mm := 0, page := pi), 0.0);
      EncodePages(h, doc, counts, pi + 1, st')
  }

  function InitialState(firstTime: map<string, bool>): EncoderState {
    EncoderState(None, -1, true, 0, 0, firstTime, 0, Empty(), [], [])
  }

  /** The walk over the whole document, before the last record is flushed. */
  function EncodeDocument(h: Helpers, doc: Document, table: PatternTable): EncoderState {
    EncodePages(h, doc, table.counts, 0, InitialState(table.firstTime))
  }

  /** `getFeatureVectorsAsString`: the records in output order (their
      serialisation by `FeaturesVectorDatacatSegmenter.printVector` is not
      part of this model). */
  function FeatureVectors(h: Helpers, doc: Document, table: PatternTable): seq<LineFeatures> {
    Flush(EncodeDocument(h, doc, table).buffer)
  }

  /** `getAllLinesFeatured`: no result for a document without blocks, the
      too-many-blocks failure above the limit, otherwise the records encoded
      with the document's head and foot pattern table. */
  function AllLinesFeatured(h: Helpers, doc: Document, maxBlocks: int): (r: Result<Option<seq<LineFeatures>>>)
    ensures r == Ok(None) <==> |doc.blocks| == 0
    ensures r.Err? <==> 0 < |doc.blocks| && |doc.blocks| > maxBlocks
    ensures r.Err? ==> r.failure == TooManyBlocks(|doc.blocks|, maxBlocks)
    ensures r.Ok? && r.value.Some? ==> r.value.value == FeatureVectors(h, doc, PatternTableOf(h, doc.pages))
  {
    if |doc.blocks| == 0 then Ok(None)
    else if |doc.blocks| > maxBlocks then Err(TooManyBlocks(|doc.blocks|, maxBlocks))
    else Ok(Some(FeatureVectors(h, doc, PatternTableOf(h, doc.pages))))
  }
}

=== FILE: segmenter_patterns.dfy ===
/** The table of repeated head and foot patterns the segmenter builds before
    encoding: for the first two and the last block of every page, the pattern
    of the block's first line is counted when it is longer than 8 characters.
 */
module SegmenterPatterns {
  import opened Wrappers
  import opened JavaStrings
  import opened Layout
  import opened Lexicon

  /** The line separators of `split("[\\n\\r]")`. */
  const LineBreaks: set<char> := {'\n', '\r'}

  /** Patterns of at most this many characters are not counted. */
  const MinPatternLength: nat := 8

  /** One of the first two blocks of a page, or its last one
      (`blockIndex < 2 || blockIndex > size - 2`). */
  predicate HeadOrFoot(index: int, size: int) {
    index < 2 || index > size - 2
  }

  /** The first line of a non-empty block text, if the split leaves any. */
  function FirstLine(text: Option<string>): (r: Option<string>)
    ensures r.Some? ==> text.Some? && |text.value| > 0
    ensures r.Some? ==> NoneOf(r.value, LineBreaks)
  {
    if text.None? || |text.value| == 0 then None
    else
      var lines := SplitChars(text.value, LineBreaks);
      if |lines| > 0 then Some(lines[0]) else None
  }

  /** The pattern a block contributes to the table, if any. */
  function BlockPattern(h: Helpers, b: Block): (r: Option<string>)
    ensures r.Some? ==> |r.value| > MinPatternLength
  {
    match FirstLine(b.text)
    case None => None
    case Some(line) =>
      var pattern := h.getPattern(line);
      if |pattern| > MinPatternLength then Some(pattern) else None
  }

  /** Reference: the patterns counted for the first `j` blocks of a page, in order. */
  function PagePatterns(h: Helpers, blocks: seq<Block>, j: nat): seq<string>
    requires j <= |blocks|
    decreases j
  {
    if j == 0 then []
    else
      var rest := PagePatterns(h, blocks, j - 1);
      var p := BlockPattern(h, blocks[j - 1]);
      if HeadOrFoot(j - 1, |blocks|) && p.Some? then rest + [p.value] else rest
  }

  /** Reference: the patterns counted for the first `k` pages, in order. */
  function DocumentPatterns(h: Helpers, pages: seq<Page>, k: nat): seq<string>
    requires k <= |pages|
    decreases k
  {
    if k == 0 then []
    else DocumentPatterns(h, pages, k - 1) + PagePatterns(h, pages[k - 1].blocks, |pages[k - 1].blocks|)
  }

  /** `patterns` (occurrence counts) and `firstTimePattern`. */
  datatype PatternTable = PatternTable(counts: map<string, int>, firstTime: map<string, bool>)

  /** One more occurrence: a new pattern starts at 1 with its first-time flag
      false; a known one is incremented. */
  function Record(t: PatternTable, p: string): (t': PatternTable)
    ensures p in t'.counts
    ensures p !in t.counts ==> t'.counts[p] == 1 && p in t'.firstTime && !t'.firstTime[p]
    ensures p in t.counts ==> t'.counts[p] == t.counts[p] + 1
    ensures forall q :: q != p ==> (q in t'.counts <==> q in t.counts)
    ensures forall q :: q != p && q in t.counts ==> t'.counts[q] == t.counts[q]
  {
    if p !in t.counts then PatternTable(t.counts[p := 1], t.firstTime[p := false])
    else PatternTable(t.counts[p := t.counts[p] + 1], t.firstTime)
  }

  /** How many times `p` occurs in `ps`. */
  function Occurrences(ps: seq<string>, p: string): nat
    decreases |ps|
  {
    if |ps| == 0 then 0
    else Occurrences(ps[..|ps| - 1], p) + (if ps[|ps| - 1] == p then 1 else 0)
  }

  /** The table counts exactly the occurrences in `ps`, and every first-time
      flag is still false. */
  ghost predicate Tallies(t: PatternTable, ps: seq<string>) {
    && (forall p :: p in t.counts <==> Occurrences(ps, p) > 0)
    && (forall p :: p in t.counts ==> t.counts[p] == Occurrences(ps, p))
    && (forall p :: p in t.firstTime <==> p in t.counts)
    && (forall p :: p in t.firstTime ==> !t.firstTime[p])
  }

  lemma RecordTallies(t: PatternTable, ps: seq<string>, p: string)
    requires Tallies(t, ps)
    ensures Tallies(Record(t, p), ps + [p])
  {
    var ps' := ps + [p];
    assert ps'[..|ps'| - 1] == ps;
    forall q ensures Occurrences(ps', q) == Occurrences(ps, q) + (if q == p then 1 else 0) {
    }
  }

  /** The table after recording the patterns `ps` in order, from an empty table. */
  function TableOf(ps: seq<string>): PatternTable
    decreases |ps|
  {
    if |ps| == 0 then PatternTable(map[], map[]) else Record(TableOf(ps[..|ps| - 1]), ps[|ps| - 1])
  }

  /** The table of `getAllLinesFeatured`. */
  function PatternTableOf(h: Helpers, pages: seq<Page>): PatternTable {
    TableOf(DocumentPatterns(h, pages, |pages|))
  }

  /** Recording patterns one by one counts each exactly as often as it occurs. */
  lemma {:induction false} TableOfTallies(ps: seq<string>)
    ensures Tallies(TableOf(ps), ps)
    decreases |ps|
  {
    if |ps| == 0 {
      assert forall p :: Occurrences([], p) == 0;
    } else {
      var init := ps[..|ps| - 1];
      TableOfTallies(init);
      RecordTallies(TableOf(init), init, ps[|ps| - 1]);
      assert init + [ps[|ps| - 1]] == ps;
    }
  }

  /** Every counted pattern is longer than 8 characters. */
  lemma {:induction false} TableOfKeysLong(h: Helpers, pages: seq<Page>)
    ensures forall p :: p in PatternTableOf(h, pages).counts ==> |p| > MinPatternLength
  {
    var ps := DocumentPatterns(h, pages, |pages|);
    TableOfTallies(ps);
    forall p | p in PatternTableOf(h, pages).counts ensures |p| > MinPatternLength {
      OccurringPatternIsLong(h, pages, |pages|, p);
    }
  }

  lemma {:induction false} OccurringPatternIsLong(h: Helpers, pages: seq<Page>, k: nat, p: string)
    requires k <= |pages|
    requires Occurrences(DocumentPatterns(h, pages, k), p) > 0
    ensures |p| > MinPatternLength
    decreases k
  {
    var before := DocumentPatterns(h, pages, k - 1);
    var blocks := pages[k - 1].blocks;
    var page := PagePatterns(h, blocks, |blocks|);
    OccurrencesOfConcat(before, page, p);
    if Occurrences(before, p) > 0 {
      OccurringPatternIsLong(h, pages, k - 1, p);
    } else {
      OccurringPagePatternIsLong(h, blocks, |blocks|, p);
    }
  }

  lemma {:induction false} OccurringPagePatternIsLong(h: Helpers, blocks: seq<Block>, j: nat, p: string)
    requires j <= |blocks|
    requires Occurrences(PagePatterns(h, blocks, j), p) > 0
    ensures |p| > MinPatternLength
    decreases j
  {
    var rest := PagePatterns(h, blocks, j - 1);
    var b := BlockPattern(h, blocks[j - 1]);
    if HeadOrFoot(j - 1, |blocks|) && b.Some? {
      var ps := rest + [b.value];
      assert ps[..|ps| - 1] == rest;
      if Occurrences(rest, p) > 0 {
        OccurringPagePatternIsLong(h, blocks, j - 1, p);
      }
    } else {
      OccurringPagePatternIsLong(h, blocks, j - 1, p);
    }
  }

  lemma {:induction false} OccurrencesOfConcat(a: seq<string>, b: seq<string>, p: string)
    ensures Occurrences(a + b, p) == Occurrences(a, p) + Occurrences(b, p)
    decreases |b|
  {
    if |b| == 0 {
      assert a + b == a;
    } else {
      var b' := b[..|b| - 1];
      OccurrencesOfConcat(a, b', p);
      assert (a + b)[..|a + b| - 1] == a + b';
    }
  }

  lemma TableOfSnoc(ps: seq<string>, p: string)
    ensures TableOf(ps + [p]) == Record(TableOf(ps), p)
  {
    assert (ps + [p])[..|ps|] == ps;
  }

  /** One more block of the page, after the patterns `before`. */
  lemma PagePatternsStep(h: Helpers, blocks: seq<Block>, before: seq<string>, j: nat)
    requires j < |blocks|
    ensures var seen := before + PagePatterns(h, blocks, j);
      var p := BlockPattern(h, blocks[j]);
      before + PagePatterns(h, blocks, j + 1) == if HeadOrFoot(j, |blocks|) && p.Some? then seen + [p.value] else seen
  {
    var p := BlockPattern(h, blocks[j]);
    if HeadOrFoot(j, |blocks|) && p.Some? {
      assert before + (PagePatterns(h, blocks, j) + [p.value]) == (before + PagePatterns(h, blocks, j)) + [p.value];
    }
  }

  /** The table after the head and foot blocks of one more page. */
  method RecordPage(h: Helpers, t0: PatternTable, blocks: seq<Block>, ghost before: seq<string>) returns (t: PatternTable)
    requires t0 == TableOf(before)
    ensures t == TableOf(before + PagePatterns(h, blocks, |blocks|))
  {
    t := t0;
    var j := 0;
    assert before + PagePatterns(h, blocks, 0) == before;
    while j < |blocks|
      invariant 0 <= j <= |blocks|
      invariant t == TableOf(before + PagePatterns(h, blocks, j))
    {
      ghost var seen := before + PagePatterns(h, blocks, j);
      var p := BlockPattern(h, blocks[j]);
      PagePatternsStep(h, blocks, before, j);
      if HeadOrFoot(j, |blocks|) && p.Some? {
        TableOfSnoc(seen, p.value);
        t := Record(t, p.value);
      }
      j := j + 1;
    }
  }

  /** The pattern-table pass of `getAllLinesFeatured`, as the nested page and
      block loops compute it: every key counts exactly its occurrences among
      the counted head and foot patterns, is longer than 8 characters, and
      starts with its first-time flag false. */
  method BuildPatternTable(h: Helpers, pages: seq<Page>) returns (t: PatternTable)
    ensures t == PatternTableOf(h, pages)
    ensures Tallies(t, DocumentPatterns(h, pages, |pages|))
    ensures forall p :: p in t.counts ==> |p| > MinPatternLength
  {
    t := PatternTable(map[], map[]);
    var k := 0;
    while k < |pages|
      invariant 0 <= k <= |pages|
      invariant t == TableOf(DocumentPatterns(h, pages, k))
    {
      t := RecordPage(h, t, pages[k].blocks, DocumentPatterns(h, pages, k));
      k := k + 1;
    }
    TableOfTallies(DocumentPatterns(h, pages, |pages|));
    TableOfKeysLong(h, pages);
  }
}

=== FILE: segmenter_sax.dfy ===
/** `TEIDatacatSegmenterSaxParser`: the handler that turns an annotated
    segmentation training file back into labelled lines. Character data
    accumulates; `lb`, `pb` and `space` elements leave markers in it; the text
    under a zone element (front, body, back, annex, other) is cut at the line
    markers and each line contributes its first token, labelled with the zone.
 */
module SegmenterSax {
  import opened Wrappers
  import opened JavaStrings
  import opened Labels
  import opened SaxLines

  /** What the `lb`, `pb` and `space` start elements append. */
  const LineMarker: string := " +L+ "
  const PageMarker: string := " +PAGE+ "
  const SpaceMarker: string := " "

  /** The line-break pattern `writeData` splits at and the page-break pattern it removes. */
  const LineBreakPattern: string := "+L+"
  const PageBreakPattern: string := "+PAGE+"

  /** The separators of the tokenizer that picks a line's first token: space,
      tab, form feed and no-break space. */
  const TokenSeparators: set<char> := {' ', '\t', '\U{000C}', '\U{00A0}'}

  /** The element names whose text `writeData` labels. */
  const ZoneNames: set<string> := {"front", "body", "back", "annex", "other"}

  /** The labels a zone's text can receive. */
  const ZoneLabels: set<string> := {FrontMatterLabel, BodyLabel, BackMatterLabel, AnnexLabel, OtherLabel}

  /** The names an upper zone can have: the zones whose start sets `upperQname`. */
  const UpperNames: set<string> := {"front", "body", "annex"}

  datatype SegmenterSaxState = SegmenterSaxState(
    accumulator: string,
    currentTag: Option<string>,
    upperQname: Option<string>,
    upperTag: Option<string>,
    labeled: seq<LabeledLine>)

  const InitialSegmenterSax: SegmenterSaxState := SegmenterSaxState("", None, None, None, [])

  // ---------------------------------------------------------------------------
  // writeData

  /** The text `writeData` segments: trimmed, carriage returns and line feeds
      turned into spaces, then one pass halving double spaces. */
  function CleanText(acc: string): string {
    Replace(Replace(Replace(Trim(acc), "\n", " "), "\r", " "), "  ", " ")
  }

  /** The `+L+` segments of the accumulated text. */
  function Segments(acc: string): seq<string> {
    SplitOn(CleanText(acc), LineBreakPattern)
  }

  /** The token a segment contributes: the first separator-delimited token of
      the trimmed segment once page markers are removed, if there is one. */
  function SegmentToken(segment: string): (r: Option<string>)
    ensures r.Some? ==> |r.value| > 0 && NoneOf(r.value, TokenSeparators)
    ensures |Trim(segment)| == 0 ==> r.None?
  {
    var line := Trim(segment);
    if |line| == 0 || line == "\n" || line == "\r" then None
    else
      var unpaged := if Contains(line, PageBreakPattern) then Replace(line, PageBreakPattern, "") else line;
      var ts := Tokens(unpaged, TokenSeparators);
      if |ts| == 0 then None else Some(ts[0])
  }

  /** The tokens of the segments that contribute one, in order. */
  function SegmentTokens(segments: seq<string>): seq<string> {
    if |segments| == 0 then []
    else
      var rest := SegmentTokens(segments[1..]);
      match SegmentToken(segments[0])
      case None => rest
      case Some(tok) => [tok] + rest
  }

  /** The loop of `writeData` over the segments: a null surface tag becomes
      `<other>` at the first token, and `begin` is cleared by the first line
      written with the begin marker. */
  function EmitSegments(segments: seq<string>, begin: bool, surfaceTag: Option<string>): seq<LabeledLine> {
    if |segments| == 0 then []
    else
      match SegmentToken(segments[0])
      case None => EmitSegments(segments[1..], begin, surfaceTag)
      case Some(tok) =>
        var tag := surfaceTag.GetOr(OtherLabel);
        var prefixed := begin && tag != OtherLabel;
        [LabeledLine(tok, tag, prefixed)] + EmitSegments(segments[1..], begin && !prefixed, Some(tag))
  }

  /** The loop writes one line per contributing segment, in order, all under
      the same tag (`<other>` for a null one); only the first carries the begin
      marker, and only when the loop starts with `begin` set and the tag is not
      `<other>`. */
  lemma {:induction false} EmitSegmentsSpec(segments: seq<string>, begin: bool, surfaceTag: Option<string>)
    ensures var out := EmitSegments(segments, begin, surfaceTag);
      var toks := SegmentTokens(segments);
      var tag := surfaceTag.GetOr(OtherLabel);
      && |out| == |toks| <= |segments|
      && forall k :: 0 <= k < |out| ==>
           out[k] == LabeledLine(toks[k], tag, begin && k == 0 && tag != OtherLabel)
    decreases |segments|
  {
    if |segments| > 0 {
      match SegmentToken(segments[0])
      case None =>
        EmitSegmentsSpec(segments[1..], begin, surfaceTag);
      case Some(tok) =>
        var tag := surfaceTag.GetOr(OtherLabel);
        var prefixed := begin && tag != OtherLabel;
        EmitSegmentsSpec(segments[1..], begin && !prefixed, Some(tag));
        var out := EmitSegments(segments, begin, surfaceTag);
        var rest := EmitSegments(segments[1..], begin && !prefixed, Some(tag));
        assert out == [LabeledLine(tok, tag, prefixed)] + rest;
        forall k | 1 <= k < |out|
          ensures out[k] == LabeledLine(SegmentTokens(segments)[k], tag, false)
        {
          assert out[k] == rest[k - 1];
        }
    }
  }

  /** `writeData(qName, surfaceTag)`: a null name is read as `other` with the
      tag `<other>`; only the five zone names write anything, and only they
      clear the accumulator. */
  function WriteData(st: SegmenterSaxState, qName: Option<string>, surfaceTag: Option<string>): (r: SegmenterSaxState)
    ensures qName.GetOr("other") !in ZoneNames ==> r == st
    ensures qName.GetOr("other") in ZoneNames ==>
      && r.accumulator == ""
      && r.currentTag == st.currentTag && r.upperQname == st.upperQname && r.upperTag == st.upperTag
      && |r.labeled| >= |st.labeled| && r.labeled[..|st.labeled|] == st.labeled
  {
    var q := qName.GetOr("other");
    var tag := if qName.None? then Some(OtherLabel) else surfaceTag;
    if q !in ZoneNames then st
    else st.(accumulator := "", labeled := st.labeled + EmitSegments(Segments(st.accumulator), true, tag))
  }

  /** What one `writeData` call appends, for a zone name: one line per `+L+`
      segment that has a token, carrying that token and the surface tag (or
      `<other>`, also for a null name), the first one with the begin marker
      unless the tag is `<other>`. */
  lemma WriteDataLines(st: SegmenterSaxState, qName: Option<string>, surfaceTag: Option<string>)
    requires qName.GetOr("other") in ZoneNames
    ensures var r := WriteData(st, qName, surfaceTag);
      var added := r.labeled[|st.labeled|..];
      var toks := SegmentTokens(Segments(st.accumulator));
      var tag := if qName.None? then OtherLabel else surfaceTag.GetOr(OtherLabel);
      && |added| == |toks| <= |Segments(st.accumulator)|
      && forall k :: 0 <= k < |added| ==> added[k] == LabeledLine(toks[k], tag, k == 0 && tag != OtherLabel)
  {
    var tag := if qName.None? then Some(OtherLabel) else surfaceTag;
    EmitSegmentsSpec(Segments(st.accumulator), true, tag);
    var r := WriteData(st, qName, surfaceTag);
    assert r.labeled[|st.labeled|..] == EmitSegments(Segments(st.accumulator), true, tag);
  }

  // ---------------------------------------------------------------------------
  // The events

  /** `characters`. */
  function OnCharacters(st: SegmenterSaxState, text: string): SegmenterSaxState {
    st.(accumulator := st.accumulator + text)
  }

  /** The marker a start element appends, for `lb`, `pb` and `space`. */
  function MarkerOf(name: string): Option<string> {
    if name == "lb" then Some(LineMarker)
    else if name == "pb" then Some(PageMarker)
    else if name == "space" then Some(SpaceMarker)
    else None
  }

  /** The text accumulated so far, written under the upper zone when it is
      not blank. */
  function Flush(st: SegmenterSaxState): SegmenterSaxState {
    if |Trim(st.accumulator)| > 0 then WriteData(st, st.upperQname, st.upperTag) else st
  }

  /** The tags a start element sets: each zone element sets the current tag to
      its own label, front and body also become the upper zone, annex only the
      upper name. */
  function EnterZone(st: SegmenterSaxState, name: string): (r: SegmenterSaxState)
    ensures r.labeled == st.labeled && r.accumulator == st.accumulator
    ensures r.currentTag == (if name in ZoneNames then Some("<" + name + ">") else st.currentTag)
    ensures r.upperTag == (if name == "front" || name == "body" then Some("<" + name + ">") else st.upperTag)
    ensures r.upperQname == (if name in UpperNames then Some(name) else st.upperQname)
  {
    if name == "front" then
      assert "<" + name + ">" == FrontMatterLabel;
      st.(currentTag := Some(FrontMatterLabel), upperTag := Some(FrontMatterLabel), upperQname := Some("front"))
    else if name == "body" then
      assert "<" + name + ">" == BodyLabel;
      st.(currentTag := Some(BodyLabel), upperTag := Some(BodyLabel), upperQname := Some("body"))
    else if name == "back" then
      assert "<" + name + ">" == BackMatterLabel;
      st.(currentTag := Some(BackMatterLabel))
    else if name == "other" then
      assert "<" + name + ">" == OtherLabel;
      st.(currentTag := Some(OtherLabel))
    else if name == "annex" then
      assert "<" + name + ">" == AnnexLabel;
      st.(currentTag := Some(AnnexLabel), upperQname := Some("annex"))
    else st
  }

  /** `startElement`: a marker element only appends its marker; any other one
      first writes non-blank accumulated text under the upper zone, then sets
      the tags. */
  function OnStart(st: SegmenterSaxState, name: string): (r: SegmenterSaxState)
    ensures MarkerOf(name).Some? ==> r == st.(accumulator := st.accumulator + MarkerOf(name).value)
    ensures MarkerOf(name).None? ==> r == EnterZone(Flush(st), name)
  {
    match MarkerOf(name)
    case Some(marker) => st.(accumulator := st.accumulator + marker)
    case None => EnterZone(Flush(st), name)
  }

  /** `endElement`: every element but `lb` and `pb` writes the text under its
      own name and the current tag, which writes only for a zone; ending a
      zone also resets the current and upper tags. Ending anything else
      changes nothing. */
  function OnEnd(st: SegmenterSaxState, name: string): (r: SegmenterSaxState)
    ensures name !in ZoneNames ==> r == st
    ensures name in ZoneNames ==>
      && r.accumulator == "" && r.currentTag.None? && r.upperTag.None? && r.upperQname == st.upperQname
      && r.labeled == WriteData(st, Some(name), st.currentTag).labeled
  {
    var written := if name != "lb" && name != "pb" then WriteData(st, Some(name), st.currentTag) else st;
    if name in ZoneNames then written.(currentTag := None, upperTag := None) else written
  }

  function Handle(st: SegmenterSaxState, e: Event): SegmenterSaxState {
    match e
    case StartElement(name) => OnStart(st, name)
    case EndElement(name) => OnEnd(st, name)
    case Characters(text) => OnCharacters(st, text)
  }

  function Run(events: seq<Event>): SegmenterSaxState {
    if |events| == 0 then InitialSegmenterSax else Handle(Run(events[..|events| - 1]), events[|events| - 1])
  }

  /** `getLabeledResult()` after the events. */
  function LabeledResult(events: seq<Event>): seq<string> {
    LabeledText(Run(events).labeled)
  }

  // ---------------------------------------------------------------------------
  // What holds over every event stream

  /** A well-formed labelled line of this handler: a non-empty token without
      separators, a zone label, and the begin marker never on `<other>`. */
  predicate GoodLine(l: LabeledLine) {
    && |l.token| > 0 && NoneOf(l.token, TokenSeparators)
    && l.tag in ZoneLabels
    && (l.begin ==> l.tag != OtherLabel)
  }

  predicate Inv(st: SegmenterSaxState) {
    && (st.currentTag.Some? ==> st.currentTag.value in ZoneLabels)
    && (st.upperTag.Some? ==> st.upperTag.value in ZoneLabels)
    && (st.upperQname.Some? ==> st.upperQname.value in UpperNames)
    && forall k :: 0 <= k < |st.labeled| ==> GoodLine(st.labeled[k])
  }

  lemma WriteDataKeeps(st: SegmenterSaxState, qName: Option<string>, surfaceTag: Option<string>)
    requires Inv(st)
    requires surfaceTag.Some? ==> surfaceTag.value in ZoneLabels
    ensures Inv(WriteData(st, qName, surfaceTag))
  {
    if qName.GetOr("other") in ZoneNames {
      WriteDataLines(st, qName, surfaceTag);
      SurfaceTagIsZone(qName, surfaceTag);
      var r := WriteData(st, qName, surfaceTag);
      var tag := if qName.None? then OtherLabel else surfaceTag.GetOr(OtherLabel);
      AppendedGood(st.labeled, r.labeled, Segments(st.accumulator), tag);
    }
  }

  /** Well-formed lines followed by the lines written for segment tokens
      under a zone tag are well formed. */
  lemma AppendedGood(before: seq<LabeledLine>, after: seq<LabeledLine>, segments: seq<string>, tag: string)
    requires forall k :: 0 <= k < |before| ==> GoodLine(before[k])
    requires |after| >= |before| && after[..|before|] == before
    requires tag in ZoneLabels
    requires var added := after[|before|..]; var toks := SegmentTokens(segments);
      && |added| == |toks|
      && forall k :: 0 <= k < |added| ==> added[k] == LabeledLine(toks[k], tag, k == 0 && tag != OtherLabel)
    ensures forall k :: 0 <= k < |after| ==> GoodLine(after[k])
  {
    var n := |before|;
    forall k | 0 <= k < |after| ensures GoodLine(after[k]) {
      if k >= n {
        assert after[k] == after[n..][k - n];
        AddedLineGood(segments, tag, k - n);
      } else {
        assert after[k] == after[..n][k];
      }
    }
  }

  lemma SurfaceTagIsZone(qName: Option<string>, surfaceTag: Option<string>)
    requires surfaceTag.Some? ==> surfaceTag.value in ZoneLabels
    ensures (if qName.None? then OtherLabel else surfaceTag.GetOr(OtherLabel)) in ZoneLabels
  {
  }

  /** A line written for segment token `j` under a zone tag is well formed. */
  lemma AddedLineGood(segments: seq<string>, tag: string, j: nat)
    requires tag in ZoneLabels && j < |SegmentTokens(segments)|
    ensures GoodLine(LabeledLine(SegmentTokens(segments)[j], tag, j == 0 && tag != OtherLabel))
  {
    SegmentTokensGood(segments, j);
  }

  lemma {:induction false} SegmentTokensGood(segments: seq<string>, k: nat)
    requires k < |SegmentTokens(segments)|
    ensures |SegmentTokens(segments)[k]| > 0 && NoneOf(SegmentTokens(segments)[k], TokenSeparators)
    decreases |segments|
  {
    var rest := SegmentTokens(segments[1..]);
    match SegmentToken(segments[0])
    case None => SegmentTokensGood(segments[1..], k);
    case Some(tok) => if k > 0 { SegmentTokensGood(segments[1..], k - 1); }
  }

  lemma FlushKeeps(st: SegmenterSaxState)
    requires Inv(st)
    ensures Inv(Flush(st))
  {
    if |Trim(st.accumulator)| > 0 {
      WriteDataKeeps(st, st.upperQname, st.upperTag);
    }
  }

  lemma EnterZoneKeeps(st: SegmenterSaxState, name: string)
    requires Inv(st)
    ensures Inv(EnterZone(st, name))
  {
    var r := EnterZone(st, name);
    if name in ZoneNames {
      assert "<" + name + ">" in ZoneLabels by {
        if name == "front" { assert "<" + name + ">" == FrontMatterLabel; }
        else if name == "body" { assert "<" + name + ">" == BodyLabel; }
        else if name == "back" { assert "<" + name + ">" == BackMatterLabel; }
        else if name == "annex" { assert "<" + name + ">" == AnnexLabel; }
        else { assert "<" + name + ">" == OtherLabel; }
      }
    }
    assert r.labeled == st.labeled;
  }

  lemma HandleKeeps(st: SegmenterSaxState, e: Event)
    requires Inv(st)
    ensures Inv(Handle(st, e))
  {
    match e
    case StartElement(name) =>
      if MarkerOf(name).None? {
        FlushKeeps(st);
        EnterZoneKeeps(Flush(st), name);
      }
    case EndElement(name) =>
      if name != "lb" && name != "pb" {
        WriteDataKeeps(st, Some(name), st.currentTag);
      }
    case Characters(_) =>
  }

  /** Over any event stream, every labelled line carries a non-empty
      separator-free token and one of the five zone labels, and the begin
      marker never goes with `<other>`. */
  lemma {:induction false} RunLinesGood(events: seq<Event>)
    ensures Inv(Run(events))
    ensures forall k :: 0 <= k < |Run(events).labeled| ==> GoodLine(Run(events).labeled[k])
    decreases |events|
  {
    if |events| > 0 {
      RunLinesGood(events[..|events| - 1]);
      HandleKeeps(Run(events[..|events| - 1]), events[|events| - 1]);
    }
  }

  /** Text never carries across a start element other than the markers: in
      every reachable state, such a start leaves only blank text behind. */
  lemma StartLeavesBlank(st: SegmenterSaxState, name: string)
    requires Inv(st)
    requires MarkerOf(name).None?
    ensures |Trim(OnStart(st, name).accumulator)| == 0
  {
  }
}

=== FILE: segmenter_streams.dfy ===
/** What the segmenter's line encoder promises about the whole stream of
    records it creates and writes: the font and size statuses compare each
    record with the one created before it, the block and page statuses follow
    the block and page structure, repeated head and foot patterns are marked
    with at most one first occurrence each, and the written stream is the
    created one with a one-record lag.
 */
module SegmenterStreams {
  import opened Wrappers
  import opened JavaStrings
  import opened Statuses
  import opened Layout
  import opened Lexicon
  import opened LookBehind
  import opened FontTracking
  import opened SegmenterPatterns
  import opened SegmenterEncoder
  import opened SegmenterCoverage

  /** As created, the first record of each page is PAGESTART and every other
      one PAGEIN. */
  ghost predicate PageStatusAt(cs: seq<LineFeatures>, os: seq<LineOrigin>, i: nat)
    requires |cs| == |os| && i < |cs|
  {
    && cs[i].pageStatus != PageEnd
    && (cs[i].pageStatus == PageStart <==> i == 0 || os[i - 1].page != os[i].page)
  }

  /** BLOCKSTART exactly for a block's first line or after a BLOCKEND;
      otherwise BLOCKEND exactly for its last line. */
  ghost predicate BlockStatusAt(cs: seq<LineFeatures>, os: seq<LineOrigin>, i: nat)
    requires |cs| == |os| && i < |cs|
  {
    && (cs[i].blockStatus == BlockStart <==> os[i].line == 0 || (i > 0 && cs[i - 1].blockStatus == BlockEnd))
    && (cs[i].blockStatus == BlockEnd <==> cs[i].blockStatus != BlockStart && os[i].line + 1 == os[i].lineCount)
  }

  /** A record is repetitive exactly when its block is a head or foot block
      and its line's pattern was counted more than once; only a repetitive
      record can be a first occurrence. */
  ghost predicate RepetitionAt(h: Helpers, counts: map<string, int>, cs: seq<LineFeatures>, os: seq<LineOrigin>, i: nat)
    requires |cs| == |os| && i < |cs|
  {
    && os[i].pattern == h.getPattern(cs[i].line)
    && (cs[i].repetitivePattern <==>
          HeadOrFoot(os[i].block, os[i].blockCount) && os[i].pattern in counts && counts[os[i].pattern] > 1)
    && (cs[i].firstRepetitivePattern ==> cs[i].repetitivePattern)
  }

  /** No record marked as a first occurrence has a repetitive record with the
      same pattern before it. */
  ghost predicate FirstOccurrencesFirst(cs: seq<LineFeatures>, os: seq<LineOrigin>)
    requires |cs| == |os|
  {
    forall i: nat, j: nat :: i < j < |cs| && cs[i].repetitivePattern && cs[j].firstRepetitivePattern ==>
      os[i].pattern != os[j].pattern
  }

  /** Once a repetitive line of a pattern was seen, the pattern's first-time flag is set. */
  ghost predicate FlagsConsumed(cs: seq<LineFeatures>, os: seq<LineOrigin>, firstTime: map<string, bool>)
    requires |cs| == |os|
  {
    forall i: nat :: i < |cs| && cs[i].repetitivePattern && os[i].pattern in firstTime ==> firstTime[os[i].pattern]
  }

  /** The encoder's invariant. */
  ghost predicate Inv(h: Helpers, counts: map<string, int>, st: EncoderState) {
    && |st.created| == |st.origins|
    && st.buffer == PushAll(st.created, PageEndPatch)
    && st.font == TrackedFont(st.created, FontOf)
    && st.fontSize == TrackedSize(st.created, SizeOf)
    && FontStatusesFollow(st.created, FontOf, FontStatusOf)
    && SizeStatusesFollow(st.created, SizeOf, SizeStatusOf)
    && (forall i: nat :: i < |st.origins| ==> st.origins[i].page <= st.page)
    && (!st.newPage ==> |st.origins| > 0 && st.origins[|st.origins| - 1].page == st.page)
    && (st.newPage ==> |st.origins| == 0 || st.origins[|st.origins| - 1].page < st.page)
    && (forall i: nat :: i < |st.created| ==> PageStatusAt(st.created, st.origins, i))
    && (forall i: nat :: i < |st.created| ==> BlockStatusAt(st.created, st.origins, i))
    && (forall i: nat :: i < |st.created| ==> RepetitionAt(h, counts, st.created, st.origins, i))
    && FirstOccurrencesFirst(st.created, st.origins)
    && FlagsConsumed(st.created, st.origins, st.firstTime)
  }

  /** Setting first-time flags keeps the invariant. */
  lemma FlagsSetKeep(h: Helpers, counts: map<string, int>, st: EncoderState, firstTime: map<string, bool>)
    requires Inv(h, counts, st)
    requires firstTime.Keys == st.firstTime.Keys
    requires forall q :: q in st.firstTime && st.firstTime[q] ==> firstTime[q]
    ensures Inv(h, counts, st.(firstTime := firstTime))
  {
  }

  lemma PageStatusesExtend(cs: seq<LineFeatures>, os: seq<LineOrigin>, r: LineFeatures, o: LineOrigin)
    requires |cs| == |os|
    requires forall i: nat :: i < |cs| ==> PageStatusAt(cs, os, i)
    requires r.pageStatus != PageEnd
    requires r.pageStatus == PageStart <==> |os| == 0 || os[|os| - 1].page != o.page
    ensures forall i: nat :: i < |cs| + 1 ==> PageStatusAt(cs + [r], os + [o], i)
  {
    var cs', os' := cs + [r], os + [o];
    forall i: nat | i < |cs'| ensures PageStatusAt(cs', os', i) {
      if i < |cs| {
        assert PageStatusAt(cs, os, i);
        assert cs'[i] == cs[i] && os'[i] == os[i];
        if i > 0 { assert os'[i - 1] == os[i - 1]; }
      } else {
        assert cs'[i] == r && os'[i] == o;
        if i > 0 { assert os'[i - 1] == os[|os| - 1]; }
      }
    }
  }

  lemma BlockStatusesExtend(cs: seq<LineFeatures>, os: seq<LineOrigin>, r: LineFeatures, o: LineOrigin)
    requires |cs| == |os|
    requires forall i: nat :: i < |cs| ==> BlockStatusAt(cs, os, i)
    requires o.line < o.lineCount
    requires r.blockStatus == BlockStatusOf(o.line, o.lineCount, cs)
    ensures forall i: nat :: i < |cs| + 1 ==> BlockStatusAt(cs + [r], os + [o], i)
  {
    var cs', os' := cs + [r], os + [o];
    forall i: nat | i < |cs'| ensures BlockStatusAt(cs', os', i) {
      if i < |cs| {
        assert BlockStatusAt(cs, os, i);
        assert cs'[i] == cs[i] && os'[i] == os[i];
        if i > 0 { assert cs'[i - 1] == cs[i - 1]; }
      } else {
        assert cs'[i] == r && os'[i] == o;
        if i > 0 { assert cs'[i - 1] == cs[|cs| - 1]; }
      }
    }
  }

  lemma RepetitionsExtend(h: Helpers, counts: map<string, int>, cs: seq<LineFeatures>, os: seq<LineOrigin>,
                          r: LineFeatures, o: LineOrigin)
    requires |cs| == |os|
    requires forall i: nat :: i < |cs| ==> RepetitionAt(h, counts, cs, os, i)
    requires RepetitionAt(h, counts, [r], [o], 0)
    ensures forall i: nat :: i < |cs| + 1 ==> RepetitionAt(h, counts, cs + [r], os + [o], i)
  {
    var cs', os' := cs + [r], os + [o];
    forall i: nat | i < |cs'| ensures RepetitionAt(h, counts, cs', os', i) {
      if i < |cs| {
        assert RepetitionAt(h, counts, cs, os, i);
        assert cs'[i] == cs[i] && os'[i] == os[i];
      } else {
        assert cs'[i] == r && os'[i] == o;
      }
    }
  }

  lemma FirstOccurrencesExtend(cs: seq<LineFeatures>, os: seq<LineOrigin>, r: LineFeatures, o: LineOrigin,
                               firstTime: map<string, bool>)
    requires |cs| == |os|
    requires FirstOccurrencesFirst(cs, os)
    requires FlagsConsumed(cs, os, firstTime)
    requires r.firstRepetitivePattern ==> o.pattern in firstTime && !firstTime[o.pattern]
    ensures FirstOccurrencesFirst(cs + [r], os + [o])
  {
    var cs', os' := cs + [r], os + [o];
    forall i: nat, j: nat | i < j < |cs'| && cs'[i].repetitivePattern && cs'[j].firstRepetitivePattern
      ensures os'[i].pattern != os'[j].pattern
    {
      assert cs'[i] == cs[i] && os'[i] == os[i];
      if j < |cs| {
        assert cs'[j] == cs[j] && os'[j] == os[j];
      } else {
        assert cs'[j] == r && os'[j] == o;
      }
    }
  }

  lemma FlagsConsumedExtend(cs: seq<LineFeatures>, os: seq<LineOrigin>, r: LineFeatures, o: LineOrigin,
                            firstTime: map<string, bool>)
    requires |cs| == |os|
    requires FlagsConsumed(cs, os, firstTime)
    requires r.repetitivePattern && o.pattern in firstTime ==> firstTime[o.pattern]
    ensures FlagsConsumed(cs + [r], os + [o], firstTime)
  {
    var cs', os' := cs + [r], os + [o];
    forall i: nat | i < |cs'| && cs'[i].repetitivePattern && os'[i].pattern in firstTime
      ensures firstTime[os'[i].pattern]
    {
      if i < |cs| {
        assert cs'[i] == cs[i] && os'[i] == os[i];
      }
    }
  }

  /** Creating a record that was classified against the current state keeps the invariant. */
  lemma EmitKeeps(h: Helpers, counts: map<string, int>, st: EncoderState, old_firstTime: map<string, bool>,
                  r: LineFeatures, o: LineOrigin, font: Option<string>, size: int)
    requires Inv(h, counts, st.(firstTime := old_firstTime))
    requires st.firstTime.Keys == old_firstTime.Keys
    requires forall q :: q in old_firstTime && old_firstTime[q] ==> st.firstTime[q]
    requires r.repetitivePattern && o.pattern in st.firstTime ==> st.firstTime[o.pattern]
    requires r.firstRepetitivePattern ==> o.pattern in old_firstTime && !old_firstTime[o.pattern]
    requires (r.fontStatus, font) == FontStep(st.font, FontOf(r))
    requires (r.fontSize, size) == SizeStep(st.fontSize, SizeOf(r))
    requires r.pageStatus == (if st.newPage then PageStart else PageIn)
    requires o.page == st.page && o.line < o.lineCount
    requires r.blockStatus == BlockStatusOf(o.line, o.lineCount, st.created)
    requires RepetitionAt(h, counts, [r], [o], 0)
    ensures Inv(h, counts, Emit(st, r, o, font, size))
  {
    var cs, os := st.created, st.origins;
    var st' := Emit(st, r, o, font, size);
    assert st'.created == cs + [r] && st'.origins == os + [o];
    PushAllSnoc(cs, r, PageEndPatch);
    FontStatusExtends(cs, FontOf, FontStatusOf, r);
    SizeStatusExtends(cs, SizeOf, SizeStatusOf, r);
    PageStatusesExtend(cs, os, r, o);
    BlockStatusesExtend(cs, os, r, o);
    RepetitionsExtend(h, counts, cs, os, r, o);
    FirstOccurrencesExtend(cs, os, r, o, old_firstTime);
    assert FlagsConsumed(cs, os, st.firstTime);
    FlagsConsumedExtend(cs, os, r, o, st.firstTime);
    assert forall i: nat :: i < |os| ==> (os + [o])[i] == os[i];
  }

  /** The record a line creates keeps the invariant. */
  lemma LineRecordKeeps(h: Helpers, counts: map<string, int>, ctx: BlockContext, li: nat, st: EncoderState,
                        words: seq<string>, text: string)
    requires li < |ctx.lines| && |text| > 0
    requires Inv(h, counts, st)
    ensures var line := ctx.lines[li];
      var (repetitive, firstRepetitive, firstTime) := RepetitionOf(h, counts, ctx, line, st.firstTime);
      var st1 := st.(firstTime := firstTime);
      Inv(h, counts, Emit(st1, LineRecord(h, ctx, li, st1, line, words, text, repetitive, firstRepetitive),
                          LineOrigin(st1.page, ctx.block, ctx.blockCount, li, |ctx.lines|, h.getPattern(line)),
                          FontStep(st1.font, ctx.token.font).1,
                          SizeStep(st1.fontSize, TruncateToInt(ctx.token.fontSize)).1))
  {
    var line := ctx.lines[li];
    var (repetitive, firstRepetitive, firstTime) := RepetitionOf(h, counts, ctx, line, st.firstTime);
    var st1 := st.(firstTime := firstTime);
    var r := LineRecord(h, ctx, li, st1, line, words, text, repetitive, firstRepetitive);
    var o := LineOrigin(st1.page, ctx.block, ctx.blockCount, li, |ctx.lines|, h.getPattern(line));
    assert st1.(firstTime := st.firstTime) == st;
    EmitKeeps(h, counts, st1, st.firstTime, r, o, FontStep(st1.font, ctx.token.font).1,
              SizeStep(st1.fontSize, TruncateToInt(ctx.token.fontSize)).1);
  }

  /** One line keeps the invariant, and only ever appends to the trace. */
  lemma EncodeLineKeeps(h: Helpers, counts: map<string, int>, ctx: BlockContext, li: nat, st: EncoderState)
    requires li < |ctx.lines|
    requires Inv(h, counts, st)
    ensures var st' := EncodeLine(h, counts, ctx, li, st);
      && Inv(h, counts, st')
      && st'.page == st.page
      && |st.created| <= |st'.created|
      && st'.created[..|st.created|] == st.created
      && st'.origins[..|st.origins|] == st.origins
  {
    var line := ctx.lines[li];
    var (repetitive, firstRepetitive, firstTime) := RepetitionOf(h, counts, ctx, line, st.firstTime);
    FlagsSetKeep(h, counts, st, firstTime);
    var words := Tokens(line, WordSeparators);
    if |words| > 0 {
      var text := Trim(RemoveChars(words[0], SpaceOrNewline));
      if !(|text| == 0 || h.filterLine(Some(line))) {
        LineRecordKeeps(h, counts, ctx, li, st, words, text);
      }
    }
  }

  lemma {:induction false} EncodeLinesKeep(h: Helpers, counts: map<string, int>, ctx: BlockContext, li: nat, st: EncoderState)
    requires li <= |ctx.lines|
    requires Inv(h, counts, st)
    ensures Inv(h, counts, EncodeLines(h, counts, ctx, li, st))
    ensures EncodeLines(h, counts, ctx, li, st).page == st.page
    decreases |ctx.lines| - li
  {
    if li < |ctx.lines| {
      EncodeLineKeeps(h, counts, ctx, li, st);
      EncodeLinesKeep(h, counts, ctx, li + 1, EncodeLine(h, counts, ctx, li, st));
    }
  }

  lemma EncodeBlockKeeps(h: Helpers, doc: Document, counts: map<string, int>, page: Page, bi: nat,
                         st: EncoderState, lowestPos: real)
    requires bi < |page.blocks|
    requires Inv(h, counts, st)
    ensures Inv(h, counts, EncodeBlock(h, doc, counts, page, bi, st, lowestPos).0)
    ensures EncodeBlock(h, doc, counts, page, bi, st, lowestPos).0.page == st.page
  {
    var ctx := BlockContextOf(h, doc, page, bi, lowestPos);
    EncodeBlockState(h, doc, counts, page, bi, st, lowestPos);
    if ctx.Some? {
      var st' := EncodeLines(h, counts, ctx.value, 0, st);
      EncodeLinesKeep(h, counts, ctx.value, 0, st);
      var n := |page.blocks[bi].tokens.value|;
      CountersKeep(h, counts, st', st'.mm + n, st'.nn + n);
    }
  }

  /** The state after a block: unchanged for a skipped block, otherwise its
      lines encoded and the counters advanced by its token count. */
  lemma EncodeBlockState(h: Helpers, doc: Document, counts: map<string, int>, page: Page, bi: nat,
                         st: EncoderState, lowestPos: real)
    requires bi < |page.blocks|
    ensures var ctx := BlockContextOf(h, doc, page, bi, lowestPos);
      EncodeBlock(h, doc, counts, page, bi, st, lowestPos).0 ==
        if ctx.None? then st
        else
          var st' := EncodeLines(h, counts, ctx.value, 0, st);
          var n := |page.blocks[bi].tokens.value|;
          st'.(mm := st'.mm + n, nn := st'.nn + n)
  {
  }

  /** The position counters play no part in the invariant. */
  lemma CountersKeep(h: Helpers, counts: map<string, int>, st: EncoderState, mm: int, nn: int)
    requires Inv(h, counts, st)
    ensures Inv(h, counts, st.(mm := mm, nn := nn))
  {
  }

  lemma {:induction false} EncodeBlocksKeep(h: Helpers, doc: Document, counts: map<string, int>, page: Page, bi: nat,
                                            st: EncoderState, lowestPos: real)
    requires bi <= |page.blocks|
    requires Inv(h, counts, st)
    ensures Inv(h, counts, EncodeBlocks(h, doc, counts, page, bi, st, lowestPos))
    ensures EncodeBlocks(h, doc, counts, page, bi, st, lowestPos).page == st.page
    decreases |page.blocks| - bi
  {
    if bi < |page.blocks| {
      var (st', lowest') := EncodeBlock(h, doc, counts, page, bi, st, lowestPos);
      EncodeBlockKeeps(h, doc, counts, page, bi, st, lowestPos);
      EncodeBlocksKeep(h, doc, counts, page, bi + 1, st', lowest');
    }
  }

  lemma {:induction false} EncodePagesKeep(h: Helpers, doc: Document, counts: map<string, int>, pi: nat, st: EncoderState)
    requires pi <= |doc.pages|
    requires Inv(h, counts, st)
    requires forall i: nat :: i < |st.origins| ==> st.origins[i].page < pi
    ensures Inv(h, counts, EncodePages(h, doc, counts, pi, st))
    decreases |doc.pages| - pi
  {
    if pi < |doc.pages| {
      var st1 := st.(newPage := true, mm := 0, page := pi);
      assert Inv(h, counts, st1);
      EncodeBlocksKeep(h, doc, counts, doc.pages[pi], 0, st1, 0.0);
      var st2 := EncodeBlocks(h, doc, counts, doc.pages[pi], 0, st1, 0.0);
      EncodePagesKeep(h, doc, counts, pi + 1, st2);
    }
  }

  /** The invariant holds at the end of the walk. */
  lemma EncodeDocumentInv(h: Helpers, doc: Document, table: PatternTable)
    ensures Inv(h, table.counts, EncodeDocument(h, doc, table))
  {
    EncodePagesKeep(h, doc, table.counts, 0, InitialState(table.firstTime));
  }

  /** The created records of the whole document: one per line of the
      reference walk, in document order, with the line's own text, first
      word and block token; font and size statuses
      compare each record with the one created before it; block statuses
      follow the lines of each block; a record is repetitive exactly when it
      comes from a head or foot block and its pattern was counted more than
      once; and no two records are marked as the first occurrence of the same
      pattern. */
  lemma CreatedStream(h: Helpers, doc: Document, table: PatternTable)
    ensures var st := EncodeDocument(h, doc, table);
      var cs := st.created;
      var os := st.origins;
      && |cs| == |os|
      && TraceOf(cs, os) == DocumentLines(h, doc)
      && FontStatusesFollow(cs, FontOf, FontStatusOf)
      && SizeStatusesFollow(cs, SizeOf, SizeStatusOf)
      && (forall i: nat :: i < |cs| ==> BlockStatusAt(cs, os, i))
      && (forall i: nat :: i < |cs| ==> RepetitionAt(h, table.counts, cs, os, i))
      && (forall i: nat, j: nat :: i < j < |cs| && cs[i].firstRepetitivePattern && cs[j].firstRepetitivePattern ==>
            os[i].pattern != os[j].pattern)
  {
    EncodeDocumentInv(h, doc, table);
    EncodeDocumentTrace(h, doc, table);
    var st := EncodeDocument(h, doc, table);
    var cs, os := st.created, st.origins;
    forall i: nat, j: nat | i < j < |cs| && cs[i].firstRepetitivePattern && cs[j].firstRepetitivePattern
      ensures os[i].pattern != os[j].pattern
    {
      assert RepetitionAt(h, table.counts, cs, os, i);
    }
  }

  /** Written record `i`: the created record with only its page status
      changed, PAGEEND exactly when the next record starts a new page, PAGESTART
      exactly when it starts one and the next does not. */
  ghost predicate WrittenPageAt(cs: seq<LineFeatures>, os: seq<LineOrigin>, out: seq<LineFeatures>, i: nat)
    requires |cs| == |os| == |out| && i < |out|
  {
    && out[i] == cs[i].(pageStatus := out[i].pageStatus)
    && (out[i].pageStatus == PageEnd <==> i + 1 < |out| && os[i + 1].page != os[i].page)
    && (out[i].pageStatus == PageStart <==>
          (i == 0 || os[i - 1].page != os[i].page) && !(i + 1 < |out| && os[i + 1].page != os[i].page))
  }

  /** The page statuses after the one-record lag, for any created stream
      whose page statuses follow its pages. */
  lemma LaggedPageStatuses(cs: seq<LineFeatures>, os: seq<LineOrigin>)
    requires |cs| == |os|
    requires forall i: nat :: i < |cs| ==> PageStatusAt(cs, os, i)
    ensures forall i: nat :: i < |cs| ==> WrittenPageAt(cs, os, Lagged(cs, PageEndPatch), i)
  {
    var out := Lagged(cs, PageEndPatch);
    forall i: nat | i < |cs| ensures WrittenPageAt(cs, os, out, i) {
      assert PageStatusAt(cs, os, i);
      if i + 1 < |cs| {
        assert out[i] == PageEndPatch(cs[i], cs[i + 1]);
        assert PageStatusAt(cs, os, i + 1);
      } else {
        assert out[i] == cs[i];
      }
    }
  }

  /** One-record lag: the written stream is every created record exactly
      once, in creation order; each is written unchanged except for its page
      status, which becomes PAGEEND exactly when the next record starts a new
      page; the first record of a page that is not also its last stays
      PAGESTART, and every other record is PAGEIN. */
  lemma WrittenStream(h: Helpers, doc: Document, table: PatternTable)
    ensures var st := EncodeDocument(h, doc, table);
      var out := FeatureVectors(h, doc, table);
      && |out| == |st.created| == |st.origins|
      && out == Lagged(st.created, PageEndPatch)
      && (forall i: nat :: i < |out| ==> WrittenPageAt(st.created, st.origins, out, i))
  {
    EncodeDocumentInv(h, doc, table);
    var st := EncodeDocument(h, doc, table);
    FlushIsLagged(st.created, PageEndPatch);
    LaggedPageStatuses(st.created, st.origins);
  }
}

=== FILE: segmenter_training.dfy ===
/** The segmenter's training reconstructor (`trainingExtraction`): it walks
    the label stream the sequence labeller returned, one record per non-blank
    line, and for every record fetches the next text line of the document
    through the line cursor, closes the previous zone when the zone changes
    and writes the line, opened by the zone's element when the zone is new.

    The output is built as a sequence of pieces and rendered to text; the
    span structure of the pieces is what the lemmas below are about.
 */
module SegmenterTraining {
  import opened Wrappers
  import opened JavaStrings
  import opened Layout
  import opened Lexicon
  import opened Labels
  import opened SegmenterEncoder
  import opened LineCursor

  /** The zone elements, in the order the reconstructor tries them. */
  const SegmenterFields: seq<string> := [
    "<cover>", "<title>", "<publisher>", "<summary>", "<biography>", "<advertising>",
    "<toc>", "<table>", "<preface>", "<dedication>", "<unit>", "<reference>",
    "<annex>", "<index>", "<glossary>", "<back>", "<other>"]

  /** The zones whose spans end with a closing element: all but `<other>`. */
  const ClosedTags: set<string> := {
    "<cover>", "<title>", "<publisher>", "<summary>", "<biography>", "<advertising>",
    "<toc>", "<table>", "<unit>", "<preface>", "<dedication>", "<reference>",
    "<annex>", "<index>", "<glossary>", "<back>"}

  const BulletMarker: string := "@BULLET"
  const Bullet: char := '\U{2022}'

  /** The three tabs before an opening element. */
  const Indent: string := "\t\t\t"

  /** The units the output is made of. */
  datatype Piece =
    | LineBreak            // "<lb/>" before every record but the first
    | Open(tag: string)    // the indented opening element of a zone
    | Text(line: string)   // one document line, encoded
    | Close(tag: string)   // the closing element of a zone and a blank line
    | Gap                  // the blank line that ends an `<other>` zone

  /** What `testClosingTag` appends for a previous zone `t` once the zone
      changed, one branch per zone in the source's order: the closing element
      and a blank line for the sixteen zones with an element, the blank line
      alone for `<other>`, nothing for any other label. */
  function ClosingText(t: string): string {
    if t == "<cover>" then "</cover>\n\n"
    else if t == "<title>" then "</title>\n\n"
    else if t == "<publisher>" then "</publisher>\n\n"
    else if t == "<summary>" then "</summary>\n\n"
    else if t == "<biography>" then "</biography>\n\n"
    else if t == "<advertising>" then "</advertising>\n\n"
    else if t == "<toc>" then "</toc>\n\n"
    else if t == "<table>" then "</table>\n\n"
    else if t == "<unit>" then "</unit>\n\n"
    else if t == "<preface>" then "</preface>\n\n"
    else if t == "<dedication>" then "</dedication>\n\n"
    else if t == "<reference>" then "</reference>\n\n"
    else if t == "<annex>" then "</annex>\n\n"
    else if t == "<index>" then "</index>\n\n"
    else if t == "<glossary>" then "</glossary>\n\n"
    else if t == "<back>" then "</back>\n\n"
    else if t == "<other>" then "\n\n"
    else ""
  }

  function PieceText(p: Piece): string {
    match p
    case LineBreak => "<lb/>"
    case Open(t) => Indent + t
    case Text(l) => l
    case Close(t) => ClosingText(t)
    case Gap => "\n\n"
  }

  function Render(ps: seq<Piece>): string {
    if |ps| == 0 then "" else Render(ps[..|ps| - 1]) + PieceText(ps[|ps| - 1])
  }

  // ---------------------------------------------------------------------------
  // testClosingTag and writeField

  /** `testClosingTag`: nothing while the zone stays the same; otherwise the
      closing element of the previous zone, a blank line after `<other>`, and
      nothing after a zone without an element. */
  function Closing(current0: string, last0: string): seq<Piece> {
    if current0 == last0 then []
    else if last0 in ClosedTags then [Close(last0)]
    else if last0 == OtherLabel then [Gap]
    else []
  }

  /** The closing element `</x>` of a zone `<x>`, and a blank line. */
  function CloseElement(t: string): string
    requires |t| > 0
  {
    "</" + t[1..] + "\n\n"
  }

  /** Every branch of the chain closes its own zone: `</x>` and a blank line
      after each of the sixteen zones `<x>` with an element, the blank line
      alone after `<other>`, nothing after any other label. */
  lemma ClosingTextShape(t: string)
    ensures ClosingText(t) ==
      if t in ClosedTags then CloseElement(t) else if t == OtherLabel then "\n\n" else ""
  {
    if t in ClosedTags {
      ClosedTagShape(t);
    }
  }

  /** The branches of the sixteen zones with an element, four at a time. */
  lemma ClosedTagShape(t: string)
    requires t in ClosedTags
    ensures ClosingText(t) == CloseElement(t)
  {
    if t == "<cover>" || t == "<title>" || t == "<publisher>" || t == "<summary>" { ShapeCoverToSummary(t); }
    else if t == "<biography>" || t == "<advertising>" || t == "<toc>" || t == "<table>" { ShapeBiographyToTable(t); }
    else if t == "<unit>" || t == "<preface>" || t == "<dedication>" || t == "<reference>" { ShapeUnitToReference(t); }
    else { ShapeAnnexToBack(t); }
  }

  lemma ShapeCoverToSummary(t: string)
    requires t == "<cover>" || t == "<title>" || t == "<publisher>" || t == "<summary>"
    ensures ClosingText(t) == CloseElement(t)
  {
    if t == "<cover>" { assert CloseElement(t) == "</cover>\n\n"; }
    else if t == "<title>" { assert CloseElement(t) == "</title>\n\n"; }
    else if t == "<publisher>" { assert CloseElement(t) == "</publisher>\n\n"; }
    else { assert CloseElement(t) == "</summary>\n\n"; }
  }

  lemma ShapeBiographyToTable(t: string)
    requires t == "<biography>" || t == "<advertising>" || t == "<toc>" || t == "<table>"
    ensures ClosingText(t) == CloseElement(t)
  {
    if t == "<biography>" { assert CloseElement(t) == "</biography>\n\n"; }
    else if t == "<advertising>" { assert CloseElement(t) == "</advertising>\n\n"; }
    else if t == "<toc>" { assert CloseElement(t) == "</toc>\n\n"; }
    else { assert CloseElement(t) == "</table>\n\n"; }
  }

  lemma ShapeUnitToReference(t: string)
    requires t == "<unit>" || t == "<preface>" || t == "<dedication>" || t == "<reference>"
    ensures ClosingText(t) == CloseElement(t)
  {
    if t == "<unit>" { assert CloseElement(t) == "</unit>\n\n"; }
    else if t == "<preface>" { assert CloseElement(t) == "</preface>\n\n"; }
    else if t == "<dedication>" { assert CloseElement(t) == "</dedication>\n\n"; }
    else { assert CloseElement(t) == "</reference>\n\n"; }
  }

  lemma ShapeAnnexToBack(t: string)
    requires t == "<annex>" || t == "<index>" || t == "<glossary>" || t == "<back>"
    ensures ClosingText(t) == CloseElement(t)
  {
    if t == "<annex>" { assert CloseElement(t) == "</annex>\n\n"; }
    else if t == "<index>" { assert CloseElement(t) == "</index>\n\n"; }
    else if t == "<glossary>" { assert CloseElement(t) == "</glossary>\n\n"; }
    else { assert CloseElement(t) == "</back>\n\n"; }
  }

  /** What `testClosingTag` writes, rendered: nothing while the zone stays
      the same; otherwise the source's chain for the previous zone, which is
      `</x>` and a blank line after each zone `<x>` with an element, only the
      blank line after `<other>`, and nothing after any other label. */
  lemma ClosingRenders(current0: string, last0: string)
    ensures Render(Closing(current0, last0)) == if current0 == last0 then "" else ClosingText(last0)
    ensures Render(Closing(current0, last0)) ==
      if current0 == last0 then ""
      else if last0 in ClosedTags then CloseElement(last0)
      else if last0 == OtherLabel then "\n\n"
      else ""
  {
    ClosingTextShape(last0);
    var c := Closing(current0, last0);
    if |c| == 1 {
      assert c[..0] == [];
      assert Render(c) == PieceText(c[0]);
    }
  }

  /** A document line as written: HTML-encoded, then its bullet markers replaced. */
  function Encoded(h: Helpers, line: string): string {
    Replace(h.htmlEncode(line), BulletMarker, [Bullet])
  }

  /** What `writeField` writes once the label matched its zone `t`: the line
      alone while the zone continues, otherwise the zone's opening element and
      the line; a null line fails. */
  function ZoneWrite(t: string, s1: string, last0: Option<string>, line: Option<string>): (r: Result<seq<Piece>>)
    ensures r.Err? <==> line.None?
    ensures r.Ok? ==> |r.value| > 0 && r.value[|r.value| - 1] == Text(Replace(line.value, BulletMarker, [Bullet]))
    ensures r.Ok? ==> (|r.value| == 2 <==> !SameTag(s1, last0)) && |r.value| <= 2
    ensures r.Ok? && |r.value| == 2 ==> r.value[0] == Open(t)
  {
    if line.None? then Err(NullReference("writeField line"))
    else
      var l := Replace(line.value, BulletMarker, [Bullet]);
      if SameTag(s1, last0) then Ok([Text(l)]) else Ok([Open(t), Text(l)])
  }

  /** `writeField` for one zone: `None` when the label is not the zone's. */
  function WriteField(field: string, s1: string, last0: Option<string>, line: Option<string>): (r: Result<Option<seq<Piece>>>)
    ensures r.Ok? && r.value.None? <==> !LabelFor(s1, field)
    ensures r.Err? <==> LabelFor(s1, field) && line.None?
  {
    if !LabelFor(s1, field) then Ok(None)
    else
      match ZoneWrite(field, s1, last0, line)
      case Err(e) => Err(e)
      case Ok(ps) => Ok(Some(ps))
  }

  /** The chain of `writeField` calls: the first zone whose label matches writes. */
  function WriteFields(fields: seq<string>, s1: string, last0: Option<string>, line: Option<string>): (r: Result<seq<Piece>>)
    ensures (forall k :: 0 <= k < |fields| ==> !LabelFor(s1, fields[k])) ==> r == Ok([])
  {
    if |fields| == 0 then Ok([])
    else
      match WriteField(fields[0], s1, last0, line)
      case Err(e) => Err(e)
      case Ok(written) => if written.Some? then Ok(written.value) else WriteFields(fields[1..], s1, last0, line)
  }

  /** A label of one of the segmenter's zones, with or without the begin marker. */
  predicate IsZoneLabel(name: string) {
    BaseTag(name) in SegmenterFields && LabelFor(name, BaseTag(name))
  }

  /** For a zone label, the chain writes exactly what the label's own zone writes. */
  lemma {:induction false} WriteFieldsPicksZone(fields: seq<string>, s1: string, last0: Option<string>, line: Option<string>)
    requires BaseTag(s1) in fields && LabelFor(s1, BaseTag(s1))
    requires forall k :: 0 <= k < |fields| ==> IsElementTag(fields[k])
    ensures WriteFields(fields, s1, last0, line) == ZoneWrite(BaseTag(s1), s1, last0, line)
    decreases |fields|
  {
    var t := BaseTag(s1);
    if fields[0] == t {
    } else {
      if LabelFor(s1, fields[0]) {
        SameTagIsBaseEquality(s1, fields[0], fields[0]);
        assert false;
      }
      assert t in fields[1..] by {
        var k :| 0 <= k < |fields| && fields[k] == t;
        assert fields[1..][k - 1] == t;
      }
      WriteFieldsPicksZone(fields[1..], s1, last0, line);
    }
  }

  // ---------------------------------------------------------------------------
  // The record loop

  /** `s1`, `lastTag`, `start`, the line cursor and the output so far. */
  datatype Extraction = Extraction(s1: Option<string>, lastTag: Option<string>, start: bool, cursor: Cursor, pieces: seq<Piece>)

  const InitialExtraction: Extraction := Extraction(None, None, true, Cursor(0, 0), [])

  /** The label a record line sets: its last field when it has three fields
      or more; otherwise the previous record's label stays. */
  function LabelOf(record: string, previous: Option<string>): Option<string> {
    var fs := Tokens(record, WordSeparators);
    if |fs| >= 3 then Some(Trim(fs[|fs| - 1])) else previous
  }

  function BaseOf(tag: Option<string>): Option<string> {
    if tag.Some? then Some(BaseTag(tag.value)) else None
  }

  /** One record of the label stream, with the label `s1` it leaves set and
      the line the cursor returned for it (`next`). */
  function WriteRecord(h: Helpers, st: Extraction, s1: Option<string>, next: (Option<string>, Cursor)): (r: Result<Extraction>)
    ensures r.Ok? ==> r.value.s1.Some? && r.value.lastTag == r.value.s1 && !r.value.start
    ensures s1.None? ==> r.Err?
  {
    var line := if next.0.Some? then Some(h.htmlEncode(next.0.value)) else None;
    var lb := if st.start then [] else [LineBreak];
    var last0 := BaseOf(st.lastTag);
    if s1.None? then Err(NullReference(if st.lastTag.Some? then "testClosingTag current tag" else "writeField label"))
    else
      var close := if st.lastTag.Some? then Closing(BaseTag(s1.value), last0.value) else [];
      match WriteFields(SegmenterFields, s1.value, last0, line)
      case Err(e) => Err(e)
      case Ok(written) => Ok(Extraction(s1, s1, false, next.1, st.pieces + (lb + close + written)))
  }

  /** One line of the label stream. A blank line is skipped; a record without
      a label so far fails in `writeField`. */
  function Step(h: Helpers, blocks: seq<Block>, st: Extraction, tok: string): (r: Result<Extraction>)
    ensures |Trim(tok)| == 0 ==> r == Ok(st)
    ensures |Trim(tok)| > 0 && r.Ok? ==> r.value.s1.Some? && r.value.lastTag == r.value.s1 && !r.value.start
    ensures |Trim(tok)| > 0 && LabelOf(Trim(tok), st.s1).None? ==> r.Err?
  {
    if |Trim(tok)| == 0 then Ok(st)
    else WriteRecord(h, st, LabelOf(Trim(tok), st.s1), NextLine(h, blocks, st.cursor))
  }

  /** The loop over the label stream's lines. */
  function Run(h: Helpers, blocks: seq<Block>, toks: seq<string>): Result<Extraction> {
    if |toks| == 0 then Ok(InitialExtraction)
    else
      match Run(h, blocks, toks[..|toks| - 1])
      case Err(e) => Err(e)
      case Ok(st) => Step(h, blocks, st, toks[|toks| - 1])
  }

  /** The whole pass: the loop, then the closing of the last zone, which the
      source performs while handling the stream's last line, and so only when
      that line is not blank. */
  function Extract(h: Helpers, blocks: seq<Block>, toks: seq<string>): Result<seq<Piece>> {
    match Run(h, blocks, toks)
    case Err(e) => Err(e)
    case Ok(st) =>
      if |toks| > 0 && |Trim(toks[|toks| - 1])| > 0 && st.lastTag.Some? then
        Ok(st.pieces + Closing("", BaseTag(st.lastTag.value)))
      else Ok(st.pieces)
  }

  /** The label stream split into lines, as `StringTokenizer(result, "\n")` does. */
  function StreamLines(result: string): seq<string> {
    Tokens(result, {'\n'})
  }

  /** `trainingExtraction`: the training text for the document, or the failure
      the pass raised. What the text holds is stated by
      `TrainingSpans.TrainingExtractionWrites`. */
  function TrainingExtraction(h: Helpers, result: string, doc: Document): (r: Result<string>)
  {
    match Extract(h, doc.blocks, StreamLines(result))
    case Err(e) => Err(e)
    case Ok(ps) => Ok(Render(ps))
  }
}

=== FILE: statuses.dfy ===
/** The enumerated feature values shared by the line encoder and the token
    encoder, each with the exact word the feature-vector line carries.
 */
module Statuses {

  datatype BlockStatus = BlockStart | BlockIn | BlockEnd {
    function Name(): string {
      match this
      case BlockStart => "BLOCKSTART"
      case BlockIn => "BLOCKIN"
      case BlockEnd => "BLOCKEND"
    }
  }

  datatype LineStatus = LineStart | LineIn | LineEnd {
    function Name(): string {
      match this
      case LineStart => "LINESTART"
      case LineIn => "LINEIN"
      case LineEnd => "LINEEND"
    }
  }

  datatype PageStatus = PageStart | PageIn | PageEnd {
    function Name(): string {
      match this
      case PageStart => "PAGESTART"
      case PageIn => "PAGEIN"
      case PageEnd => "PAGEEND"
    }
  }

  datatype FontStatus = NewFont | SameFont {
    function Name(): string {
      match this
      case NewFont => "NEWFONT"
      case SameFont => "SAMEFONT"
    }
  }

  datatype FontSizeStatus = HigherFont | SameFontSize | LowerFont {
    function Name(): string {
      match this
      case HigherFont => "HIGHERFONT"
      case SameFontSize => "SAMEFONTSIZE"
      case LowerFont => "LOWERFONT"
    }
  }

  /** The encoders write "ALLCAP" (not "ALLCAPS"). */
  datatype Capitalisation = InitCap | AllCap | NoCaps {
    function Name(): string {
      match this
      case InitCap => "INITCAP"
      case AllCap => "ALLCAP"
      case NoCaps => "NOCAPS"
    }
  }

  /** The encoders write "CONTAINSDIGITS". */
  datatype DigitClass = AllDigit | ContainsDigits | NoDigit {
    function Name(): string {
      match this
      case AllDigit => "ALLDIGIT"
      case ContainsDigits => "CONTAINSDIGITS"
      case NoDigit => "NODIGIT"
    }
  }

  datatype PunctType = NoPunct | OpenBracket | EndBracket | Dot | Comma | Hyphen | Quote | Punct {
    function Name(): string {
      match this
      case NoPunct => "NOPUNCT"
      case OpenBracket => "OPENBRACKET"
      case EndBracket => "ENDBRACKET"
      case Dot => "DOT"
      case Comma => "COMMA"
      case Hyphen => "HYPHEN"
      case Quote => "QUOTE"
      case Punct => "PUNCT"
    }
  }
}

=== FILE: training_spans.dfy ===
/** What the segmenter's training reconstructor guarantees about its output,
    for every label stream: record k takes the k-th document line the cursor
    can return, and writes it only when its label names one of the zones; the
    pass fails at the first record without a label, and at the first zone
    record that finds the lines exhausted; a line break separates
    consecutive records; and every zone's lines sit inside one span, opened
    with the zone's element and closed when the zone changes and at the end,
    except after a blank last line and after one misread doubled marker.
 */
module TrainingSpans {
  import opened Wrappers
  import opened JavaStrings
  import opened Layout
  import opened Lexicon
  import opened Labels
  import opened LineCursor
  import opened SegmenterTraining

  // ---------------------------------------------------------------------------
  // Span structure of a piece sequence

  /** Reading pieces left to right: outside every span, inside the span of a
      zone, or past a piece out of place. */
  datatype ScanState = Outside | Inside(tag: string) | Broken

  /** Texts belong inside a span; a span opens only outside any other and is
      ended by its own closing element, or by the blank line for `<other>`. */
  function ScanStep(s: ScanState, p: Piece): ScanState {
    match p
    case LineBreak => s
    case Text(_) => if s.Inside? then s else Broken
    case Open(t) => if s == Outside then Inside(t) else Broken
    case Close(t) => if s == Inside(t) && t in ClosedTags then Outside else Broken
    case Gap => if s == Inside(OtherLabel) then Outside else Broken
  }

  function ScanFrom(s: ScanState, ps: seq<Piece>): ScanState {
    if |ps| == 0 then s else ScanStep(ScanFrom(s, ps[..|ps| - 1]), ps[|ps| - 1])
  }

  /** Every span is closed and nothing is out of place. */
  predicate Balanced(ps: seq<Piece>) {
    ScanFrom(Outside, ps) == Outside
  }

  /** The document lines written, in order. */
  function Texts(ps: seq<Piece>): seq<string> {
    if |ps| == 0 then []
    else Texts(ps[..|ps| - 1]) + (if ps[|ps| - 1].Text? then [ps[|ps| - 1].line] else [])
  }

  /** The number of line breaks written. */
  function Breaks(ps: seq<Piece>): nat {
    if |ps| == 0 then 0
    else Breaks(ps[..|ps| - 1]) + (if ps[|ps| - 1] == LineBreak then 1 else 0)
  }

  lemma {:induction false} ScanFromConcat(s: ScanState, a: seq<Piece>, b: seq<Piece>)
    ensures ScanFrom(s, a + b) == ScanFrom(ScanFrom(s, a), b)
    decreases |b|
  {
    if |b| > 0 {
      assert (a + b)[..|a + b| - 1] == a + b[..|b| - 1];
      ScanFromConcat(s, a, b[..|b| - 1]);
    } else {
      assert a + b == a;
    }
  }

  lemma {:induction false} TextsConcat(a: seq<Piece>, b: seq<Piece>)
    ensures Texts(a + b) == Texts(a) + Texts(b)
    decreases |b|
  {
    if |b| > 0 {
      assert (a + b)[..|a + b| - 1] == a + b[..|b| - 1];
      TextsConcat(a, b[..|b| - 1]);
    } else {
      assert a + b == a;
    }
  }

  lemma {:induction false} BreaksConcat(a: seq<Piece>, b: seq<Piece>)
    ensures Breaks(a + b) == Breaks(a) + Breaks(b)
    decreases |b|
  {
    if |b| > 0 {
      assert (a + b)[..|a + b| - 1] == a + b[..|b| - 1];
      BreaksConcat(a, b[..|b| - 1]);
    } else {
      assert a + b == a;
    }
  }

  lemma ScanOne(s: ScanState, p: Piece)
    ensures ScanFrom(s, [p]) == ScanStep(s, p)
  {
    assert [p][..0] == [];
  }

  /** Once a piece is out of place, the output stays broken. */
  lemma {:induction false} BrokenStays(ps: seq<Piece>)
    ensures ScanFrom(Broken, ps) == Broken
    decreases |ps|
  {
    if |ps| > 0 {
      BrokenStays(ps[..|ps| - 1]);
    }
  }

  // ---------------------------------------------------------------------------
  // The label stream

  /** The number of records: the non-blank lines of the stream. */
  function RecordCount(toks: seq<string>): nat {
    if |toks| == 0 then 0
    else RecordCount(toks[..|toks| - 1]) + (if |Trim(toks[|toks| - 1])| > 0 then 1 else 0)
  }

  /** The label in force after the records with labels `ls`: the last one. */
  function LastLabel(ls: seq<Option<string>>): Option<string> {
    if |ls| == 0 then None else ls[|ls| - 1]
  }

  /** Reference: the label `s1` each record leaves set, one per record, in
      order: its own last field when it has three fields or more, otherwise
      the previous record's. */
  function RecordLabels(toks: seq<string>): (ls: seq<Option<string>>)
    ensures |ls| == RecordCount(toks)
  {
    if |toks| == 0 then []
    else
      var prev := RecordLabels(toks[..|toks| - 1]);
      var tok := toks[|toks| - 1];
      if |Trim(tok)| > 0 then prev + [LabelOf(Trim(tok), LastLabel(prev))] else prev
  }

  /** The base tag `t` is one of the zones `SegmenterFields[i..]`, tried one
      after the other as the chain of `writeField` calls does. */
  predicate ZoneFrom(t: string, i: nat)
    decreases |SegmenterFields| - i
  {
    i < |SegmenterFields| && (SegmenterFields[i] == t || ZoneFrom(t, i + 1))
  }

  /** A record with label `l` writes its line: the label names a zone. */
  predicate Writes(l: Option<string>) {
    l.Some? && ZoneFrom(BaseTag(l.value), 0)
  }

  /** The pass fails on records with labels `ls`, over the document lines
      `cands`: some record has no label yet, or a zone record comes after the
      lines have run out. */
  predicate Fails(cands: seq<string>, ls: seq<Option<string>>) {
    exists k :: 0 <= k < |ls| && (ls[k].None? || (Writes(ls[k]) && k >= |cands|))
  }

  /** Which records write their line: those whose label names a zone. */
  function Zones(ls: seq<Option<string>>): (zs: seq<bool>)
    ensures |zs| == |ls|
  {
    seq(|ls|, k requires 0 <= k < |ls| => Writes(ls[k]))
  }

  /** Reference: the document lines written, in order: record k consumes the
      k-th line, and writes it when it names a zone (`zs[k]`). */
  function Picked(cands: seq<string>, zs: seq<bool>): seq<string> {
    if |zs| == 0 then []
    else
      var k := |zs| - 1;
      Picked(cands, zs[..k]) + (if zs[k] && k < |cands| then [cands[k]] else [])
  }

  /** The number of document lines the first `n` records consumed. */
  function Consumed(lines: nat, n: nat): nat {
    if n <= lines then n else lines
  }

  /** A zone record `l` whose label equals the previous label `p` with its
      begin marker removed, while `p` names no zone (`"I-I-<x>"` and then
      `"I-<x>"`): the writer takes the zone as continuing although no span is
      open, and the line lands outside every span. */
  predicate Misread(p: Option<string>, l: Option<string>) {
    Writes(l) && p.Some? && !Writes(p) && l.value == BaseTag(p.value)
  }

  /** Some record of `ls` is misread. */
  predicate Unbalanced(ls: seq<Option<string>>) {
    exists k :: 0 < k < |ls| && Misread(ls[k - 1], ls[k])
  }

  /** The stream ends on a blank line while its last record names a zone: the
      closing of the last zone, which happens only with the last line, is missed. */
  predicate LeftOpen(toks: seq<string>) {
    |toks| > 0 && |Trim(toks[|toks| - 1])| == 0 && Writes(LastLabel(RecordLabels(toks)))
  }

  /** The scan state the output is in after a record of label `lastTag`. */
  function Expected(lastTag: Option<string>): ScanState {
    if Writes(lastTag) then Inside(BaseTag(lastTag.value)) else Outside
  }

  /** The document lines as written, in order. */
  function EncodedAll(h: Helpers, lines: seq<string>): (r: seq<string>)
    ensures |r| == |lines|
  {
    if |lines| == 0 then [] else EncodedAll(h, lines[..|lines| - 1]) + [Encoded(h, lines[|lines| - 1])]
  }

  /** What every record with label `s1` adds first: the line break, and the
      closing of the previous zone when the zone changes. */
  function Opening(lastTag: Option<string>, start: bool, s1: string): seq<Piece> {
    var lb := if start then [] else [LineBreak];
    var close := if lastTag.Some? then Closing(BaseTag(s1), BaseTag(lastTag.value)) else [];
    lb + close
  }

  /** What a zone record writes for its line `l`: the line, opened by its
      zone's element when the zone is new. */
  function Written(lastTag: Option<string>, s1: string, l: string): seq<Piece> {
    if SameTag(s1, BaseOf(lastTag)) then [Text(l)] else [Open(BaseTag(s1)), Text(l)]
  }

  function RecordPieces(lastTag: Option<string>, start: bool, s1: string, l: string): seq<Piece> {
    Opening(lastTag, start, s1) + Written(lastTag, s1, l)
  }

  /** The loop's state after the records with labels `labs`, over the lines
      `ls` of the blocks, whose candidates are `cands`. */
  ghost predicate Inv(h: Helpers, ls: seq<seq<string>>, cands: seq<string>, labs: seq<Option<string>>, st: Extraction) {
    && st.s1 == st.lastTag
    && st.lastTag == LastLabel(labs)
    && (st.start <==> |labs| == 0)
    && ScanFrom(Outside, st.pieces) == (if Unbalanced(labs) then Broken else Expected(st.lastTag))
    && Remaining(h, ls, st.cursor) == cands[Consumed(|cands|, |labs|)..]
    && Texts(st.pieces) == EncodedAll(h, Picked(cands, Zones(labs)))
    && Breaks(st.pieces) == (if |labs| == 0 then 0 else |labs| - 1)
  }

  // ---------------------------------------------------------------------------
  // Zone labels

  lemma SegmenterFieldsAreElements()
    ensures forall k :: 0 <= k < |SegmenterFields| ==> IsElementTag(SegmenterFields[k])
  {
  }

  /** The zones are those closed by their element and `<other>`, closed by a blank line. */
  lemma ZoneTagCloses(t: string)
    ensures t in SegmenterFields <==> t in ClosedTags || t == OtherLabel
  {
  }

  lemma FieldIsElement(t: string)
    requires t in SegmenterFields
    ensures IsElementTag(t)
  {
    SegmenterFieldsAreElements();
    var k :| 0 <= k < |SegmenterFields| && SegmenterFields[k] == t;
  }

  /** A label names a zone exactly when its base tag is a zone element. */
  lemma ZoneIffBase(name: string)
    ensures IsZoneLabel(name) <==> BaseTag(name) in SegmenterFields
  {
    assert LabelFor(name, BaseTag(name));
  }

  lemma {:induction false} ZoneFromIsIn(t: string, i: nat)
    ensures ZoneFrom(t, i) <==> i < |SegmenterFields| && t in SegmenterFields[i..]
    decreases |SegmenterFields| - i
  {
    if i < |SegmenterFields| {
      ZoneFromIsIn(t, i + 1);
      assert SegmenterFields[i..] == [SegmenterFields[i]] + SegmenterFields[i + 1..];
    }
  }

  /** `Writes` is the zone test of `writeField`. */
  lemma WritesIsZone(l: Option<string>)
    ensures Writes(l) <==> l.Some? && IsZoneLabel(l.value)
  {
    if l.Some? {
      ZoneFromIsIn(BaseTag(l.value), 0);
      assert SegmenterFields[0..] == SegmenterFields;
      ZoneIffBase(l.value);
    }
  }

  /** The pieces `writeField` adds once its zone matched and a line was found. */
  lemma ZoneWriteShape(t: string, s1: string, last0: Option<string>, line: string)
    ensures var l := Replace(line, BulletMarker, [Bullet]);
      ZoneWrite(t, s1, last0, Some(line)) == Ok(if SameTag(s1, last0) then [Text(l)] else [Open(t), Text(l)])
  {
  }

  /** For a label naming no zone, no `writeField` of the chain matches. */
  lemma WriteFieldsMisses(s1: string, last0: Option<string>, line: Option<string>)
    requires !IsZoneLabel(s1)
    ensures WriteFields(SegmenterFields, s1, last0, line) == Ok([])
  {
    SegmenterFieldsAreElements();
    forall k | 0 <= k < |SegmenterFields|
      ensures !LabelFor(s1, SegmenterFields[k])
    {
      if LabelFor(s1, SegmenterFields[k]) {
        SameTagIsBaseEquality(s1, SegmenterFields[k], SegmenterFields[k]);
        ZoneIffBase(s1);
        assert false;
      }
    }
  }

  // ---------------------------------------------------------------------------
  // One record

  lemma ScanOpenText(t: string, l: string)
    ensures ScanFrom(Outside, [Open(t), Text(l)]) == Inside(t)
    ensures ScanFrom(Inside(t), [Text(l)]) == Inside(t)
  {
    assert [Open(t)][..0] == [];
    assert ScanFrom(Outside, [Open(t)]) == Inside(t);
    assert [Open(t), Text(l)][..1] == [Open(t)];
    assert [Text(l)][..0] == [];
  }

  /** The line break and the closing take the output out of the previous
      record's span, unless the zone stays the same. */
  lemma OpeningScan(lastTag: Option<string>, start: bool, s1: string)
    ensures ScanFrom(Expected(lastTag), Opening(lastTag, start, s1)) ==
      if lastTag.Some? && BaseTag(s1) == BaseTag(lastTag.value) then Expected(lastTag) else Outside
  {
    var lb: seq<Piece> := if start then [] else [LineBreak];
    var close := if lastTag.Some? then Closing(BaseTag(s1), BaseTag(lastTag.value)) else [];
    var s := Expected(lastTag);
    ScanFromConcat(s, lb, close);
    assert ScanFrom(s, lb) == s by {
      if !start {
        ScanOne(s, LineBreak);
      }
    }
    if lastTag.Some? {
      var q := BaseTag(lastTag.value);
      ZoneTagCloses(q);
      ZoneIffBase(lastTag.value);
      WritesIsZone(lastTag);
      if |close| == 1 {
        ScanOne(s, close[0]);
        assert close == [close[0]];
      }
    }
  }

  /** A zone record's pieces take the output into the span of the record's
      own zone, whatever span it was in before, unless the record is misread. */
  lemma ZoneRecordScan(lastTag: Option<string>, start: bool, s1: string, l: string)
    requires IsZoneLabel(s1)
    ensures ScanFrom(Expected(lastTag), RecordPieces(lastTag, start, s1, l)) ==
      if Misread(lastTag, Some(s1)) then Broken else Inside(BaseTag(s1))
  {
    var t := BaseTag(s1);
    var s := Expected(lastTag);
    var op := Opening(lastTag, start, s1);
    var written := Written(lastTag, s1, l);
    ScanFromConcat(s, op, written);
    OpeningScan(lastTag, start, s1);
    ZoneIffBase(s1);
    WritesIsZone(Some(s1));
    WritesIsZone(lastTag);
    FieldIsElement(t);
    ScanOpenText(t, l);
    if lastTag.None? {
      assert !SameTag(s1, None) by {
        SameTagIsBaseEquality(s1, t, t);
        assert BaseTag(BeginPrefix + "null") == "null";
      }
    } else {
      var q := BaseTag(lastTag.value);
      ZoneIffBase(lastTag.value);
      if Writes(lastTag) {
        FieldIsElement(q);
        SameTagIsBaseEquality(s1, t, q);
      } else {
        ScanOne(Outside, Text(l));
      }
    }
  }

  /** A record naming no zone leaves the output outside every span. */
  lemma SkipScan(lastTag: Option<string>, start: bool, s1: string)
    requires !IsZoneLabel(s1)
    ensures ScanFrom(Expected(lastTag), Opening(lastTag, start, s1)) == Outside
  {
    OpeningScan(lastTag, start, s1);
    ZoneIffBase(s1);
    WritesIsZone(lastTag);
    if lastTag.Some? {
      ZoneIffBase(lastTag.value);
    }
  }

  lemma PieceCounts(p: Piece)
    ensures Texts([p]) == (if p.Text? then [p.line] else [])
    ensures Breaks([p]) == (if p == LineBreak then 1 else 0)
  {
    assert [p][..0] == [];
  }

  /** Closing a zone writes neither a text nor a line break. */
  lemma ClosingCounts(current0: string, last0: string)
    ensures Texts(Closing(current0, last0)) == []
    ensures Breaks(Closing(current0, last0)) == 0
  {
    var c := Closing(current0, last0);
    if |c| == 1 {
      PieceCounts(c[0]);
      assert c == [c[0]];
    }
  }

  /** A record's opening holds no text, and a line break unless it is the
      first record. */
  lemma OpeningCounts(lastTag: Option<string>, start: bool, s1: string)
    ensures Texts(Opening(lastTag, start, s1)) == []
    ensures Breaks(Opening(lastTag, start, s1)) == (if start then 0 else 1)
  {
    var lb: seq<Piece> := if start then [] else [LineBreak];
    var close := if lastTag.Some? then Closing(BaseTag(s1), BaseTag(lastTag.value)) else [];
    PieceCounts(LineBreak);
    if lastTag.Some? {
      ClosingCounts(BaseTag(s1), BaseTag(lastTag.value));
    }
    TextsConcat(lb, close);
    BreaksConcat(lb, close);
  }

  /** A zone record's pieces hold one text, its line, and a line break unless
      it is the first record. */
  lemma RecordCounts(lastTag: Option<string>, start: bool, s1: string, l: string)
    ensures Texts(RecordPieces(lastTag, start, s1, l)) == [l]
    ensures Breaks(RecordPieces(lastTag, start, s1, l)) == (if start then 0 else 1)
  {
    var op := Opening(lastTag, start, s1);
    var written := Written(lastTag, s1, l);
    OpeningCounts(lastTag, start, s1);
    assert Texts(written) == [l] && Breaks(written) == 0 by {
      PieceCounts(Text(l));
      if |written| == 2 {
        PieceCounts(written[0]);
        TextsConcat([written[0]], [Text(l)]);
        BreaksConcat([written[0]], [Text(l)]);
        assert written == [written[0]] + [Text(l)];
      }
    }
    TextsConcat(op, written);
    BreaksConcat(op, written);
  }

  /** The close at the end of the stream ends the last zone's span, and adds
      nothing after a label naming no zone. */
  lemma FinalClose(lastTag: string)
    ensures ScanFrom(Expected(Some(lastTag)), Closing("", BaseTag(lastTag))) == Outside
  {
    var t := BaseTag(lastTag);
    ZoneTagCloses(t);
    ZoneIffBase(lastTag);
    WritesIsZone(Some(lastTag));
    var end := Closing("", t);
    if |end| == 1 {
      ScanOne(Expected(Some(lastTag)), end[0]);
      assert end == [end[0]];
    }
  }

  /** The output of a record, given the line the cursor returned: a zone
      record fails without a line, and otherwise adds its pieces; a record
      naming no zone adds its opening alone, line or none. */
  lemma WriteRecordShape(h: Helpers, st: Extraction, s1: string, next: (Option<string>, Cursor))
    ensures IsZoneLabel(s1) && next.0.None? ==> WriteRecord(h, st, Some(s1), next).Err?
    ensures IsZoneLabel(s1) && next.0.Some? ==>
      WriteRecord(h, st, Some(s1), next) ==
      Ok(Extraction(Some(s1), Some(s1), false, next.1,
                    st.pieces + RecordPieces(st.lastTag, st.start, s1, Encoded(h, next.0.value))))
    ensures !IsZoneLabel(s1) ==>
      WriteRecord(h, st, Some(s1), next) ==
      Ok(Extraction(Some(s1), Some(s1), false, next.1, st.pieces + Opening(st.lastTag, st.start, s1)))
  {
    var line := if next.0.Some? then Some(h.htmlEncode(next.0.value)) else None;
    var last0 := BaseOf(st.lastTag);
    if IsZoneLabel(s1) {
      SegmenterFieldsAreElements();
      WriteFieldsPicksZone(SegmenterFields, s1, last0, line);
      if next.0.Some? {
        ZoneWriteShape(BaseTag(s1), s1, last0, h.htmlEncode(next.0.value));
      }
    } else {
      WriteFieldsMisses(s1, last0, line);
      assert Opening(st.lastTag, st.start, s1) + [] == Opening(st.lastTag, st.start, s1);
    }
  }

  // ---------------------------------------------------------------------------
  // The reference functions, one record longer

  lemma FailsSnoc(cands: seq<string>, ls: seq<Option<string>>, l: Option<string>)
    ensures Fails(cands, ls + [l]) <==> Fails(cands, ls) || l.None? || (Writes(l) && |ls| >= |cands|)
  {
    var ls' := ls + [l];
    if Fails(cands, ls') {
      var k :| 0 <= k < |ls'| && (ls'[k].None? || (Writes(ls'[k]) && k >= |cands|));
      if k < |ls| {
        assert ls'[k] == ls[k];
      }
    }
    if Fails(cands, ls) {
      var k :| 0 <= k < |ls| && (ls[k].None? || (Writes(ls[k]) && k >= |cands|));
      assert ls'[k] == ls[k];
    }
    if l.None? || (Writes(l) && |ls| >= |cands|) {
      assert ls'[|ls|] == l;
    }
  }

  lemma UnbalancedSnoc(ls: seq<Option<string>>, l: Option<string>)
    ensures Unbalanced(ls + [l]) <==> Unbalanced(ls) || Misread(LastLabel(ls), l)
  {
    var ls' := ls + [l];
    if Unbalanced(ls') {
      var k :| 0 < k < |ls'| && Misread(ls'[k - 1], ls'[k]);
      assert ls'[k - 1] == ls[k - 1];
      if k < |ls| {
        assert ls'[k] == ls[k];
      }
    }
    if Unbalanced(ls) {
      var k :| 0 < k < |ls| && Misread(ls[k - 1], ls[k]);
      assert ls'[k - 1] == ls[k - 1] && ls'[k] == ls[k];
    }
    if Misread(LastLabel(ls), l) {
      assert ls'[|ls| - 1] == ls[|ls| - 1] && ls'[|ls|] == l;
    }
  }

  lemma ZonesSnoc(ls: seq<Option<string>>, l: Option<string>)
    ensures Zones(ls + [l]) == Zones(ls) + [Writes(l)]
  {
    var ls' := ls + [l];
    forall k | 0 <= k < |ls'|
      ensures Zones(ls')[k] == (Zones(ls) + [Writes(l)])[k]
    {
      if k < |ls| {
        assert ls'[k] == ls[k];
      }
    }
  }

  lemma PickedSnoc(cands: seq<string>, zs: seq<bool>, z: bool)
    ensures Picked(cands, zs + [z]) == Picked(cands, zs) + (if z && |zs| < |cands| then [cands[|zs|]] else [])
  {
    assert (zs + [z])[..|zs|] == zs;
  }

  lemma EncodedAllSnoc(h: Helpers, lines: seq<string>, line: string)
    ensures EncodedAll(h, lines + [line]) == EncodedAll(h, lines) + [Encoded(h, line)]
  {
    assert (lines + [line])[..|lines|] == lines;
  }

  // ---------------------------------------------------------------------------
  // The record loop

  /** A zone record written with the line the cursor returned keeps the invariant. */
  lemma ZoneRecordKeeps(h: Helpers, ls: seq<seq<string>>, cands: seq<string>, labs: seq<Option<string>>,
                        st: Extraction, s1: string, cursor: Cursor)
    requires Inv(h, ls, cands, labs, st)
    requires IsZoneLabel(s1) && |labs| < |cands|
    requires Remaining(h, ls, cursor) == cands[|labs|..][1..]
    ensures Inv(h, ls, cands, labs + [Some(s1)],
                Extraction(Some(s1), Some(s1), false, cursor,
                           st.pieces + RecordPieces(st.lastTag, st.start, s1, Encoded(h, cands[|labs|]))))
  {
    var n := |labs|;
    var l := Encoded(h, cands[n]);
    var rec := RecordPieces(st.lastTag, st.start, s1, l);
    var labs' := labs + [Some(s1)];
    var st' := Extraction(Some(s1), Some(s1), false, cursor, st.pieces + rec);
    WritesIsZone(Some(s1));
    assert st'.lastTag == LastLabel(labs');
    assert ScanFrom(Outside, st'.pieces) == (if Unbalanced(labs') then Broken else Expected(st'.lastTag)) by {
      ScanFromConcat(Outside, st.pieces, rec);
      if Unbalanced(labs) {
        BrokenStays(rec);
      } else {
        ZoneRecordScan(st.lastTag, st.start, s1, l);
      }
      UnbalancedSnoc(labs, Some(s1));
    }
    assert Remaining(h, ls, st'.cursor) == cands[Consumed(|cands|, |labs'|)..] by {
      assert cands[n..][1..] == cands[n + 1..];
    }
    assert Texts(st'.pieces) == EncodedAll(h, Picked(cands, Zones(labs'))) by {
      RecordCounts(st.lastTag, st.start, s1, l);
      TextsConcat(st.pieces, rec);
      ZonesSnoc(labs, Some(s1));
      PickedSnoc(cands, Zones(labs), Writes(Some(s1)));
      EncodedAllSnoc(h, Picked(cands, Zones(labs)), cands[n]);
    }
    assert Breaks(st'.pieces) == (if |labs'| == 0 then 0 else |labs'| - 1) by {
      RecordCounts(st.lastTag, st.start, s1, l);
      BreaksConcat(st.pieces, rec);
    }
  }

  /** A record naming no zone keeps the invariant, whether or not a line was left. */
  lemma SkipRecordKeeps(h: Helpers, ls: seq<seq<string>>, cands: seq<string>, labs: seq<Option<string>>,
                        st: Extraction, s1: string, cursor: Cursor)
    requires Inv(h, ls, cands, labs, st)
    requires !IsZoneLabel(s1)
    requires Remaining(h, ls, cursor) == cands[Consumed(|cands|, |labs| + 1)..]
    ensures Inv(h, ls, cands, labs + [Some(s1)],
                Extraction(Some(s1), Some(s1), false, cursor, st.pieces + Opening(st.lastTag, st.start, s1)))
  {
    var op := Opening(st.lastTag, st.start, s1);
    var labs' := labs + [Some(s1)];
    var st' := Extraction(Some(s1), Some(s1), false, cursor, st.pieces + op);
    WritesIsZone(Some(s1));
    assert st'.lastTag == LastLabel(labs');
    assert ScanFrom(Outside, st'.pieces) == (if Unbalanced(labs') then Broken else Expected(st'.lastTag)) by {
      ScanFromConcat(Outside, st.pieces, op);
      if Unbalanced(labs) {
        BrokenStays(op);
      } else {
        SkipScan(st.lastTag, st.start, s1);
      }
      UnbalancedSnoc(labs, Some(s1));
    }
    assert Texts(st'.pieces) == EncodedAll(h, Picked(cands, Zones(labs'))) by {
      OpeningCounts(st.lastTag, st.start, s1);
      TextsConcat(st.pieces, op);
      ZonesSnoc(labs, Some(s1));
      PickedSnoc(cands, Zones(labs), Writes(Some(s1)));
      assert Picked(cands, Zones(labs)) + [] == Picked(cands, Zones(labs));
    }
    assert Breaks(st'.pieces) == (if |labs'| == 0 then 0 else |labs'| - 1) by {
      OpeningCounts(st.lastTag, st.start, s1);
      BreaksConcat(st.pieces, op);
    }
  }

  /** One record keeps the invariant, and fails exactly when it has no label,
      or names a zone and the document has no line left for it. */
  lemma StepKeeps(h: Helpers, blocks: seq<Block>, labs: seq<Option<string>>, st: Extraction, tok: string)
    requires Inv(h, LinesPerBlock(blocks), Candidates(h, blocks), labs, st)
    requires |Trim(tok)| > 0
    ensures var l := LabelOf(Trim(tok), LastLabel(labs));
      Step(h, blocks, st, tok).Ok? <==> !(l.None? || (Writes(l) && |labs| >= |Candidates(h, blocks)|))
    ensures Step(h, blocks, st, tok).Ok? ==>
      Inv(h, LinesPerBlock(blocks), Candidates(h, blocks), labs + [LabelOf(Trim(tok), LastLabel(labs))],
          Step(h, blocks, st, tok).value)
  {
    var cands := Candidates(h, blocks);
    var ls := LinesPerBlock(blocks);
    var l := LabelOf(Trim(tok), LastLabel(labs));
    WritesIsZone(l);
    if l.Some? {
      var s1 := l.value;
      var next := NextLine(h, blocks, st.cursor);
      NextLineIsHead(h, blocks, st.cursor);
      WriteRecordShape(h, st, s1, next);
      assert Step(h, blocks, st, tok) == WriteRecord(h, st, Some(s1), next);
      var n := |labs|;
      if IsZoneLabel(s1) {
        if n < |cands| {
          ZoneRecordKeeps(h, ls, cands, labs, st, s1, next.1);
        }
      } else {
        if n < |cands| {
          assert cands[n..][1..] == cands[n + 1..];
        }
        SkipRecordKeeps(h, ls, cands, labs, st, s1, next.1);
      }
    }
  }

  /** One more line of the stream, after a loop that ended in the invariant. */
  lemma RunExtends(h: Helpers, blocks: seq<Block>, toks: seq<string>, st: Extraction)
    requires |toks| > 0
    requires Run(h, blocks, toks[..|toks| - 1]) == Ok(st)
    requires !Fails(Candidates(h, blocks), RecordLabels(toks[..|toks| - 1]))
    requires Inv(h, LinesPerBlock(blocks), Candidates(h, blocks), RecordLabels(toks[..|toks| - 1]), st)
    ensures Run(h, blocks, toks).Ok? <==> !Fails(Candidates(h, blocks), RecordLabels(toks))
    ensures Run(h, blocks, toks).Ok? ==>
      Inv(h, LinesPerBlock(blocks), Candidates(h, blocks), RecordLabels(toks), Run(h, blocks, toks).value)
  {
    var tok := toks[|toks| - 1];
    var labs := RecordLabels(toks[..|toks| - 1]);
    assert Run(h, blocks, toks) == Step(h, blocks, st, tok);
    if |Trim(tok)| > 0 {
      var l := LabelOf(Trim(tok), LastLabel(labs));
      StepKeeps(h, blocks, labs, st, tok);
      FailsSnoc(Candidates(h, blocks), labs, l);
    }
  }

  /** The record loop: it fails exactly when the reference says so; otherwise
      it ends in the invariant. */
  lemma {:induction false} RunInvariant(h: Helpers, blocks: seq<Block>, toks: seq<string>)
    ensures Run(h, blocks, toks).Ok? <==> !Fails(Candidates(h, blocks), RecordLabels(toks))
    ensures Run(h, blocks, toks).Ok? ==>
      Inv(h, LinesPerBlock(blocks), Candidates(h, blocks), RecordLabels(toks), Run(h, blocks, toks).value)
    decreases |toks|
  {
    if |toks| == 0 {
      var cands := Candidates(h, blocks);
      RemainingFromStart(h, LinesPerBlock(blocks));
      assert cands[0..] == cands;
    } else {
      var prev := toks[..|toks| - 1];
      RunInvariant(h, blocks, prev);
      if Run(h, blocks, prev).Ok? {
        RunExtends(h, blocks, toks, Run(h, blocks, prev).value);
      } else {
        var tok := toks[|toks| - 1];
        var labs := RecordLabels(prev);
        RecordLabelsStep(toks);
        FailsExtend(Candidates(h, blocks), labs,
                    if |Trim(tok)| > 0 then [LabelOf(Trim(tok), LastLabel(labs))] else []);
      }
    }
  }

  /** The labels of a stream one line longer. */
  lemma RecordLabelsStep(toks: seq<string>)
    requires |toks| > 0
    ensures var tok := toks[|toks| - 1];
      var labs := RecordLabels(toks[..|toks| - 1]);
      RecordLabels(toks) == labs + (if |Trim(tok)| > 0 then [LabelOf(Trim(tok), LastLabel(labs))] else [])
  {
    var labs := RecordLabels(toks[..|toks| - 1]);
    assert labs + [] == labs;
  }

  /** A failure among the earlier records is a failure of the whole stream. */
  lemma FailsExtend(cands: seq<string>, ls: seq<Option<string>>, more: seq<Option<string>>)
    requires Fails(cands, ls)
    ensures Fails(cands, ls + more)
  {
    var k :| 0 <= k < |ls| && (ls[k].None? || (Writes(ls[k]) && k >= |cands|));
    assert (ls + more)[k] == ls[k];
  }

  // ---------------------------------------------------------------------------
  // Theorems about the whole pass

  /** The pass fails exactly when some record has no label yet, or a record
      naming a zone finds the document lines exhausted; otherwise it writes,
      encoded and in order, the document line each zone record consumed, and a
      line break between consecutive records. A record naming no zone (such as
      `<front>` or `<body>`) consumes its line and writes nothing. */
  lemma ExtractWritesLines(h: Helpers, blocks: seq<Block>, toks: seq<string>)
    ensures var r := Extract(h, blocks, toks);
      var labs := RecordLabels(toks);
      var cands := Candidates(h, blocks);
      && (r.Err? <==> Fails(cands, labs))
      && (r.Ok? ==> Texts(r.value) == EncodedAll(h, Picked(cands, Zones(labs))))
      && (r.Ok? ==> Breaks(r.value) == (if |labs| == 0 then 0 else |labs| - 1))
  {
    RunInvariant(h, blocks, toks);
    var run := Run(h, blocks, toks);
    if run.Ok? {
      var st := run.value;
      if |toks| > 0 && |Trim(toks[|toks| - 1])| > 0 && st.lastTag.Some? {
        var end := Closing("", BaseTag(st.lastTag.value));
        assert Extract(h, blocks, toks) == Ok(st.pieces + end);
        ClosingCounts("", BaseTag(st.lastTag.value));
        TextsConcat(st.pieces, end);
        BreaksConcat(st.pieces, end);
      } else {
        assert Extract(h, blocks, toks) == Ok(st.pieces);
      }
    }
  }

  /** Every span of the output is closed and every text sits inside the span
      of its record's zone exactly when no record is misread and the stream
      does not end on a blank line after a zone record. */
  lemma ExtractClosesSpans(h: Helpers, blocks: seq<Block>, toks: seq<string>)
    ensures var r := Extract(h, blocks, toks);
      r.Ok? ==> (Balanced(r.value) <==> !Unbalanced(RecordLabels(toks)) && !LeftOpen(toks))
  {
    RunInvariant(h, blocks, toks);
    var run := Run(h, blocks, toks);
    if run.Ok? {
      var st := run.value;
      var labs := RecordLabels(toks);
      if |toks| > 0 && |Trim(toks[|toks| - 1])| > 0 && st.lastTag.Some? {
        var end := Closing("", BaseTag(st.lastTag.value));
        assert Extract(h, blocks, toks) == Ok(st.pieces + end);
        ScanFromConcat(Outside, st.pieces, end);
        if Unbalanced(labs) {
          BrokenStays(end);
        } else {
          FinalClose(st.lastTag.value);
        }
      } else {
        assert Extract(h, blocks, toks) == Ok(st.pieces);
      }
    }
  }

  /** When every record names a zone and the document has a line for each,
      the pass writes exactly the first lines of the document, one per record. */
  lemma {:induction false} PickedAllZones(cands: seq<string>, zs: seq<bool>)
    requires forall k :: 0 <= k < |zs| ==> zs[k]
    requires |zs| <= |cands|
    ensures Picked(cands, zs) == cands[..|zs|]
    decreases |zs|
  {
    if |zs| > 0 {
      var k := |zs| - 1;
      PickedAllZones(cands, zs[..k]);
      assert cands[..k] + [cands[k]] == cands[..k + 1];
    }
  }

  /** `trainingExtraction` returns the rendering of pieces that hold the
      lines the zone records consumed, the line breaks between records and
      the spans described above, and fails exactly when the reference says so. */
  lemma TrainingExtractionWrites(h: Helpers, result: string, doc: Document)
    ensures var r := TrainingExtraction(h, result, doc);
      var toks := StreamLines(result);
      var labs := RecordLabels(toks);
      var cands := Candidates(h, doc.blocks);
      && (r.Err? <==> Fails(cands, labs))
      && (r.Ok? ==> exists ps :: (r.value == Render(ps)
            && Texts(ps) == EncodedAll(h, Picked(cands, Zones(labs)))
            && Breaks(ps) == (if |labs| == 0 then 0 else |labs| - 1)
            && (Balanced(ps) <==> !Unbalanced(labs) && !LeftOpen(toks))))
  {
    var toks := StreamLines(result);
    ExtractWritesLines(h, doc.blocks, toks);
    ExtractClosesSpans(h, doc.blocks, toks);
    var e := Extract(h, doc.blocks, toks);
    if e.Ok? {
      assert TrainingExtraction(h, result, doc) == Ok(Render(e.value));
    }
  }
}

=== FILE: wrappers.dfy ===
/** Absent values and failures.

    Java's `null` becomes `None` wherever the modelled code treats a null
    differently from an empty value, and the exceptions the modelled code can
    raise become `Err` values carrying a `Failure`.
 */
module Wrappers {

  datatype Option<+T> = None | Some(value: T) {

    /** The value, or a default when absent. */
    function GetOr(default: T): T {
      match this
      case Some(v) => v
      case None => default
    }
  }

  /** The exceptions of the modelled code that end a whole pass. */
  datatype Failure =
    | TooManyBlocks(count: nat, limit: int)   // GrobidException with status TOO_MANY_BLOCKS
    | NullReference(site: string)             // a NullPointerException at the named site
    | IndexOutOfRange(site: string)           // an IndexOutOfBoundsException at the named site

  datatype Result<+T> = Ok(value: T) | Err(failure: Failure) {

    predicate IsFailure() {
      Err?
    }

    function PropagateFailure<U>(): Result<U>
      requires Err?
    {
      Err(failure)
    }

    function Extract(): T
      requires Ok?
    {
      value
    }
  }
}
